=== FILE: README.md ===
# SDdatatools convection-map glue, modelled in Dafny

SuperDARN Canada's SDdatatools wraps the Radar Software Toolkit (RST) to
turn fitted radar data into convection maps. The science happens inside the
RST programs. This project models the deterministic glue around them:

- `Omni` (`DARNprocessing/IMF_scripts/omni.py`):
  - names the OMNI and IMF files of a date and computes the OMNI start
    time, ten minutes before midnight;
  - decides whether the local OMNI file is stale;
  - reads the availability date and the download link scraped from the
    OMNI web site;
  - converts the OMNI records into the IMF lines RST reads.
- `ConvectionMaps` (`DARNprocessing/plotting_scripts/convectionmaps.py`):
  - merges the parameter dictionary with its defaults and derives the
    hemisphere code and every file name from it;
  - builds the grid options of each radar from its channel letters;
  - validates data file extensions and strips the compression suffix;
  - counts the radars whose grid was made;
  - runs the map steps in order and chooses the IMF input of the model step.
- `check_rst_command` and `file_exists` (`DARNprocessing/utils/utils.py`).
- The exception and warning classes and their messages.
- The constant tables.
- The web helper `compute_maps` (`webapps/computemaps.py`): its end time,
  its parameters and its image name.

Every shell command, file-system call and web request is an input. The
driver's `Env` record supplies:

- exit codes and glob matches;
- `isfile`, `getsize` and `copy2`;
- the channel check and file contents;
- the output of the two `curl` requests;
- whether the log file opens.

The model computes each command line the driver would run and does not run
it. Python's `datetime`, `str.split`, `str.strip`, `str.replace`, `re.sub`
with a one-character wildcard, `int`, `float` and `os.path.basename` are
written out in the `Calendar` and `Text` modules, and `datetime.strptime`
for the package's two formats in the `Strptime` module, within the limits
listed under "## Left out". A failure is a `Failure`: a raised exception or
warning of the package, or a built-in Python error with its message as
CPython 3.10 to 3.13 words it.

The model follows the code as written, quirks included. Each quirk is a
stated property:

- `check_for_updates` joins `omni_path`, which already ends in the file
  name, with the file name again. The path it checks is never the file
  (`OmniFiles.UpdateCheckDoublesName`).
- `get_data_availability` splits the bytes `check_output` returns on the
  `str` `" "`, which is a `TypeError` under Python 3. So a successful
  fetch never yields a date, and `check_for_updates` never answers True
  (`OmniFiles.GetDataAvailability`, `OmniFiles.CheckForUpdates`). The
  lookup is not reached in practice: the path it is guarded by is never
  a file.
- `omnifile_to_IMFfile` raises `OmniFileNotFoundWarning` with an argument
  its constructor does not take. An unreadable OMNI file is therefore a
  `TypeError` (`OmniFiles.OmniFileToImf`).
- `EmptyDataFileWarning` can never be built:
  - with two arguments, the format keyword is misspelt (`KeyError`);
  - called with one argument, as the driver does, it is a `TypeError`
    (`Warnings.NewEmptyDataFile`, `ConvectionMaps.AfterCopy`).
- The `FileDoesNotExistException` message keeps an unfilled `{}`
  (`Exceptions.FileMessageIgnoresName`).
- A single chosen channel reads the variable `chan`, which only the
  all-channels branch binds. Every grid attempt then fails, and the grid
  step ends in `NoGridFilesException` (`ConvectionMaps.ChannelChosenNoGrids`).
- `re.sub('.' + ext, '', name)` deletes every character followed by the
  extension, not only the suffix (`ConvectionMaps.StripDeletesEveryMatch`).
- A copy onto the same file appends to `radars_missing`, which the driver
  never initialises. The result is an `AttributeError`.
- The grid step is handed the glob pattern `{plot_path}/{date}*{abbrv}*.fitacf`
  in place of a data file name.
- The IMF map is checked in the map path but written to the plot path.
  `check_rst_command` looks only at the files that match, so the check
  passes when nothing is there. It fails only on a non-zero exit code or
  a stale empty file of that name in the map path
  (`ConvectionMaps.ImfMapCheckedElsewhere`).
- `_imf_option` is `" -imf"` and the model input is the IMF map, whatever
  the OMNI stage did.
- `compute_maps` passes its paths under keys (`datapath`, `plotpath`, ...)
  that the driver never reads. The paths stay the working directory
  (`ComputeMaps.WebPipeline`).

## Model

| member | source | states |
|---|---|---|
| OmniFiles.NewOmni | DARNprocessing/IMF_scripts/omni.py:27-49 | The file names are `{date}_omni.txt` and `{date}_imf.txt` under the given directory. The OMNI start time is the previous calendar day followed by `23`. Construction succeeds exactly when `{date} 00:00` parses and its day is not 0001-01-01. An unparsable text raises `strptime`'s own ValueError, and the first day the OverflowError `date value out of range`. |
| OmniFiles.EveningBefore | DARNprocessing/IMF_scripts/omni.py:46-49 | Midnight minus ten minutes exists iff the day is not the first one. It is 23:50 of the previous day, which prints as that day and hour `23`. |
| OmniFiles.NamesReadBack | DARNprocessing/IMF_scripts/omni.py:35-41 | Each path ends in its file name, and the date can be read back from both names. |
| OmniFiles.GetDataAvailability | DARNprocessing/IMF_scripts/omni.py:51-76 | It never returns a date. An unparsable start raises `strptime`'s ValueError for that text, and a failed fetch an `OmniException`. A successful fetch is the TypeError of splitting `check_output`'s bytes on a `str`. No other failure is an `OmniException`. |
| OmniFiles.ReadAvailability | DARNprocessing/IMF_scripts/omni.py:76 | Read as text, the line gives a date iff it has a fourth space-separated token that `strptime(..., '%Y-%m-%d')` accepts, and that date is the result. Fewer than four tokens is the IndexError. A token `strptime` rejects raises its ValueError. |
| OmniFiles.AvailabilityIsFourthToken | DARNprocessing/IMF_scripts/omni.py:76 | Read as decoded text, a scraped line whose fourth token is a printed date yields that date, whatever the other tokens are. |
| OmniFiles.CheckForUpdates | DARNprocessing/IMF_scripts/omni.py:78-112 | A missing file raises `OmniFileNotFoundWarning`. A failed fetch gives False. A successful fetch is the TypeError of the lookup, so the check never answers True. A non-empty argument replaces the file name. |
| OmniFiles.UpdateCheckDoublesName | DARNprocessing/IMF_scripts/omni.py:91-96 | The path it checks repeats the file name. When files have nothing below them, the check reports the file missing even though it exists. |
| OmniFiles.GetOmniFile | DARNprocessing/IMF_scripts/omni.py:114-161 | A failed request is an `OmniException` carrying the command's failure. Otherwise the download is `curl -o <omni path> <normalised link>`. It fails only with the OSError of `getsize` on a missing file, and `OmniFileNotGeneratedWarning` is never raised. |
| OmniFiles.NoHttps | DARNprocessing/IMF_scripts/omni.py:140 | A plain-http link holds no `https`, so the upgrade branch is taken. The path after `http://` is assumed to hold no further `http`; a staging name containing an `h` on its own is covered. |
| OmniFiles.HttpUpgraded | DARNprocessing/IMF_scripts/omni.py:141 | `replace('http', 'https')` upgrades the one `http` at the front of the link. The path after `http://` is assumed to hold no further `http`; a staging name containing an `h` on its own is covered. |
| OmniFiles.StripRepr | DARNprocessing/IMF_scripts/omni.py:142-143 | Stripping the bytes quotes and then the escaped newline leaves exactly the link. |
| OmniFiles.NormaliseHttpRepr | DARNprocessing/IMF_scripts/omni.py:140-143 | Python 3's text of a plain-http link, `b'http://...lst\n'`, normalises to the https link. The path after `http://` is assumed to hold no further `http`; a staging name containing an `h` on its own is covered. |
| OmniFiles.DownloadArguments | DARNprocessing/IMF_scripts/omni.py:144-150 | The download call's arguments are exactly `curl`, `-o`, the OMNI path and the https link, for a path with no further `http` and no spaces. |
| OmniFiles.ImfLineFields | DARNprocessing/IMF_scripts/omni.py:197-203 | An IMF line split on whitespace gives back its nine fields, with seconds `00`. |
| OmniFiles.DateOf | DARNprocessing/IMF_scripts/omni.py:191-192 | It succeeds iff both fields are integers, the year is in 1..9999 and January 1 plus `doy - 1` days is a representable date. The date is then that many days after January 1. A non-integer year is reported first, and a year outside the C `int` range is an OverflowError before its range is checked. |
| OmniFiles.DeltaBeyondDates | DARNprocessing/IMF_scripts/omni.py:191-192 | A day count beyond what a `timedelta` holds never gives a date. |
| OmniFiles.DateOfDayOfYear | DARNprocessing/IMF_scripts/omni.py:189-195 | A day of year within its year lands in that year, on exactly that day of the year. |
| OmniFiles.ConvertLine | DARNprocessing/IMF_scripts/omni.py:186-203 | A line converts iff it has eight fields and its year and day give a date. A line with any other field count is the unpacking error for that count. A converted line is exactly `"{year} {MM} {DD} {hour} {minute} 00 {Bx} {By} {Bz}\n"`, with the fields as read and the two-digit month and day of the date. |
| OmniFiles.Step | DARNprocessing/IMF_scripts/omni.py:183-206 | A line is written iff it converts. It is counted iff its `BM` also parses, and it is bad iff `BM > 999`. |
| OmniFiles.ConvertLines | DARNprocessing/IMF_scripts/omni.py:183-207 | Lines are written one per input line, in order. A run without failure writes every line. All lines are bad iff the bad count equals the line count. |
| OmniFiles.FirstFailingLine | DARNprocessing/IMF_scripts/omni.py:183-206 | A failing conversion stops at the first line that fails, with that line's error. |
| OmniFiles.ImfOf | DARNprocessing/IMF_scripts/omni.py:179-210 | The IMF file is kept iff every line converts and not every line is bad; it then holds one line per OMNI line. The file is removed with `OmniBadDataWarning(date)` iff every line converts and every line is bad, which includes an empty file. A conversion that stops leaves the lines written so far and raises the stopping line's built-in error. |
| OmniFiles.ImfOfFirstFailure | DARNprocessing/IMF_scripts/omni.py:183-207 | When some line does not convert, the error raised is the built-in error of the first such line, every line before it converted, and the IMF file holds what the loop wrote. |
| OmniFiles.OmniFileToImf | DARNprocessing/IMF_scripts/omni.py:163-210 | An unreadable file is a TypeError and leaves the IMF file untouched. A readable one behaves as `ImfOf` on its lines. `OmniFileNotFoundWarning` never escapes. |
| OmniFiles.FilenameOverrideIgnored | DARNprocessing/IMF_scripts/omni.py:169-176 | The file name argument changes the recorded name only: the same path is read and the same IMF file results. |
| Calendar.AddDays | DARNprocessing/IMF_scripts/omni.py:191-192 | Adding `n` days is defined iff the ordinal stays within 1..3652059, and the result's ordinal is `n` more. |
| Calendar.AddDaysDayOfYear | DARNprocessing/IMF_scripts/omni.py:191-195 | January 1 plus `doy - 1` days lands in the same year on day of year `doy`, for every day that year has. |
| Calendar.AddSeconds | webapps/computemaps.py:19 | A result exists iff the start's ordinal plus the whole days of `second + s` stays within 1..3652059. The result is a valid moment whose position on the time line is `s` seconds later. |
| Calendar.AddSecondsRoundTrip | webapps/computemaps.py:19 | Adding `s` seconds and then `-s` seconds returns to the start. |
| Strptime.MatchSound | webapps/computemaps.py:16-18 | What the matcher finds is a match of the format's expression from the start of the text: the pieces are contiguous, `%Y` matches four digits, each other directive one of CPython's alternatives for it, and the space a non-empty run of whitespace. |
| Strptime.ParseDateTime | webapps/computemaps.py:16-18 | A text the expression does not match is `time data <repr of text> does not match format '%Y%m%d %H:%M'`. Every failure is a ValueError. A result is a valid whole-minute moment. |
| Strptime.NewDate | DARNprocessing/IMF_scripts/omni.py:47 | A date results iff year, month and day name a valid date. A year outside 1..9999 is `year N is out of range`, checked first. With year and month in range, any failure is `day is out of range for month`. |
| Strptime.ParseStartText | webapps/computemaps.py:16-18 | For a text with `%Y%m%d`, a run of spaces and `%H:%M`, followed by `rest`: non-empty `rest` is `unconverted data remains: <rest>`; otherwise year 0 is `year 0 is out of range`, a day past the month's end is `day is out of range for month`, and any other text reads as that moment. |
| Strptime.ParseFormatted | webapps/computemaps.py:16-20 | A whole-minute moment printed as `%Y%m%d %H:%M` reads back as itself. |
| Strptime.ParsedPrintsBack | webapps/computemaps.py:16-20 | A text in the printed form, four, two and two digits, one space and `HH:MM`, that parses prints back as the same text. |
| Strptime.NoLeadingYear | webapps/computemaps.py:16-18 | A text that does not open with four digits is the does-not-match ValueError under both formats. |
| Strptime.ClockAtEnd | DARNprocessing/IMF_scripts/omni.py:46-47 | A text that ends in `HH:MM` and parses is read at that hour and minute, which are then below 24 and 60. |
| Strptime.ParseIsoDate | DARNprocessing/IMF_scripts/omni.py:76 | A text `%Y-%m-%d` does not match is the does-not-match ValueError. Every failure is a ValueError, and a result is a valid date. |
| Strptime.ParseIsoFormatted | DARNprocessing/IMF_scripts/omni.py:76 | A date printed as `%Y-%m-%d` reads back as itself. |
| Strptime.ReprPlain | webapps/computemaps.py:16-18 | In the mismatch message, printable ASCII text without a backslash or the quote `repr` picks for it appears unchanged between two of those quotes. |
| Text.StripOf | DARNprocessing/IMF_scripts/omni.py:142-143 | `strip(chars)` removes exactly the leading and trailing runs of those characters. |
| Text.Basename | DARNprocessing/plotting_scripts/convectionmaps.py:464 | The base name is the longest slash-free suffix. |
| Text.SplitLines | DARNprocessing/IMF_scripts/omni.py:174 | The lines hold no line boundary, and only the empty text has no lines. |
| Constants.SouthTableWellFormed | DARNprocessing/utils/convectionMapConstants.py:83-94 | Every prefix key is one lower-case letter. Every acronym has three lower-case letters. Every prefix names a southern radar, and no radar is listed twice. |
| Constants.NorthTableWellFormed | DARNprocessing/utils/convectionMapConstants.py:128-144 | The same for the northern tables. |
| Constants.HemispheresDisjoint | DARNprocessing/utils/convectionMapConstants.py:93-144 | No radar is in both hemispheres. |
| Constants.FileTablesAgree | DARNprocessing/utils/convectionMapConstants.py:37-61 | The decompress commands cover exactly the compression types. The only file type is `fitacf`. The OMNI delay is the ten minutes `Omni` subtracts. |
| Exceptions.MessageIsArgument | DARNprocessing/utils/convectionMapExceptions.py:19-57 | `OmniException` and `UnsupportedTypeException` keep their argument as the message. |
| Exceptions.PathMessageRoundTrip | DARNprocessing/utils/convectionMapExceptions.py:31-34 | The path can be read back from the message. |
| Exceptions.FileMessageIgnoresName | DARNprocessing/utils/convectionMapExceptions.py:43-46 | The message is the same for every file name and holds an unfilled `{}`. |
| Exceptions.RstMessageRoundTrip | DARNprocessing/utils/convectionMapExceptions.py:67-74 | The program name and the return value can be read back from the message. |
| Exceptions.RstEmptyMessageRoundTrip | DARNprocessing/utils/convectionMapExceptions.py:83-86 | The file name can be read back from the message. |
| Exceptions.NoGridMessageRoundTrip | DARNprocessing/utils/convectionMapExceptions.py:95-99 | The radar list can be read back from the message, in order. |
| Warnings.NewOmniFileNotFound | DARNprocessing/utils/convectionMapWarnings.py:37-39 | Only the call without arguments builds the warning, with the fixed message. Any argument is a TypeError. |
| Warnings.OmniFileNotFoundOneArgument | DARNprocessing/utils/convectionMapWarnings.py:37 | One argument gives CPython's `OmniFileNotFoundWarning.__init__() takes 1 positional argument but 2 were given`. |
| Warnings.NewEmptyDataFile | DARNprocessing/utils/convectionMapWarnings.py:64-69 | Construction always fails. Two arguments give the KeyError of the misspelt keyword, and any other count gives a TypeError. |
| Warnings.EmptyDataFileMissingArguments | DARNprocessing/utils/convectionMapWarnings.py:64 | One argument gives CPython's `... missing 1 required positional argument: 'process'`. No argument names both missing parameters. |
| Warnings.NotGeneratedRoundTrip | DARNprocessing/utils/convectionMapWarnings.py:20-27 | The file name and the date can be read back from the message. |
| Warnings.BadDataRoundTrip | DARNprocessing/utils/convectionMapWarnings.py:49-54 | The date can be read back from the message. |
| Warnings.FileNotFoundRoundTrip | DARNprocessing/utils/convectionMapWarnings.py:79-85 | The file name and the process name can be read back from the message. |
| Warnings.FileNotFoundGluesProcess | DARNprocessing/utils/convectionMapWarnings.py:81-84 | The process name follows `the` with no space. |
| Warnings.ConvertRoundTrip | DARNprocessing/utils/convectionMapWarnings.py:96-103 | The ps file and the extension can be read back from the message. |
| Utils.FileExists | DARNprocessing/utils/utils.py:17-28 | True iff the file exists. Otherwise it is an IOError whose message is the name followed by ` does not exists`. |
| Utils.CommandName | DARNprocessing/utils/utils.py:48-50 | A command is reported under its first whitespace-separated word. A blank command is an IndexError. |
| Utils.RstCheck | DARNprocessing/utils/utils.py:31-54 | A non-zero exit is an `RSTException` of the first word and the code, never `RSTFileEmptyException`. With exit 0, the first empty match in glob order is `RSTFileEmptyException`. No match, or only non-empty ones, return normally. There is no other outcome. |
| Utils.CheckRstCommand | DARNprocessing/utils/utils.py:47-54 | The loop over the matched files computes the same outcome as `RstCheck`. |
| ConvectionMaps.MergeParameters | DARNprocessing/plotting_scripts/convectionmaps.py:105-130 | Given keys override the defaults, other defaults stay and unknown keys are added. An absent or None date is the ValueError. |
| ConvectionMaps.HemisphereCode | DARNprocessing/plotting_scripts/convectionmaps.py:132-138 | `n` iff `'north'`, `s` iff `'south'`. Any other value leaves the code unbound. |
| ConvectionMaps.GeneratePaths | DARNprocessing/plotting_scripts/convectionmaps.py:281-305 | It succeeds iff the plot, grid, map and data paths are present and are strings. |
| ConvectionMaps.Configure | DARNprocessing/plotting_scripts/convectionmaps.py:132-172 | It succeeds iff the hemisphere is north or south, the paths are strings, the data path exists and the log file `{logpath}/{date}_map.{h}.log` opens. That file name is added and no other parameter changes. Otherwise it gives the unbound-code error, `PathDoesNotExistException`, or the FileNotFoundError of the log file, in that order. |
| ConvectionMaps.NewPipeline | DARNprocessing/plotting_scripts/convectionmaps.py:105-130 | With no parameters, the command line is used unmerged. Otherwise the merge's ValueError comes first, then construction. |
| ConvectionMaps.MergedConstruction | DARNprocessing/plotting_scripts/convectionmaps.py:105-158 | With a date and a valid or default hemisphere, construction succeeds iff the merged data path exists, the log file opens and every path is a string. |
| ConvectionMaps.GridNameFields | DARNprocessing/plotting_scripts/convectionmaps.py:350-353 | The grid name splits on dots into date, radar, hemisphere code and `grid`. |
| ConvectionMaps.GrdNameFields | DARNprocessing/plotting_scripts/convectionmaps.py:537-538 | The grd name splits into date, code and `grd`. |
| ConvectionMaps.MapNameFields | DARNprocessing/plotting_scripts/convectionmaps.py:572-614 | A map name splits into date, code, stage and `map`. |
| ConvectionMaps.NamesDistinct | DARNprocessing/plotting_scripts/convectionmaps.py:537-617 | Names of the two hemispheres never collide, nor do map files of different stages. |
| ConvectionMaps.DetectChannels | DARNprocessing/plotting_scripts/convectionmaps.py:368-374 | A letter is chosen iff its tag `.x.` is in the name or the check finds it. The order of the letters is kept. The search fails iff a check it needs fails. |
| ConvectionMaps.VeMaxTextAgrees | DARNprocessing/plotting_scripts/convectionmaps.py:398-405 | `-vemax` is given the table's `1000000`. |
| ConvectionMaps.MakeGrid | DARNprocessing/plotting_scripts/convectionmaps.py:393-421 | The status is 0 iff the command exits 0 and no matched output is empty, and 1 otherwise. Status 1 appends the data file to the error report. The grid file is removed only for an empty output. |
| ConvectionMaps.GridSetup | DARNprocessing/plotting_scripts/convectionmaps.py:348-386 | The grid path is `{grid_path}/{date}.{abbrv}.{h}.grid` and the options are `-tl 120 -i {it}` plus the fixes. A chosen channel is the unbound `chan` error. |
| ConvectionMaps.GridOptionsChannels | DARNprocessing/plotting_scripts/convectionmaps.py:361-374 | The options read back as exactly the channels a..h, in order, whose tag is in the name or whose check succeeds. |
| ConvectionMaps.GenerateRadarGridFile | DARNprocessing/plotting_scripts/convectionmaps.py:328-390 | A file name without the acronym is the mismatch ValueError, raised before any command. A grid is made only with the acronym and the all-channels setting. |
| ConvectionMaps.Extension | DARNprocessing/plotting_scripts/convectionmaps.py:446 | The extension is the dot-free tail of the name. |
| ConvectionMaps.PrepareDataFile | DARNprocessing/plotting_scripts/convectionmaps.py:442-511 | `UnsupportedTypeException` iff the extension is unsupported. A missing file is `FileDoesNotExistException`. A successful copy continues as `AfterCopy` on the copied path. Any other path adds nothing to the report. |
| ConvectionMaps.AfterCopy | DARNprocessing/plotting_scripts/convectionmaps.py:486-508 | A compressed file is decompressed with its table command and its suffix is stripped. Its base name is added to the used report. It is accepted iff its size is positive. Size 0 is the TypeError of the warning. |
| ConvectionMaps.StripCompression | DARNprocessing/plotting_scripts/convectionmaps.py:492 | Without other matches, only the compression suffix goes. |
| ConvectionMaps.StripAfterMatch | DARNprocessing/plotting_scripts/convectionmaps.py:492 | A leading character followed by the extension is deleted along with the suffix. |
| ConvectionMaps.StripDeletesEveryMatch | DARNprocessing/plotting_scripts/convectionmaps.py:492 | A directory like `/xbz2` loses `xbz2` too, so the size check looks at another path. |
| ConvectionMaps.RadarStep | DARNprocessing/plotting_scripts/convectionmaps.py:436-527 | One radar only extends the two reports. A radar whose grid was made adds no error. |
| ConvectionMaps.RadarLoop | DARNprocessing/plotting_scripts/convectionmaps.py:434-527 | The count is 0 iff no radar's grid was made, and all radars iff every one was. Nothing but the reports changes. |
| ConvectionMaps.GenerateGridFiles | DARNprocessing/plotting_scripts/convectionmaps.py:424-552 | `NoGridFilesException` with the hemisphere's radars is raised iff no grid was made. On success some grid was made and `combine_grid` into `{plot_path}/{date}.{h}.grd` ran cleanly. The reports only grow. |
| ConvectionMaps.GridFilesMissingKey | DARNprocessing/plotting_scripts/convectionmaps.py:424-540 | A missing hemisphere, data path or date is the KeyError of the first one missing. A missing plot path is a KeyError only once some grid was made. |
| ConvectionMaps.GridFilesOutcome | DARNprocessing/plotting_scripts/convectionmaps.py:424-552 | With the parameters present, the step succeeds iff some radar made a grid and `combine_grid` passed its check. Once a grid was made, a failed combine is the step's error. |
| ConvectionMaps.CombineGrids | DARNprocessing/plotting_scripts/convectionmaps.py:537-552 | It succeeds iff the plot path is set and `combine_grid` into the grd file runs cleanly. |
| ConvectionMaps.PatternNamesRadar | DARNprocessing/plotting_scripts/convectionmaps.py:513-521 | The pattern handed to the grid step holds the acronym, so the mismatch check never fires there. |
| ConvectionMaps.ChannelChosenNoGrids | DARNprocessing/plotting_scripts/convectionmaps.py:368-378 | Choosing one channel makes the grid step end in `NoGridFilesException` for the whole hemisphere. |
| ConvectionMaps.UpdateWanted | DARNprocessing/plotting_scripts/convectionmaps.py:623-638 | A missing OMNI file means an update. The check's answer is used otherwise, and any other failure propagates. |
| ConvectionMaps.FetchAndConvert | DARNprocessing/plotting_scripts/convectionmaps.py:641-662 | A wanted download that fails ends the stage quietly iff the failure is one of the caught OMNI failures, and otherwise raises it. After the download, or without one, the stage fails iff the conversion raises an uncaught failure, and with that failure. A download is made only when wanted. The IMF file becomes `{map_path}/{date}_imf.txt` iff download and conversion both succeed. |
| ConvectionMaps.OmniStep | DARNprocessing/plotting_scripts/convectionmaps.py:619-662 | A successful stage had a valid `Omni`, and its converted file is `{map_path}/{date}_imf.txt`. |
| ConvectionMaps.OmniStepOutcome | DARNprocessing/plotting_scripts/convectionmaps.py:619-662 | The stage raises the error of the first failing part: the `Omni` construction, then the update check other than a missing file, then the download and conversion. It succeeds iff the download and conversion do. |
| ConvectionMaps.ChooseImf | DARNprocessing/plotting_scripts/convectionmaps.py:609-662 | An existing `{imf_path}/{date}_imf.txt` is used with no OMNI stage. Otherwise the choice succeeds iff the OMNI stage does, and fails with its error. The converted file is used, or the original name when the stage was cut short. |
| ConvectionMaps.ModelAndFit | DARNprocessing/plotting_scripts/convectionmaps.py:679-720 | It succeeds iff `map_addmodel` and `map_fit` pass their checks and the copy to `{map_path}/{date}.map` does not fail. It fails with the first failing check's error, or the IOError of the copy. The final map is the hemisphere's. |
| ConvectionMaps.ImfOnwards | DARNprocessing/plotting_scripts/convectionmaps.py:664-720 | `map_addimf` is checked in the map path. It succeeds iff that check and the model and fit do, failing with the first error. The option becomes ` -imf` and the model input is the IMF map, for any IMF file. |
| ConvectionMaps.ImfModelFit | DARNprocessing/plotting_scripts/convectionmaps.py:609-720 | A missing IMF or map path is its KeyError. Otherwise it fails with the IMF choice's error, or succeeds iff the steps from `map_addimf` do. A success sets ` -imf` and models the IMF map, whatever the OMNI stage did. The IMF file is the existing or the converted one. |
| ConvectionMaps.EmptyAndHmb | DARNprocessing/plotting_scripts/convectionmaps.py:561-607 | A missing grd file is the `file_exists` IOError. Otherwise it succeeds iff `map_grd` and then `map_addhmb` pass their checks, failing with the first failing check's error. |
| ConvectionMaps.GenerateMapFiles | DARNprocessing/plotting_scripts/convectionmaps.py:555-720 | On success the five map programs ran cleanly in order, and the grd file existed. The IMF option is ` -imf`, the final map is the hemisphere's, and the IMF map was checked in the map path. |
| ConvectionMaps.MapFilesOutcome | DARNprocessing/plotting_scripts/convectionmaps.py:555-720 | A missing hemisphere, plot path or date is the KeyError of the first one missing. Otherwise the step succeeds iff the first two map steps and the steps from `map_addimf` do, failing with the first error. |
| ConvectionMaps.SouthernMapFlag | DARNprocessing/plotting_scripts/convectionmaps.py:562-589 | `map_grd` carries ` -sh` in the south and no options elsewhere. |
| ConvectionMaps.NeverCanadian | DARNprocessing/plotting_scripts/convectionmaps.py:696-702 | A constructed object never makes the `canadian` map. |
| ConvectionMaps.ImfMapCheckedElsewhere | DARNprocessing/plotting_scripts/convectionmaps.py:664-675 | The check of `map_addimf` passes iff it exits with 0 and no file of the IMF map's name in the map path is empty. With nothing there it passes. With distinct paths, what was written to the plot path never changes the outcome. |
| ComputeMaps.EndTime | webapps/computemaps.py:15-20 | A start that `strptime` rejects raises its ValueError for `{date} {start_time}`: no match, unconverted data, or a year or day out of range. Otherwise the result is `ClockAfter` of the parsed start. |
| ComputeMaps.ClockAfter | webapps/computemaps.py:19-20 | A clock results iff the moment `integrationTime` seconds later is representable; it is the start second plus the interval, wrapped past midnight. A whole-day count beyond 999999999 in size is the `timedelta` OverflowError for that count; otherwise a moment past the representable dates is "date value out of range". |
| ComputeMaps.WholeDaysKeepClock | webapps/computemaps.py:16-20 | For a start time written `HH:MM`, a whole number of days ends at the start time as given. |
| ComputeMaps.StartClock | webapps/computemaps.py:16-18 | A start time written `HH:MM` that parses prints back as its own text. |
| ComputeMaps.WebMerged | webapps/computemaps.py:22-30 | The date, times and integration time are kept. The hemisphere, log path and every path are the defaults. |
| ComputeMaps.WebGiven | webapps/computemaps.py:22-30 | The helper sets none of the keys the driver reads for paths and hemisphere. |
| ComputeMaps.WebPipeline | webapps/computemaps.py:22-30 | Construction succeeds iff the working directory exists and the log file `{cwd}/{date}_map.n.log` opens, failing with the matching error. Every path is the working directory and the code is `n`. |
| ComputeMaps.ComputeMaps | webapps/computemaps.py:5-39 | An end-time failure comes before any map work, then construction. After that it succeeds iff the grid and map steps do, failing with the first error. On success the image is `static/{date}.{start_time[0:2]}{start_time[3:]}.00.png`, the computed end time is passed on and some grid was made. |

## Left out

- Running the RST programs, `dmapdump`, `curl`, `gzip`/`bzip2` and `convert`:
  - their exit codes, outputs and channel checks are inputs;
  - the result of `_check_for_channel` (`convectionmaps.py` 308-325) is an
    input, because under Python 3 comparing its bytes with 0 raises.
- The file system:
  - `glob`, `isfile`, `getsize`, `copy2` and file contents are inputs that
    do not change between steps;
  - the effects of `makedirs`, `os.remove`, `shutil.move` of the old OMNI
    file and the IMF file's contents on disk are recorded, not applied;
  - an object's attributes after a raise are not modelled.
- What is logged, `datetime.now` and the date of the renamed old OMNI file,
  since they do not change any result. Opening the log file does, and is
  modelled: the `logOpens` input says whether `logging.basicConfig` opens
  it (it opens nothing when the root logger already has a handler).
- ConvectionMaps.Configure: the FileNotFoundError of a log file that cannot
  be opened names the file as given, while Python names it made absolute.
- `create_command_line_args` and `parse_command_line_args`: argparse
  configuration. The command-line parameters are an input.
- `path_exists`: not defined in the utilities shown. It is an input predicate
  whose failure is `PathDoesNotExistException`.
- `generate_RST_convection_maps` and `cleanup`: plotting and file deletion
  with no decision logic beyond `ConvertWarning`, whose message is modelled.
  `ComputeMaps.ComputeMaps` stops before them.
- The https-present branch of `get_omni_file` under Python 3 (stripping
  bytes with a `str` raises TypeError). The scraped link is modelled as text.
- OmniFiles.SignalName: a `curl` shell killed by a signal is reported with
  the Linux signal names of Python 3.11 and later. Other platforms number
  signals differently, and Python 3.10 has no name for signal 16.
- The `src/` prototype, the Flask web UI, the tests and the packaging.
- The modification-time comparison of `check_for_updates` (`omni.py`
  104-112): under Python 3 the availability lookup before it always
  raises, so the comparison is never reached and the file's `getmtime` is
  not an input.
- Strptime.ParseDateTime: `\d` is matched on ASCII digits only. Python's
  `re` also matches the other Unicode decimal digits, which `int()` then
  reads. The same holds for `Strptime.ParseIsoDate`.
- Strptime.Repr: escapes the unprintable characters below U+0100 as
  `repr` does. Characters above U+00FF are copied as they are, while
  `repr` escapes the unprintable ones among them.
- Strptime.ParsedPrintsBack: only for text in the printed form. Unpadded
  fields and several spaces parse too, but print back padded and with one
  space.
- ComputeMaps.StartClock: only for a start time written `HH:MM`. A start
  time `9:05` parses and prints back as `09:05`.
- ComputeMaps.WholeDaysKeepClock: the same.
- Calendar.FormatDate: prints years below 1000 zero-padded to four digits,
  while the C library prints them unpadded.
- Text.ParseDecimal: `float()` is modelled on plain decimals only. Exponents,
  `inf`, `nan` and underscores are treated as unparsable. The value is the
  exact decimal, not the nearest double. So a BM field just above 999, such
  as `999.0000000000000001`, counts as bad in `OmniFiles.Step`, while
  `float()` rounds it to 999.0 and the source counts the line good.
- Text.ParseInt: `int()` is modelled on an optional sign and ASCII digits.
  Underscores between digits (`2_018`) and non-ASCII digits, which `int()`
  accepts, are treated as unparsable. The day count of a line beyond the C
  `int` range is given the overflow message of `timedelta`'s conversion,
  which is not checked against every Python version.
- Parameter values other than None, strings and integers are not modelled.
- ConvectionMaps.RadarStep: states that the reports only grow, not their
  exact text (which `DataStage` computes).
- ConvectionMaps.RadarLoop: the same.
- ConvectionMaps.GenerateGridFiles: the same.
- ConvectionMaps.OmniStep: does not restate that the caught OMNI failures
  never escape; `ConvectionMaps.FetchAndConvert` states that.
- ConvectionMaps.ChooseImf: the same.

=== FILE: builtins.dfy ===
/** The Python built-in exceptions the glue code can end in, either on
    purpose (`IOError` in `file_exists`) or by accident (an unbound local, a
    constructor called with the wrong arguments, a format key mismatch). */
module Builtins {

  datatype BuiltinError =
    | ValueError(message: string)
    | TypeError(message: string)
    | KeyError(key: string)
    | IndexError
    | OverflowError(message: string)
    | UnboundLocalError(name: string)
    | AttributeError(name: string)
    | IOError(message: string)
    | OSError(message: string)

  /** The `FileNotFoundError` (an OSError) of opening or measuring a file
      that is not there. */
  function NoSuchFile(path: string): BuiltinError {
    OSError("[Errno 2] No such file or directory: '" + path + "'")
  }
}

=== FILE: calendar.dfy ===
/** The proleptic Gregorian calendar of Python's `datetime`, restricted to
    what the pipeline uses: dates in years 1..9999, adding whole days and
    seconds (`datetime + timedelta`), and the `"%Y%m%d %H:%M"`, `"%Y%m%d%H"`
    and `"%H:%M"` text forms. */
module Calendar {
  import opened Outcomes
  import opened Text

  const MinYear: int := 1
  const MaxYear: int := 9999
  const SecondsPerDay: int := 86400

  datatype Date = Date(year: int, month: int, day: int)

  /** A moment of a day, to the second (the pipeline never uses fractions). */
  datatype DateTime = DateTime(date: Date, second: int)

  predicate IsLeap(y: int) {
    y % 4 == 0 && (y % 100 != 0 || y % 400 == 0)
  }

  function DaysInYear(y: int): int {
    if IsLeap(y) then 366 else 365
  }

  function DaysInMonth(y: int, m: int): int
    requires 1 <= m <= 12
  {
    if m == 2 then (if IsLeap(y) then 29 else 28)
    else if m == 4 || m == 6 || m == 9 || m == 11 then 30
    else 31
  }

  predicate ValidDate(d: Date) {
    MinYear <= d.year <= MaxYear && 1 <= d.month <= 12 && 1 <= d.day <= DaysInMonth(d.year, d.month)
  }

  predicate ValidDateTime(t: DateTime) {
    ValidDate(t.date) && 0 <= t.second < SecondsPerDay
  }

  const FirstDate: Date := Date(MinYear, 1, 1)
  const LastDate: Date := Date(MaxYear, 12, 31)

  /** Days of year `y` before the first of month `m` (`m == 13` gives the whole year). */
  function DaysBeforeMonth(y: int, m: int): nat
    requires 1 <= m <= 13
  {
    if m == 1 then 0 else DaysBeforeMonth(y, m - 1) + DaysInMonth(y, m - 1)
  }

  /** Days from 0001-01-01 to the first of January of year `y`. */
  function DaysBeforeYear(y: int): nat
    requires y >= MinYear
  {
    if y == MinYear then 0 else DaysBeforeYear(y - 1) + DaysInYear(y - 1)
  }

  /** `date.toordinal()`: 0001-01-01 is day 1. */
  function Ordinal(d: Date): int
    requires ValidDate(d)
  {
    DaysBeforeYear(d.year) + DaysBeforeMonth(d.year, d.month) + d.day
  }

  /** No year holds more than 366 days. */
  lemma {:induction false} DaysBeforeYearBound(y: int)
    requires y >= MinYear
    ensures DaysBeforeYear(y) <= 366 * (y - 1)
  {
    if y > MinYear {
      DaysBeforeYearBound(y - 1);
    }
  }

  /** The ordinal of 9999-12-31, the last representable date. */
  const MaxOrdinal: int := 3652059

  /** The leap-year rule in closed form, as Python's `_days_before_year`
      computes it. */
  lemma {:induction false} DaysBeforeYearFormula(y: int)
    requires y >= MinYear
    ensures DaysBeforeYear(y) == 365 * (y - 1) + (y - 1) / 4 - (y - 1) / 100 + (y - 1) / 400
  {
    if y > MinYear {
      var x := y - 1;
      DaysBeforeYearFormula(x);
      QuotientSteps(x);
      assert DaysBeforeYear(y) == DaysBeforeYear(x) + DaysInYear(x);
    }
  }

  /** The leap-day count of the closed form grows by one exactly at a leap year. */
  lemma QuotientSteps(x: int)
    ensures (x / 4 - x / 100 + x / 400) - ((x - 1) / 4 - (x - 1) / 100 + (x - 1) / 400)
            == if IsLeap(x) then 1 else 0
  {
    QuotientStep(x, 4);
    QuotientStep(x, 100);
    QuotientStep(x, 400);
    DivisorsNest(x);
  }

  /** `x / d` grows by one from `x - 1` to `x` exactly when `d` divides `x`. */
  lemma QuotientStep(x: int, d: int)
    requires d in {4, 100, 400}
    ensures x / d - (x - 1) / d == if x % d == 0 then 1 else 0
  {
    var q, r := (x - 1) / d, (x - 1) % d;
    assert x - 1 == q * d + r && 0 <= r < d;
    if r == d - 1 {
      assert x == (q + 1) * d + 0;
    } else {
      assert x == q * d + (r + 1);
    }
  }

  /** A multiple of 400 is one of 100, and a multiple of 100 one of 4. */
  lemma DivisorsNest(x: int)
    ensures x % 400 == 0 ==> x % 100 == 0
    ensures x % 100 == 0 ==> x % 4 == 0
  {
  }

  lemma LastOrdinal()
    ensures Ordinal(LastDate) == MaxOrdinal
  {
    DaysBeforeYearFormula(MaxYear);
    WholeYear(MaxYear);
  }

  /** `date.timetuple().tm_yday`: the 1-based day of the year. */
  function DayOfYear(d: Date): int
    requires ValidDate(d)
  {
    DaysBeforeMonth(d.year, d.month) + d.day
  }

  // ---------------------------------------------------------------------------
  // Facts about the day counts

  lemma WholeYear(y: int)
    ensures DaysBeforeMonth(y, 13) == DaysInYear(y)
  {
    var feb := DaysInMonth(y, 2);
    assert DaysBeforeMonth(y, 2) == 31;
    assert DaysBeforeMonth(y, 3) == 31 + feb;
    assert DaysBeforeMonth(y, 4) == 62 + feb;
    assert DaysBeforeMonth(y, 5) == 92 + feb;
    assert DaysBeforeMonth(y, 6) == 123 + feb;
    assert DaysBeforeMonth(y, 7) == 153 + feb;
    assert DaysBeforeMonth(y, 8) == 184 + feb;
    assert DaysBeforeMonth(y, 9) == 215 + feb;
    assert DaysBeforeMonth(y, 10) == 245 + feb;
    assert DaysBeforeMonth(y, 11) == 276 + feb;
    assert DaysBeforeMonth(y, 12) == 306 + feb;
    assert DaysBeforeMonth(y, 13) == 337 + feb;
  }

  lemma {:induction false} MonthsIncrease(y: int, m: int, n: int)
    requires 1 <= m <= n <= 13
    ensures DaysBeforeMonth(y, m) <= DaysBeforeMonth(y, n)
    ensures m < n ==> DaysBeforeMonth(y, m) + DaysInMonth(y, m) <= DaysBeforeMonth(y, n)
    decreases n - m
  {
    if m < n {
      MonthsIncrease(y, m + 1, n);
    }
  }

  lemma {:induction false} YearsIncrease(y: int, z: int)
    requires MinYear <= y < z
    ensures DaysBeforeYear(y) + DaysInYear(y) <= DaysBeforeYear(z)
    decreases z - y
  {
    if z > y + 1 {
      YearsIncrease(y, z - 1);
    }
  }

  /** A valid date falls inside the ordinal range of its own year. */
  lemma OrdinalWithinYear(d: Date)
    requires ValidDate(d)
    ensures DaysBeforeYear(d.year) < Ordinal(d) <= DaysBeforeYear(d.year) + DaysInYear(d.year)
    ensures 1 <= DayOfYear(d) <= DaysInYear(d.year)
  {
    MonthsIncrease(d.year, d.month, 13);
    WholeYear(d.year);
  }

  /** Every valid date lies between the first and the last one. */
  lemma OrdinalRange(d: Date)
    requires ValidDate(d)
    ensures 1 <= Ordinal(d) <= MaxOrdinal
  {
    LastOrdinal();
    OrdinalWithinYear(d);
    WholeYear(MaxYear);
    if d.year < MaxYear {
      YearsIncrease(d.year, MaxYear);
    }
  }

  // ---------------------------------------------------------------------------
  // Stepping one day

  function NextDay(d: Date): Date
    requires ValidDate(d)
  {
    if d.day < DaysInMonth(d.year, d.month) then Date(d.year, d.month, d.day + 1)
    else if d.month < 12 then Date(d.year, d.month + 1, 1)
    else Date(d.year + 1, 1, 1)
  }

  function PrevDay(d: Date): Date
    requires ValidDate(d)
  {
    if d.day > 1 then Date(d.year, d.month, d.day - 1)
    else if d.month > 1 then Date(d.year, d.month - 1, DaysInMonth(d.year, d.month - 1))
    else Date(d.year - 1, 12, 31)
  }

  /** The day after is the next ordinal, and stepping back undoes it. */
  lemma NextDayOrdinal(d: Date)
    requires ValidDate(d) && d != LastDate
    ensures ValidDate(NextDay(d))
    ensures Ordinal(NextDay(d)) == Ordinal(d) + 1
    ensures PrevDay(NextDay(d)) == d
  {
    if d.day == DaysInMonth(d.year, d.month) && d.month == 12 {
      WholeYear(d.year);
    }
  }

  /** The day before is the previous ordinal, and stepping forward undoes it. */
  lemma PrevDayOrdinal(d: Date)
    requires ValidDate(d) && d != FirstDate
    ensures ValidDate(PrevDay(d))
    ensures Ordinal(PrevDay(d)) == Ordinal(d) - 1
    ensures NextDay(PrevDay(d)) == d
  {
    if d.day == 1 && d.month == 1 {
      WholeYear(d.year - 1);
    }
  }

  /** `date + timedelta(days=n)`, or `None` for Python's OverflowError when
      the result leaves years 1..9999. The result is the date whose ordinal
      is `n` more than that of `d`. */
  function AddDays(d: Date, n: int): (r: Option<Date>)
    requires ValidDate(d)
    ensures r.Some? ==> ValidDate(r.value) && Ordinal(r.value) == Ordinal(d) + n
    ensures r.Some? <==> 1 <= Ordinal(d) + n <= MaxOrdinal
    decreases if n < 0 then -n else n
  {
    if n == 0 then OrdinalRange(d); Some(d)
    else if n > 0 then
      if d == LastDate then LastOrdinal(); None
      else NextDayOrdinal(d); AddDays(NextDay(d), n - 1)
    else
      if d == FirstDate then None
      else PrevDayOrdinal(d); AddDays(PrevDay(d), n + 1)
  }

  /** Adding `doy - 1` days to the first of January lands in the same year
      on day-of-year `doy`, for every `doy` that year has. */
  lemma AddDaysDayOfYear(y: int, doy: int)
    requires MinYear <= y <= MaxYear && 1 <= doy <= DaysInYear(y)
    ensures AddDays(Date(y, 1, 1), doy - 1).Some?
    ensures var r := AddDays(Date(y, 1, 1), doy - 1).value;
            r.year == y && DayOfYear(r) == doy
  {
    var jan1 := Date(y, 1, 1);
    assert Ordinal(jan1) == DaysBeforeYear(y) + 1;
    if y < MaxYear {
      YearsIncrease(y, MaxYear);
    }
    OrdinalWithinYear(LastDate);
    LastOrdinal();
    var r := AddDays(jan1, doy - 1).value;
    OrdinalWithinYear(r);
    if r.year < y {
      YearsIncrease(r.year, y);
    } else if r.year > y {
      YearsIncrease(y, r.year);
    }
  }

  /** `datetime + timedelta(seconds=s)`: carries whole days into the date and
      keeps the second of the day in 0..86399 (Python floors, as Dafny's `/`
      and `%` do for a positive divisor); `None` is the OverflowError. */
  function AddSeconds(t: DateTime, s: int): (r: Option<DateTime>)
    requires ValidDateTime(t)
    ensures r.Some? ==> ValidDateTime(r.value)
    ensures r.Some? ==> Ordinal(r.value.date) * SecondsPerDay + r.value.second
                        == Ordinal(t.date) * SecondsPerDay + t.second + s
    ensures r.Some? <==> 1 <= Ordinal(t.date) + (t.second + s) / SecondsPerDay <= MaxOrdinal
  {
    var total := t.second + s;
    match AddDays(t.date, total / SecondsPerDay)
    case None => None
    case Some(d) => Some(DateTime(d, total % SecondsPerDay))
  }

  /** Two valid dates with the same ordinal are the same date. */
  lemma OrdinalInjective(a: Date, b: Date)
    requires ValidDate(a) && ValidDate(b) && Ordinal(a) == Ordinal(b)
    ensures a == b
  {
    OrdinalWithinYear(a);
    OrdinalWithinYear(b);
    if a.year < b.year {
      YearsIncrease(a.year, b.year);
    } else if b.year < a.year {
      YearsIncrease(b.year, a.year);
    } else if a.month < b.month {
      MonthsIncrease(a.year, a.month, b.month);
    } else if b.month < a.month {
      MonthsIncrease(a.year, b.month, a.month);
    }
  }

  /** Going `s` seconds forward and then `s` back returns to the start. */
  lemma AddSecondsRoundTrip(t: DateTime, s: int)
    requires ValidDateTime(t) && AddSeconds(t, s).Some?
    ensures AddSeconds(AddSeconds(t, s).value, -s) == Some(t)
  {
    var u := AddSeconds(t, s).value;
    var q := (t.second + s) / SecondsPerDay;
    assert t.second + s == q * SecondsPerDay + u.second;
    var back := u.second + -s;
    assert back == -q * SecondsPerDay + t.second;
    assert back / SecondsPerDay == -q && back % SecondsPerDay == t.second;
    OrdinalRange(t.date);
    var d := AddDays(u.date, -q).value;
    OrdinalInjective(d, t.date);
  }

  // ---------------------------------------------------------------------------
  // Text forms

  /** `strftime("%Y%m%d")`. */
  function FormatDate(d: Date): (s: string)
    requires ValidDate(d)
    ensures |s| == 8 && AllDigits(s)
  {
    Pad4(d.year) + Pad2(d.month) + Pad2(d.day)
  }

  function Hour(t: DateTime): int
    requires ValidDateTime(t)
  {
    t.second / 3600
  }

  function Minute(t: DateTime): int
    requires ValidDateTime(t)
  {
    t.second % 3600 / 60
  }

  /** `strftime("%H:%M")`. */
  function FormatHourMinute(t: DateTime): (s: string)
    requires ValidDateTime(t)
    ensures |s| == 5 && s[2] == ':'
  {
    Pad2(Hour(t)) + ":" + Pad2(Minute(t))
  }

  /** `strftime("%Y%m%d%H")`. */
  function FormatDateHour(t: DateTime): (s: string)
    requires ValidDateTime(t)
    ensures |s| == 10 && AllDigits(s)
  {
    FormatDate(t.date) + Pad2(Hour(t))
  }

  /** A date built from the fields of an eight-digit text prints as it. */
  lemma PrintedDate(d: Date, text: string)
    requires ValidDate(d) && |text| == 8 && AllDigits(text)
    requires d == Date(DigitsToNat(text[..4]), DigitsToNat(text[4..6]), DigitsToNat(text[6..]))
    ensures FormatDate(d) == text
  {
    FourDigits(text[..4]);
    TwoDigits(text[4..6]);
    TwoDigits(text[6..]);
    assert text == text[..4] + text[4..6] + text[6..];
  }

  /** The clock of a moment built from two-digit hour and minute fields
      prints as those fields. */
  lemma PrintedFields(t: DateTime, hh: string, mm: string)
    requires ValidDateTime(t) && |hh| == 2 && AllDigits(hh) && |mm| == 2 && AllDigits(mm)
    requires DigitsToNat(mm) < 60 && t.second == DigitsToNat(hh) * 3600 + DigitsToNat(mm) * 60
    ensures FormatHourMinute(t) == hh + ":" + mm
  {
    TwoDigits(hh);
    TwoDigits(mm);
    var h, mi := DigitsToNat(hh), DigitsToNat(mm);
    assert mi * 60 < 3600;
    assert Hour(t) == h && Minute(t) == mi;
  }

  /** A whole-minute second of the day is its hour and minute again. */
  lemma ClockParts(t: DateTime)
    requires ValidDateTime(t) && t.second % 60 == 0
    ensures Hour(t) < 24 && Minute(t) < 60
    ensures Hour(t) * 3600 + Minute(t) * 60 == t.second
  {
  }

  /** `strftime("%Y-%m-%d")`. */
  function FormatIsoDate(d: Date): (s: string)
    requires ValidDate(d)
    ensures |s| == 10 && s[4] == '-' && s[7] == '-'
  {
    Pad4(d.year) + "-" + Pad2(d.month) + "-" + Pad2(d.day)
  }
}

=== FILE: computemaps.dfy ===
/** The web helper `compute_maps(date, integration_time, start_time)`: the
    end time of the interval, the parameters handed to the pipeline, the
    grid and map steps, and the name of the image the page shows. */
module ComputeMaps {
  import opened Outcomes
  import opened Text
  import opened Calendar
  import opened Builtins
  import opened Strptime
  import opened Exceptions
  import opened Failures
  import opened OmniFiles
  import opened ConvectionMaps

  /** The data directory the helper names; the working directory supplies
      the others. */
  const WebDataPath := "/home/marina/data/"

  /** `s[:n]`, clamped as Python clamps a slice. */
  function Take(s: string, n: nat): string {
    if n <= |s| then s[..n] else s
  }

  /** `s[n:]`, clamped as Python clamps a slice. */
  function Skip(s: string, n: nat): string {
    if n <= |s| then s[n..] else ""
  }

  /** `HH:MM` for a second of the day. */
  function ClockText(second: int): string
    requires 0 <= second < SecondsPerDay
  {
    Pad2(second / 3600) + ":" + Pad2(second % 3600 / 60)
  }

  /** The end time: the start `'%Y%m%d %H:%M'` plus `integration_time`
      seconds, printed as `HH:MM` with the date dropped, so it wraps past
      midnight. A start that does not parse raises the ValueError of
      `strptime`. */
  function EndTime(date: string, startTime: string, integrationTime: int): (r: Result<string, Failure>)
    ensures var text := date + " " + startTime;
            ParseDateTime(text).Err? ==> r == Err(Builtin(ParseDateTime(text).error))
    ensures ParseDateTime(date + " " + startTime).Ok? ==>
              r == ClockAfter(ParseDateTime(date + " " + startTime).value, integrationTime)
  {
    var text := date + " " + startTime;
    match ParseDateTime(text)
    case Err(e) => Err(Builtin(e))
    case Ok(start) => ClockAfter(start, integrationTime)
  }

  /** The second of the day `integrationTime` seconds after `second`: it
      wraps past midnight, and whole days bring it back where it was. */
  function SecondAfter(second: int, integrationTime: int): (e: int)
    requires 0 <= second < SecondsPerDay
    ensures 0 <= e < SecondsPerDay
    ensures (e - second - integrationTime) % SecondsPerDay == 0
    ensures integrationTime % SecondsPerDay == 0 ==> e == second
  {
    var k := integrationTime / SecondsPerDay;
    assert integrationTime == k * SecondsPerDay + integrationTime % SecondsPerDay;
    var e := (second + integrationTime) % SecondsPerDay;
    assert second + integrationTime == ((second + integrationTime) / SecondsPerDay) * SecondsPerDay + e;
    e
  }

  /** The clock time `integrationTime` seconds after `start`, as
      `start + timedelta(seconds=integration_time)` prints it. A day count
      beyond what a `timedelta` holds fails in its constructor, and a
      moment outside the representable dates fails in the addition. */
  function ClockAfter(start: DateTime, integrationTime: int): (r: Result<string, Failure>)
    requires ValidDateTime(start)
    ensures r.Ok? <==> AddSeconds(start, integrationTime).Some?
    ensures r.Ok? ==> r.value == ClockText(SecondAfter(start.second, integrationTime))
    ensures var days := integrationTime / SecondsPerDay;
            days < -MaxDeltaDays || days > MaxDeltaDays ==> r == Err(Builtin(PythonError(DaysTooLarge(days))))
    ensures var days := integrationTime / SecondsPerDay;
            -MaxDeltaDays <= days <= MaxDeltaDays && r.Err? ==> r == Err(Builtin(OverflowError("date value out of range")))
  {
    var days := integrationTime / SecondsPerDay;
    if days < -MaxDeltaDays || days > MaxDeltaDays then
      OrdinalRange(start.date);
      assert (start.second + integrationTime) / SecondsPerDay - days in {0, 1};
      Err(Builtin(PythonError(DaysTooLarge(days))))
    else
      match AddSeconds(start, integrationTime)
      case None => Err(Builtin(OverflowError("date value out of range")))
      case Some(end) =>
        assert end.second == SecondAfter(start.second, integrationTime);
        PrintedClock(end);
        Ok(FormatHourMinute(end))
  }

  /** `strftime("%H:%M")` of a moment is the clock text of its second. */
  lemma PrintedClock(t: DateTime)
    requires ValidDateTime(t)
    ensures FormatHourMinute(t) == ClockText(t.second)
  {
  }

  /** An interval of whole days ends at the clock time it starts at: the
      end time printed is the start time as given. */
  lemma WholeDaysKeepClock(date: string, startTime: string, integrationTime: int)
    requires ClockShaped(startTime)
    requires EndTime(date, startTime, integrationTime).Ok? && integrationTime % SecondsPerDay == 0
    ensures EndTime(date, startTime, integrationTime).value == startTime
  {
    StartClock(date, startTime);
  }

  /** A start time written `HH:MM`, parsed and printed again, is the text
      it came from. */
  lemma StartClock(date: string, startTime: string)
    requires ClockShaped(startTime) && ParseDateTime(date + " " + startTime).Ok?
    ensures var start := ParseDateTime(date + " " + startTime).value;
            ClockText(start.second) == startTime
  {
    var start := ParseDateTime(date + " " + startTime).value;
    ClockAtEnd(date + " ", startTime);
    var h, m := DigitsToNat(startTime[..2]), DigitsToNat(startTime[3..]);
    TwoDigits(startTime[..2]);
    TwoDigits(startTime[3..]);
    assert m * 60 < 3600;
    assert start.second / 3600 == h;
    assert start.second % 3600 == m * 60;
    assert start.second % 3600 / 60 == m;
    assert startTime == startTime[..2] + ":" + startTime[3..];
  }

  /** The parameters the helper passes: the date, integration time, start
      and end times, and four paths and an image extension under keys the
      pipeline never reads. */
  function WebParameters(date: string, integrationTime: int, startTime: string, endTime: string, cwd: string)
    : Parameters
  {
    map[DateKey := Str(date), IntegrationTimeKey := Int(integrationTime),
        StartTimeKey := Str(startTime), EndTimeKey := Str(endTime),
        Other("datapath") := Str(WebDataPath), Other("plotpath") := Str(cwd + "/static/"),
        Other("omnipath") := Str(cwd + "/omni/"), Other("mappath") := Str(cwd + "/maps/"),
        Other("image_extension") := Str("png")]
  }

  /** The helper's parameters merged with the defaults: its times are
      kept, and the hemisphere, log path and every path come from the
      defaults. */
  lemma WebMerged(date: string, integrationTime: int, startTime: string, endTime: string, cwd: string)
    ensures MergeParameters(cwd, WebParameters(date, integrationTime, startTime, endTime, cwd)).Ok?
    ensures var p := MergeParameters(cwd, WebParameters(date, integrationTime, startTime, endTime, cwd)).value;
            && DateKey in p && IntegrationTimeKey in p && StartTimeKey in p && EndTimeKey in p
            && p[DateKey] == Str(date) && p[IntegrationTimeKey] == Int(integrationTime)
            && p[StartTimeKey] == Str(startTime) && p[EndTimeKey] == Str(endTime)
    ensures var p := MergeParameters(cwd, WebParameters(date, integrationTime, startTime, endTime, cwd)).value;
            && HemisphereKey in p && LogPathKey in p && ImfPathKey in p
            && p[HemisphereKey] == Str("north") && p[LogPathKey] == Str(cwd) && p[ImfPathKey] == Str(cwd)
            && (forall k :: k in PathKeys ==> k in p && p[k] == Str(cwd))
  {
    var given := WebParameters(date, integrationTime, startTime, endTime, cwd);
    WebGiven(date, integrationTime, startTime, endTime, cwd);
    DefaultsOf(cwd);
  }

  /** The keys the helper sets, and the pipeline keys it leaves alone. */
  lemma WebGiven(date: string, integrationTime: int, startTime: string, endTime: string, cwd: string)
    ensures var given := WebParameters(date, integrationTime, startTime, endTime, cwd);
            && DateKey in given && IntegrationTimeKey in given && StartTimeKey in given && EndTimeKey in given
            && given[DateKey] == Str(date) && given[IntegrationTimeKey] == Int(integrationTime)
            && given[StartTimeKey] == Str(startTime) && given[EndTimeKey] == Str(endTime)
    ensures var given := WebParameters(date, integrationTime, startTime, endTime, cwd);
            && HemisphereKey !in given && LogPathKey !in given && ImfPathKey !in given
            && (forall k :: k in PathKeys ==> k !in given)
  {
  }

  /** The defaults the helper relies on. */
  lemma DefaultsOf(cwd: string)
    ensures && HemisphereKey in Defaults(cwd) && LogPathKey in Defaults(cwd) && ImfPathKey in Defaults(cwd)
            && Defaults(cwd)[HemisphereKey] == Str("north") && Defaults(cwd)[LogPathKey] == Str(cwd)
            && Defaults(cwd)[ImfPathKey] == Str(cwd)
    ensures forall k :: k in PathKeys ==> k in Defaults(cwd) && Defaults(cwd)[k] == Str(cwd)
  {
  }

  /** The object the helper builds: the given times pass through unchanged,
      the end time is added, and every path is the working directory, since
      the helper's own paths sit under keys the pipeline does not know. It
      fails only when the working directory does not exist or the log file
      `{cwd}/{date}_map.n.log` cannot be opened. */
  function WebPipeline(date: string, integrationTime: int, startTime: string, endTime: string, cwd: string,
                       pathExists: string -> bool, logOpens: string -> bool)
    : (r: Result<Pipeline, Failure>)
    ensures r.Ok? <==> pathExists(cwd) && logOpens(LogFile(Str(cwd), Str(date), "n"))
    ensures !pathExists(cwd) ==> r == Err(Raised(PathDoesNotExist(cwd)))
    ensures pathExists(cwd) && !logOpens(LogFile(Str(cwd), Str(date), "n")) ==>
              r == Err(Builtin(NoSuchFile(LogFile(Str(cwd), Str(date), "n"))))
    ensures r.Ok? ==> var p := r.value.parameter;
                      && DateKey in p && IntegrationTimeKey in p && StartTimeKey in p && EndTimeKey in p
                      && p[DateKey] == Str(date) && p[IntegrationTimeKey] == Int(integrationTime)
                      && p[StartTimeKey] == Str(startTime) && p[EndTimeKey] == Str(endTime)
    ensures r.Ok? ==> var p := r.value.parameter;
                      && DataPathKey in p && PlotPathKey in p && MapPathKey in p && ImfPathKey in p
                      && p[DataPathKey] == Str(cwd) && p[PlotPathKey] == Str(cwd)
                      && p[MapPathKey] == Str(cwd) && p[ImfPathKey] == Str(cwd)
    ensures r.Ok? ==> r.value.hemExt == "n" && Constructed(r.value)
  {
    var given := WebParameters(date, integrationTime, startTime, endTime, cwd);
    WebMerged(date, integrationTime, startTime, endTime, cwd);
    var p := MergeParameters(cwd, given).value;
    assert |given| > 0 by { assert DateKey in given; }
    assert p[LogPathKey] == Str(cwd) && p[DateKey] == Str(date) && HemisphereCode(p[HemisphereKey]).value == "n";
    assert NewPipeline(given, map[], cwd, pathExists, logOpens) == Configure(p, pathExists, logOpens);
    NewPipeline(given, map[], cwd, pathExists, logOpens)
  }

  /** What the helper leaves: the object after the grid and map steps, what
      those steps did, and the image name it returns. */
  datatype WebRun = WebRun(pipeline: Pipeline, grids: GridRun, maps: MapRun, filename: string)

  /** `compute_maps(date, integration_time, start_time)`, up to the plotting
      and clean-up steps: the end time is computed first, so a bad date or
      start time fails before any map work; the image name is
      `static/{date}.{HH}{MM}.00.png` from the start time's text. */
  function ComputeMaps(date: string, integrationTime: int, startTime: string, cwd: string, env: Env)
    : (r: Result<WebRun, Failure>)
    ensures EndTime(date, startTime, integrationTime).Err? ==> r == Err(EndTime(date, startTime, integrationTime).error)
    ensures r.Ok? ==> && EndTime(date, startTime, integrationTime).Ok?
                      && r.value.filename == "static/" + date + "." + Take(startTime, 2) + Skip(startTime, 3) + ".00.png"
    ensures r.Ok? ==> var p := r.value.pipeline.parameter;
                      && DateKey in p && IntegrationTimeKey in p && StartTimeKey in p && EndTimeKey in p
                      && p[DateKey] == Str(date) && p[IntegrationTimeKey] == Int(integrationTime)
                      && p[StartTimeKey] == Str(startTime)
                      && p[EndTimeKey] == Str(EndTime(date, startTime, integrationTime).value)
    ensures r.Ok? ==> var p := r.value.pipeline.parameter;
                      && DataPathKey in p && PlotPathKey in p && MapPathKey in p && ImfPathKey in p
                      && p[DataPathKey] == Str(cwd) && p[PlotPathKey] == Str(cwd)
                      && p[MapPathKey] == Str(cwd) && p[ImfPathKey] == Str(cwd)
    ensures r.Ok? ==> env.pathExists(cwd) && r.value.grids.made > 0
    ensures EndTime(date, startTime, integrationTime).Ok? ==>
              var endTime := EndTime(date, startTime, integrationTime).value;
              var pl := WebPipeline(date, integrationTime, startTime, endTime, cwd, env.pathExists, env.logOpens);
              && (pl.Err? ==> r == Err(pl.error))
              && (pl.Ok? ==>
                    var grids := GenerateGridFiles(pl.value, env);
                    && (grids.Err? ==> r == Err(grids.error))
                    && (grids.Ok? ==>
                          var maps := GenerateMapFiles(grids.value.pipeline, env);
                          && (r.Ok? <==> maps.Ok?)
                          && (maps.Err? ==> r == Err(maps.error))
                          && (r.Ok? ==> r.value.grids == grids.value && r.value.maps == maps.value)))
  {
    var hour := Take(startTime, 2);
    var minute := Skip(startTime, 3);
    var endTime :- EndTime(date, startTime, integrationTime);
    var pl :- WebPipeline(date, integrationTime, startTime, endTime, cwd, env.pathExists, env.logOpens);
    var grids :- GenerateGridFiles(pl, env);
    var maps :- GenerateMapFiles(grids.pipeline, env);
    Ok(WebRun(grids.pipeline, grids, maps, "static/" + date + "." + hour + minute + ".00.png"))
  }

}

=== FILE: constants.dfy ===
/** The lookup tables of the convection-map process: RST options, the OMNI
    delay, the supported file and compression types, and the radar acronyms
    of each hemisphere. */
module Constants {

  /** Minimum range gate (`RstConst.MIN_RANGE`). */
  const MinRange: int := 2

  /** Velocity error maximum passed to `make_grid -vemax` (`RstConst.VEMAX`). */
  const VeMax: int := 1000000

  /** Delay in seconds between the satellite and the Earth (`OmniConst.DELAY`). */
  const OmniDelay: int := 600

  /** The data file types the process reads (`FileConst.FILE_TYPE`); `fit`
      files are deliberately absent. */
  const FileTypes: seq<string> := ["fitacf"]

  /** The supported compression extensions (`FileConst.COMPRESSION_TYPES`). */
  const CompressionTypes: seq<string> := ["gz", "bz2"]

  /** The decompress command of each compression extension (`FileConst.EXT`). */
  const DecompressCommand: map<string, string> := map["gz" := "gzip -df", "bz2" := "bzip2 -dfv"]

  /** Single-letter file prefixes of the southern radars (`SouthRadar.SINGLE_TO_ABBRV`). */
  const SouthSingleToAbbrv: map<string, string> :=
    map["h" := "hal", "j" := "sys", "d" := "san", "n" := "sye",
        "p" := "ker", "r" := "tig", "u" := "unw"]

  /** The southern radars (`SouthRadar.RADAR_ABBRV`), in the order grids are made. */
  const SouthRadarAbbrv: seq<string> :=
    ["bpk", "dce", "dcn", "fir", "hal", "ker", "san", "sye",
     "sys", "tig", "unw", "zho", "mcm", "sps"]

  /** Single-letter file prefixes of the northern radars (`NorthRadar.SINGLE_TO_ABBRV`). */
  const NorthSingleToAbbrv: map<string, string> :=
    map["g" := "gbr", "k" := "kap", "t" := "sas", "s" := "sch",
        "w" := "sto", "f" := "han", "e" := "pyk", "i" := "wal",
        "a" := "kod", "b" := "pgr", "c" := "ksr"]

  /** The northern radars (`NorthRadar.RADAR_ABBRV`), in the order grids are made. */
  const NorthRadarAbbrv: seq<string> :=
    ["ade", "adw", "bks", "cve", "cvw", "cly", "fhe", "fhw",
     "gbr", "han", "hok", "hkw", "inv", "jme", "kap", "ksr",
     "kod", "lyr", "pyk", "pgr", "rkn", "sas", "sch", "sto",
     "wal"]

  predicate IsLower(c: char) {
    'a' <= c <= 'z'
  }

  /** A radar's three-letter lower-case acronym. */
  predicate IsAcronym(s: string) {
    |s| == 3 && IsLower(s[0]) && IsLower(s[1]) && IsLower(s[2])
  }

  /** No entry occurs twice. */
  predicate Distinct(xs: seq<string>) {
    forall i, j :: 0 <= i < j < |xs| ==> xs[i] != xs[j]
  }

  /** A three-letter acronym read as one number, so that two acronyms can be
      told apart without comparing them letter by letter. */
  function Code(s: string): int
    requires |s| == 3
  {
    (s[0] as int) * 65536 + (s[1] as int) * 256 + s[2] as int
  }

  /** Acronyms whose codes differ pairwise are distinct. */
  lemma DistinctByCode(xs: seq<string>)
    requires forall i :: 0 <= i < |xs| ==> |xs[i]| == 3
    requires forall i, j :: 0 <= i < j < |xs| ==> Code(xs[i]) != Code(xs[j])
    ensures Distinct(xs)
  {
  }

  lemma SouthCodesDistinct()
    ensures forall i, j :: 0 <= i < j < |SouthRadarAbbrv| ==> Code(SouthRadarAbbrv[i]) != Code(SouthRadarAbbrv[j])
  {
  }

  lemma NorthCodesDistinct()
    ensures forall i, j :: 0 <= i < j < |NorthRadarAbbrv| ==> Code(NorthRadarAbbrv[i]) != Code(NorthRadarAbbrv[j])
  {
    NorthCodesDistinctWithin(0, 13);
    NorthCodesDistinctWithin(13, 25);
    NorthCodesDistinctAcross();
  }

  /** The northern codes differ within the first and within the second
      half of the table, and across the halves. */
  lemma NorthCodesDistinctWithin(lo: int, hi: int)
    requires (lo, hi) in {(0, 13), (13, 25)}
    ensures forall i, j :: lo <= i < j < hi ==> Code(NorthRadarAbbrv[i]) != Code(NorthRadarAbbrv[j])
  {
  }

  lemma NorthCodesDistinctAcross()
    ensures forall i, j :: 0 <= i < 13 <= j < 25 ==> Code(NorthRadarAbbrv[i]) != Code(NorthRadarAbbrv[j])
  {
  }

  /** The acronym tables are shaped as their documentation says. */
  predicate WellFormedTable(single: map<string, string>, radars: seq<string>) {
    && (forall k :: k in single ==> |k| == 1 && IsLower(k[0]))
    && (forall k :: k in single ==> IsAcronym(single[k]) && single[k] in radars)
    && (forall i :: 0 <= i < |radars| ==> IsAcronym(radars[i]))
    && Distinct(radars)
  }

  /** The southern single-letter prefixes are lower-case letters, each naming
      a radar of the southern table; every southern acronym has three letters. */
  lemma SouthPrefixes()
    ensures forall k :: k in SouthSingleToAbbrv ==> |k| == 1 && IsLower(k[0])
  {
  }

  lemma SouthPrefixTargets()
    ensures forall k :: k in SouthSingleToAbbrv ==> IsAcronym(SouthSingleToAbbrv[k]) && SouthSingleToAbbrv[k] in SouthRadarAbbrv
  {
  }

  lemma SouthAcronyms()
    ensures forall i :: 0 <= i < |SouthRadarAbbrv| ==> IsAcronym(SouthRadarAbbrv[i])
  {
  }

  /** The same for the northern tables. */
  lemma NorthPrefixes()
    ensures forall k :: k in NorthSingleToAbbrv ==> |k| == 1 && IsLower(k[0])
  {
  }

  lemma NorthPrefixTargets()
    ensures forall k :: k in NorthSingleToAbbrv ==> IsAcronym(NorthSingleToAbbrv[k]) && NorthSingleToAbbrv[k] in NorthRadarAbbrv
  {
  }

  lemma NorthAcronyms()
    ensures forall i :: 0 <= i < |NorthRadarAbbrv| ==> IsAcronym(NorthRadarAbbrv[i])
  {
  }

  /** The southern radar tables are shaped as documented and list no radar twice. */
  lemma SouthTableWellFormed()
    ensures WellFormedTable(SouthSingleToAbbrv, SouthRadarAbbrv)
  {
    SouthPrefixes();
    SouthPrefixTargets();
    SouthAcronyms();
    SouthCodesDistinct();
    DistinctByCode(SouthRadarAbbrv);
  }

  /** The same for the northern tables. */
  lemma NorthTableWellFormed()
    ensures WellFormedTable(NorthSingleToAbbrv, NorthRadarAbbrv)
  {
    NorthPrefixes();
    NorthPrefixTargets();
    NorthAcronyms();
    NorthCodesDistinct();
    DistinctByCode(NorthRadarAbbrv);
  }

  /** No radar belongs to both hemispheres. */
  lemma HemispheresDisjoint()
    ensures forall i, j :: 0 <= i < |SouthRadarAbbrv| && 0 <= j < |NorthRadarAbbrv|
              ==> SouthRadarAbbrv[i] != NorthRadarAbbrv[j]
  {
  }

  /** Every supported compression has a decompress command and nothing else
      does; the only supported file type is `fitacf`; the OMNI delay is ten
      minutes. */
  lemma FileTablesAgree()
    ensures DecompressCommand.Keys == set e | e in CompressionTypes
    ensures FileTypes == ["fitacf"] && "fit" !in FileTypes
    ensures OmniDelay == 10 * 60
  {
  }
}

=== FILE: convectionmaps.dfy ===
/** The `ConvectionMaps` driver: its parameter dictionary, the names it
    derives from the date and the hemisphere, the grid options it builds
    for each radar, the policy by which grid and map steps succeed or fail,
    and the choice of the IMF input of the model step. The shell, the file
    system and the OMNI web site are inputs (`Env`); every command line the
    driver would run is computed, none is run. */
module ConvectionMaps {
  import opened Outcomes
  import opened Text
  import opened Calendar
  import opened Constants
  import opened Builtins
  import opened Exceptions
  import opened Warnings
  import opened Failures
  import opened Utils
  import opened OmniFiles

  // ---------------------------------------------------------------------------
  // Parameters

  /** A value of the parameter dictionary: None, a string or an integer. */
  datatype Value = NoValue | Str(s: string) | Int(i: int)

  /** `str(v)`, which is also what `format` prints for `v`. */
  function Show(v: Value): string {
    match v
    case NoValue => "None"
    case Str(s) => s
    case Int(i) => IntToString(i)
  }

  /** The name of the type of `v`, as Python reports it. */
  function TypeName(v: Value): string {
    match v
    case NoValue => "NoneType"
    case Str(_) => "str"
    case Int(_) => "int"
  }

  /** A key of the parameter dictionary: the names the driver reads, the
      log file it adds, and any other name. */
  datatype Key =
    | DateKey | ChannelKey | IntegrationTimeKey | HemisphereKey | StartTimeKey | EndTimeKey
    | ImageExtKey | LogPathKey | DataPathKey | PlotPathKey | MapPathKey | GridPathKey
    | ImfPathKey | KeyPathKey | NumProcKey | LogFileKey
    | Other(name: string)

  /** The dictionary key each `Key` stands for. */
  function Name(k: Key): string {
    match k
    case DateKey => "date"
    case ChannelKey => "channel"
    case IntegrationTimeKey => "integration_time"
    case HemisphereKey => "hemisphere"
    case StartTimeKey => "start_time"
    case EndTimeKey => "end_time"
    case ImageExtKey => "image_ext"
    case LogPathKey => "logpath"
    case DataPathKey => "data_path"
    case PlotPathKey => "plot_path"
    case MapPathKey => "map_path"
    case GridPathKey => "grid_path"
    case ImfPathKey => "imf_path"
    case KeyPathKey => "key_path"
    case NumProcKey => "num_proc"
    case LogFileKey => "logfile"
    case Other(n) => n
  }

  const Known: seq<Key> :=
    [DateKey, ChannelKey, IntegrationTimeKey, HemisphereKey, StartTimeKey, EndTimeKey,
     ImageExtKey, LogPathKey, DataPathKey, PlotPathKey, MapPathKey, GridPathKey,
     ImfPathKey, KeyPathKey, NumProcKey, LogFileKey]

  /** The key a dictionary name denotes. */
  function KeyOf(name: string): (k: Key)
    ensures Name(k) == name
    ensures k.Other? <==> forall i :: 0 <= i < |Known| ==> Name(Known[i]) != name
  {
    KeyIn(name, Known)
  }

  function KeyIn(name: string, ks: seq<Key>): (k: Key)
    requires forall i :: 0 <= i < |ks| ==> !ks[i].Other?
    ensures Name(k) == name
    ensures k.Other? <==> forall i :: 0 <= i < |ks| ==> Name(ks[i]) != name
    ensures !k.Other? ==> k in ks
  {
    if |ks| == 0 then Other(name)
    else if Name(ks[0]) == name then ks[0]
    else KeyIn(name, ks[1..])
  }

  type Parameters = map<Key, Value>

  /** `parameter[key]`. */
  function Lookup(p: Parameters, key: Key): (r: Result<Value, Failure>)
    ensures r.Ok? <==> key in p
    ensures r.Ok? ==> r.value == p[key]
    ensures r.Err? ==> r.error == Builtin(KeyError(Name(key)))
  {
    if key in p then Ok(p[key]) else Err(Builtin(KeyError(Name(key))))
  }

  /** The parameters every run has unless the caller overrides them; the
      paths default to the working directory `cwd`. */
  function Defaults(cwd: string): Parameters {
    map[DateKey := NoValue, ChannelKey := Str(""), IntegrationTimeKey := Int(120),
        HemisphereKey := Str("north"), StartTimeKey := Str("00:00"), EndTimeKey := Str("23:59"),
        ImageExtKey := Str("pdf"), LogPathKey := Str(cwd), DataPathKey := Str(cwd),
        PlotPathKey := Str(cwd), MapPathKey := Str(cwd), GridPathKey := Str(cwd),
        ImfPathKey := Str(cwd), KeyPathKey := Str(cwd), NumProcKey := Int(1)]
  }

  const DefaultKeys: set<Key> :=
    {DateKey, ChannelKey, IntegrationTimeKey, HemisphereKey, StartTimeKey, EndTimeKey,
     ImageExtKey, LogPathKey, DataPathKey, PlotPathKey, MapPathKey, GridPathKey,
     ImfPathKey, KeyPathKey, NumProcKey}

  /** The two adjacent literals of the message are joined without a space. */
  const DateRequired := "Date was not passed in, please" + "include in the parameters dictionary"

  /** The defaults updated with the given parameters: a given key overrides
      its default, a default nobody mentions stays, an unknown key is added;
      the date is the one parameter that must be given and not None. */
  function MergeParameters(cwd: string, given: Parameters): (r: Result<Parameters, Failure>)
    ensures r.Ok? <==> DateKey in given && given[DateKey] != NoValue
    ensures r.Ok? ==> r.value.Keys == DefaultKeys + given.Keys
    ensures r.Ok? ==> forall k :: k in given ==> r.value[k] == given[k]
    ensures r.Ok? ==> forall k :: k in DefaultKeys && k !in given ==> r.value[k] == Defaults(cwd)[k]
    ensures r.Ok? ==> r.value[ChannelKey] == (if ChannelKey in given then given[ChannelKey] else Str(""))
    ensures r.Err? ==> r.error == Builtin(ValueError(DateRequired))
  {
    var merged := Defaults(cwd) + given;
    if merged[DateKey] == NoValue then Err(Builtin(ValueError(DateRequired))) else Ok(merged)
  }

  // ---------------------------------------------------------------------------
  // Construction

  /** The state of a `ConvectionMaps` object: its parameters (the log file
      included), the hemisphere code, the extra RST options and the two
      running reports of radar files used and radar files that failed. */
  datatype Pipeline = Pipeline(
    parameter: Parameters,
    hemExt: string,
    rstOptions: string,
    radarsUsed: string,
    radarsErrors: string)

  const UsedHeader := "***Radar files used in production:***\n"
  const ErrorsHeader := "***Radars files that raised errors:***\n"

  /** The hemisphere code: `n` for `'north'`, `s` for `'south'`, and for
      any other value a code that is never bound. */
  function HemisphereCode(hemisphere: Value): (r: Result<string, Failure>)
    ensures r == Ok("n") <==> hemisphere == Str("north")
    ensures r == Ok("s") <==> hemisphere == Str("south")
    ensures r.Ok? ==> r.value in {"n", "s"}
    ensures r.Err? ==> r.error == Builtin(UnboundLocalError("hemisphere_identifier"))
  {
    if hemisphere == Str("north") then Ok("n")
    else if hemisphere == Str("south") then Ok("s")
    else Err(Builtin(UnboundLocalError("hemisphere_identifier")))
  }

  /** `"{logpath}/{date}_map.{h}.log"`. */
  function LogFile(logpath: Value, date: Value, code: string): string {
    Show(logpath) + "/" + Show(date) + "_map." + code + ".log"
  }

  /** A path parameter logged by concatenation must be a string. */
  function LoggedPath(v: Value): (r: Result<(), Failure>)
    ensures r.Ok? <==> v.Str?
  {
    if v.Str? then Ok(())
    else Err(Builtin(TypeError("can only concatenate str (not \"" + TypeName(v) + "\") to str")))
  }

  /** `_generate_paths`: looks up the plot, map and grid paths (missing
      directories are created, which the model leaves to the file system),
      then logs the plot, grid, map and data paths by string concatenation. */
  function GeneratePaths(p: Parameters): (r: Result<(), Failure>)
    ensures r.Ok? <==> && (forall k :: k in PathKeys ==> k in p)
                       && (forall k :: k in PathKeys ==> p[k].Str?)
  {
    var plot :- Lookup(p, PlotPathKey);
    var maps :- Lookup(p, MapPathKey);
    var grid :- Lookup(p, GridPathKey);
    var _ :- LoggedPath(plot);
    var _ :- LoggedPath(grid);
    var _ :- LoggedPath(maps);
    var data :- Lookup(p, DataPathKey);
    var _ :- LoggedPath(data);
    Ok(())
  }

  /** The parameters a construction starts from: the command line when no
      parameters are given, the merged defaults otherwise. */
  function Chosen(given: Parameters, commandLine: Parameters, cwd: string): Result<Parameters, Failure> {
    if |given| == 0 then Ok(commandLine) else MergeParameters(cwd, given)
  }

  const PathKeys: seq<Key> := [PlotPathKey, MapPathKey, GridPathKey, DataPathKey]

  /** What every constructed object satisfies: the hemisphere is north or
      south and its code agrees, and the paths are strings. */
  predicate Constructed(pl: Pipeline) {
    && HemisphereKey in pl.parameter
    && (pl.hemExt == "n" <==> pl.parameter[HemisphereKey] == Str("north"))
    && (pl.hemExt == "s" <==> pl.parameter[HemisphereKey] == Str("south"))
    && pl.hemExt in {"n", "s"}
    && (forall k :: k in PathKeys ==>
          k in pl.parameter && pl.parameter[k].Str?)
  }

  /** The rest of the constructor once the parameters are settled: the
      hemisphere code, the log file `{logpath}/{date}_map.{h}.log` added to
      the parameters, the data path checked for existence (`pathExists`),
      the log file opened by `logging.basicConfig` (`logOpens`, false when
      the root logger has no handler yet and the file's directory does not
      exist), the paths logged, no RST options and the two report headers. */
  function Configure(p: Parameters, pathExists: string -> bool, logOpens: string -> bool)
    : (r: Result<Pipeline, Failure>)
    ensures r.Ok? <==> && HemisphereKey in p && LogPathKey in p && DateKey in p
                       && p[HemisphereKey] in {Str("north"), Str("south")}
                       && (forall k :: k in PathKeys ==> k in p && p[k].Str?)
                       && pathExists(Show(p[DataPathKey]))
                       && logOpens(LogFile(p[LogPathKey], p[DateKey], HemisphereCode(p[HemisphereKey]).value))
    ensures r.Ok? ==> && Constructed(r.value)
                      && r.value.parameter.Keys == p.Keys + {LogFileKey}
                      && (forall k :: k in p && k != LogFileKey ==> r.value.parameter[k] == p[k])
                      && r.value.parameter[LogFileKey] == Str(LogFile(p[LogPathKey], p[DateKey], r.value.hemExt))
                      && r.value.rstOptions == "" && r.value.radarsUsed == UsedHeader
                      && r.value.radarsErrors == ErrorsHeader
    ensures (HemisphereKey in p && LogPathKey in p && DateKey in p
             && p[HemisphereKey] !in {Str("north"), Str("south")})
              ==> r == Err(Builtin(UnboundLocalError("hemisphere_identifier")))
    ensures (&& HemisphereKey in p && LogPathKey in p && DateKey in p
             && p[HemisphereKey] in {Str("north"), Str("south")}
             && DataPathKey in p && !pathExists(Show(p[DataPathKey])))
              ==> r == Err(Raised(PathDoesNotExist(Show(p[DataPathKey]))))
    ensures (&& HemisphereKey in p && LogPathKey in p && DateKey in p
             && p[HemisphereKey] in {Str("north"), Str("south")}
             && DataPathKey in p && pathExists(Show(p[DataPathKey])))
              ==> var log := LogFile(p[LogPathKey], p[DateKey], HemisphereCode(p[HemisphereKey]).value);
                  !logOpens(log) ==> r == Err(Builtin(NoSuchFile(log)))
  {
    var hemisphere :- Lookup(p, HemisphereKey);
    var logpath :- Lookup(p, LogPathKey);
    var date :- Lookup(p, DateKey);
    var code :- HemisphereCode(hemisphere);
    var q := p[LogFileKey := Str(LogFile(logpath, date, code))];
    var data :- Lookup(q, DataPathKey);
    if !pathExists(Show(data)) then Err(Raised(PathDoesNotExist(Show(data))))
    else if !logOpens(LogFile(logpath, date, code)) then Err(Builtin(NoSuchFile(LogFile(logpath, date, code))))
    else
      var _ :- GeneratePaths(q);
      Ok(Pipeline(q, code, "", UsedHeader, ErrorsHeader))
  }

  /** `ConvectionMaps(arguments, parameters)` where `commandLine` is what
      the argument parser returns: the command line is used only when no
      parameters are given, and then no date is demanded. */
  function NewPipeline(given: Parameters, commandLine: Parameters, cwd: string,
                       pathExists: string -> bool, logOpens: string -> bool)
    : (r: Result<Pipeline, Failure>)
    ensures |given| == 0 ==> r == Configure(commandLine, pathExists, logOpens)
    ensures |given| > 0 && MergeParameters(cwd, given).Err? ==> r == Err(Builtin(ValueError(DateRequired)))
    ensures |given| > 0 && MergeParameters(cwd, given).Ok? ==>
              r == Configure(MergeParameters(cwd, given).value, pathExists, logOpens)
  {
    var p :- Chosen(given, commandLine, cwd);
    Configure(p, pathExists, logOpens)
  }

  /** The defaults fill everything a construction looks up, so with a date
      and a known hemisphere a construction from parameters fails only when
      the data path is missing, the log file cannot be opened or a path is
      not a string. */
  lemma MergedConstruction(cwd: string, given: Parameters, commandLine: Parameters,
                           pathExists: string -> bool, logOpens: string -> bool)
    requires DateKey in given && given[DateKey] != NoValue
    requires HemisphereKey !in given || given[HemisphereKey] in {Str("north"), Str("south")}
    ensures var p := MergeParameters(cwd, given).value;
            NewPipeline(given, commandLine, cwd, pathExists, logOpens).Ok? <==>
              && pathExists(Show(p[DataPathKey]))
              && logOpens(LogFile(p[LogPathKey], p[DateKey], if p[HemisphereKey] == Str("north") then "n" else "s"))
              && (forall k :: k in PathKeys ==> p[k].Str?)
  {
    var p := MergeParameters(cwd, given).value;
    assert |given| > 0 by { assert DateKey in given; }
    assert NewPipeline(given, commandLine, cwd, pathExists, logOpens) == Configure(p, pathExists, logOpens);
    MergedKeys(cwd, given);
    assert p[HemisphereKey] in {Str("north"), Str("south")} by {
      if HemisphereKey !in given {
        assert p[HemisphereKey] == Defaults(cwd)[HemisphereKey];
      }
    }
    assert HemisphereCode(p[HemisphereKey]).value == if p[HemisphereKey] == Str("north") then "n" else "s";
  }

  /** A merge holds every default key, every path key among them. */
  lemma MergedKeys(cwd: string, given: Parameters)
    requires MergeParameters(cwd, given).Ok?
    ensures var p := MergeParameters(cwd, given).value;
            && HemisphereKey in p && LogPathKey in p && DateKey in p && DataPathKey in p
            && forall k :: k in PathKeys ==> k in p
  {
    assert forall k :: k in PathKeys ==> k in DefaultKeys;
  }

  // ---------------------------------------------------------------------------
  // The environment

  /** What `shutil.copy2` does with a data file: copies it, refuses because
      source and destination are the same file (a `shutil.Error`), or fails
      with an I/O error. */
  datatype CopyOutcome = Copied | SameFile | CopyFailed(message: string)

  /** The shell, the file system and the OMNI web site as the driver sees
      them: the exit code of each command line, the files (with sizes, in
      match order) each glob pattern matches, `isfile`, `getsize` (None when
      the file cannot be read), the channel check of a data file (its
      outcome under the interpreter in use), `copy2`, the contents of a
      file, and the output of the availability scrape and of the download
      request (or the exit code of the failed one). */
  datatype Env = Env(
    exitCode: string -> int,
    glob: string -> seq<MatchedFile>,
    isFile: string -> bool,
    pathExists: string -> bool,
    logOpens: string -> bool,
    size: string -> Option<nat>,
    channelCheck: (string, char) -> Result<bool, Failure>,
    copy: (string, string) -> CopyOutcome,
    read: string -> Option<string>,
    scraped: Result<string, int>,
    requested: Result<string, int>)

  /** `check_rst_command(command, path)` in the environment. */
  function RunRst(env: Env, command: string, path: string): Result<(), Failure> {
    RstCheck(command, env.exitCode(command), env.glob(path))
  }

  // ---------------------------------------------------------------------------
  // File names

  /** `"{date}.{abbrv}.{h}.grid"`: the grid file of one radar. */
  function GridName(date: string, abbrv: string, code: string): string {
    date + "." + abbrv + "." + code + ".grid"
  }

  /** `"{date}.{h}.grd"`: the combined grid file. */
  function GrdName(date: string, code: string): string {
    date + "." + code + ".grd"
  }

  /** `"{date}.{h}.{stage}.map"`: the map file after a stage
      (`empty`, `hmb`, `imf`, `model`). */
  function MapName(date: string, code: string, stage: string): string {
    date + "." + code + "." + stage + ".map"
  }

  /** The dot-separated fields of the names: the date, radar, hemisphere and
      stage can be read back, so names differing in any of them differ. */
  lemma GridNameFields(date: string, abbrv: string, code: string)
    requires '.' !in date && '.' !in abbrv && '.' !in code
    ensures SplitOn(GridName(date, abbrv, code), '.') == [date, abbrv, code, "grid"]
  {
    var parts := [date, abbrv, code, "grid"];
    assert parts[1..] == [abbrv, code, "grid"];
    assert parts[1..][1..] == [code, "grid"];
    assert parts[1..][1..][1..] == ["grid"];
    assert Join([code, "grid"], ".") == code + ".grid";
    assert Join([abbrv, code, "grid"], ".") == abbrv + "." + code + ".grid";
    assert Join(parts, ".") == GridName(date, abbrv, code);
    JoinSplitOn(parts, '.');
  }

  lemma GrdNameFields(date: string, code: string)
    requires '.' !in date && '.' !in code
    ensures SplitOn(GrdName(date, code), '.') == [date, code, "grd"]
  {
    assert [date, code, "grd"][1..] == [code, "grd"];
    assert [code, "grd"][1..] == ["grd"];
    assert Join([code, "grd"], ".") == code + ".grd";
    assert Join([date, code, "grd"], ".") == GrdName(date, code);
    JoinSplitOn([date, code, "grd"], '.');
  }

  lemma MapNameFields(date: string, code: string, stage: string)
    requires '.' !in date && '.' !in code && '.' !in stage
    ensures SplitOn(MapName(date, code, stage), '.') == [date, code, stage, "map"]
  {
    var parts := [date, code, stage, "map"];
    assert parts[1..] == [code, stage, "map"];
    assert parts[1..][1..] == [stage, "map"];
    assert parts[1..][1..][1..] == ["map"];
    assert Join([stage, "map"], ".") == stage + ".map";
    assert Join([code, stage, "map"], ".") == code + "." + stage + ".map";
    assert Join(parts, ".") == MapName(date, code, stage);
    JoinSplitOn(parts, '.');
  }

  /** The names of the two hemispheres never collide, nor do the map files
      of different stages. */
  lemma NamesDistinct(date: string, abbrv: string, stage: string, other: string)
    requires '.' !in date && '.' !in abbrv && '.' !in stage && '.' !in other
    ensures GridName(date, abbrv, "n") != GridName(date, abbrv, "s")
    ensures GrdName(date, "n") != GrdName(date, "s")
    ensures MapName(date, "n", stage) != MapName(date, "s", stage)
    ensures stage != other ==> MapName(date, "n", stage) != MapName(date, "n", other)
                               && MapName(date, "s", stage) != MapName(date, "s", other)
  {
    GridNameFields(date, abbrv, "n");
    GridNameFields(date, abbrv, "s");
    GrdNameFields(date, "n");
    GrdNameFields(date, "s");
    MapNameFields(date, "n", stage);
    MapNameFields(date, "s", stage);
    MapNameFields(date, "n", other);
    MapNameFields(date, "s", other);
  }

  // ---------------------------------------------------------------------------
  // Grid options

  /** The channel letters tried when every channel is used. */
  const ChannelLetters: seq<char> := ['a', 'b', 'c', 'd', 'e', 'f', 'g', 'h']

  /** `" -cn_fix x"` for each channel `x`, in order. */
  function FixOptions(cs: seq<char>): string {
    if |cs| == 0 then "" else " -cn_fix " + [cs[0]] + FixOptions(cs[1..])
  }

  /** Reads a run of `" -cn_fix x"` options back into its channels. */
  function ParseFixes(s: string): Option<seq<char>>
    decreases |s|
  {
    if |s| == 0 then Some([])
    else if |s| >= 10 && s[..9] == " -cn_fix " then
      match ParseFixes(s[10..])
      case None => None
      case Some(rest) => Some([s[9]] + rest)
    else None
  }

  /** The channel options can be read back into exactly the channels. */
  lemma {:induction false} FixOptionsRoundTrip(cs: seq<char>)
    ensures ParseFixes(FixOptions(cs)) == Some(cs)
  {
    if |cs| > 0 {
      var s := FixOptions(cs);
      assert s[..9] == " -cn_fix " && s[9] == cs[0] && s[10..] == FixOptions(cs[1..]);
      FixOptionsRoundTrip(cs[1..]);
      assert [cs[0]] + cs[1..] == cs;
    }
  }

  /** Each element is smaller than the ones after it. */
  predicate Increasing(cs: seq<char>) {
    forall i, j :: 0 <= i < j < |cs| ==> cs[i] < cs[j]
  }

  /** `'.x.'`: how a channel shows in a data file name. */
  function ChannelTag(c: char): string {
    ['.', c, '.']
  }

  /** The channels of `letters` a data file uses, in order: those whose tag
      is in its name and, failing that, those the channel check finds. The
      check is not made for a channel already in the name, and its first
      failure ends the search. */
  function DetectChannels(dataFile: string, check: (string, char) -> Result<bool, Failure>,
                          letters: seq<char>): (r: Result<seq<char>, Failure>)
    ensures r.Ok? ==> forall c :: c in r.value <==>
                        c in letters && (Contains(dataFile, ChannelTag(c)) || check(dataFile, c) == Ok(true))
    ensures r.Ok? && Increasing(letters) ==> Increasing(r.value)
    ensures r.Ok? <==> forall c :: c in letters && !Contains(dataFile, ChannelTag(c)) ==> check(dataFile, c).Ok?
  {
    if |letters| == 0 then Ok([])
    else
      var c := letters[0];
      var here :- if Contains(dataFile, ChannelTag(c)) then Ok(true) else check(dataFile, c);
      var rest :- DetectChannels(dataFile, check, letters[1..]);
      var r := if here then [c] + rest else rest;
      assert Increasing(letters) ==> Increasing(r) by {
        if Increasing(letters) && here {
          forall j | 0 < j < |r| ensures r[0] < r[j] {
            assert rest[j - 1] in letters[1..];
          }
        }
      }
      Ok(r)
  }

  // ---------------------------------------------------------------------------
  // One radar's grid file

  /** `RstConst.VEMAX` as `format` prints it. */
  const VeMaxText := "1000000"

  lemma VeMaxTextAgrees()
    ensures IntToString(VeMax) == VeMaxText
  {
    assert NatToDigits(1) == "1";
    assert NatToDigits(10) == "10";
    assert NatToDigits(100) == "100";
    assert NatToDigits(1000) == "1000";
    assert NatToDigits(10000) == "10000";
    assert NatToDigits(100000) == "100000";
    assert NatToDigits(1000000) == "1000000";
  }

  /** The `make_grid` command for a data file, its grid file and options. */
  function MakeGridCommand(options: string, dataFile: string, gridFile: string): string {
    "make_grid " + options + " -xtd -minrng 10 -vemax " + VeMaxText + " " + dataFile + " > " + gridFile
  }

  lemma MakeGridNamed(options: string, dataFile: string, gridFile: string)
    ensures CommandName(MakeGridCommand(options, dataFile, gridFile)) == Ok("make_grid")
  {
    var rest := options + " -xtd -minrng 10 -vemax " + VeMaxText + " " + dataFile + " > " + gridFile;
    assert MakeGridCommand(options, dataFile, gridFile) == "make_grid" + " " + rest;
    LeadingWord("make_grid", rest);
  }

  /** A command that starts with a word and a space reports that word. */
  lemma LeadingWord(w: string, rest: string)
    requires |w| > 0 && NoSpace(w)
    ensures CommandName(w + " " + rest) == Ok(w)
  {
    assert Join([w], " ") == w;
    SplitWordsLead([w], rest);
  }

  /** What an attempt at one radar's grid left behind: the command it ran
      (if it got that far), the text it added to `radars_errors`, the grid
      file it removed, and its status or the exception it raised. */
  datatype GridAttempt = GridAttempt(
    command: Option<string>,
    errorsAdded: string,
    removed: Option<string>,
    status: Result<int, Failure>)

  /** `make_grid(data_file, grid_file, grid_options)`: 0 when the command
      succeeds and its grid file is not empty; otherwise 1 with the data file
      reported in `radars_errors`, and an empty grid file is also removed.
      It never raises, because its command always has a name. */
  function MakeGrid(env: Env, dataFile: string, gridFile: string, options: string): (a: GridAttempt)
    ensures a.command == Some(MakeGridCommand(options, dataFile, gridFile))
    ensures a.status == Ok(0) || a.status == Ok(1)
    ensures var code := env.exitCode(MakeGridCommand(options, dataFile, gridFile));
            var matched := env.glob(gridFile);
            a.status == Ok(0) <==> code == 0 && forall k :: 0 <= k < |matched| ==> matched[k].size > 0
    ensures a.errorsAdded == (if a.status == Ok(0) then "" else dataFile + "\n")
    ensures a.removed == (if a.status == Ok(1) && env.exitCode(MakeGridCommand(options, dataFile, gridFile)) == 0
                          then Some(gridFile) else None)
  {
    var command := MakeGridCommand(options, dataFile, gridFile);
    MakeGridNamed(options, dataFile, gridFile);
    match RunRst(env, command, gridFile)
    case Ok(_) => GridAttempt(Some(command), "", None, Ok(0))
    case Err(Raised(RstFileEmpty(_))) => GridAttempt(Some(command), dataFile + "\n", Some(gridFile), Ok(1))
    case Err(Raised(RstException(_, _))) => GridAttempt(Some(command), dataFile + "\n", None, Ok(1))
    case Err(e) => GridAttempt(Some(command), "", None, Err(e))
  }

  /** The keys a grid attempt looks up, in the order it looks them up. */
  const GridKeys: seq<Key> := [DateKey, GridPathKey, IntegrationTimeKey, ChannelKey]

  /** The grid file and the `make_grid` options of one radar: the grid file
      `{grid_path}/{date}.{abbrv}.{h}.grid`, and the options
      `" -tl 120 -i {integration_time}"` followed by the channel options.
      Only the all-channels setting `''` works: any other channel reaches
      a variable `chan` that only the all-channels branch binds. */
  function GridSetup(p: Parameters, code: string, env: Env, abbrv: string, dataFile: string)
    : (r: Result<(string, string), Failure>)
    ensures r.Ok? <==> && (forall k :: k in GridKeys ==> k in p)
                       && p[ChannelKey] == Str("")
                       && DetectChannels(dataFile, env.channelCheck, ChannelLetters).Ok?
    ensures r.Ok? ==> r.value.0 == Show(p[GridPathKey]) + "/" + GridName(Show(p[DateKey]), abbrv, code)
    ensures r.Ok? ==> r.value.1 == " -tl 120 -i " + Show(p[IntegrationTimeKey])
                                   + FixOptions(DetectChannels(dataFile, env.channelCheck, ChannelLetters).value)
    ensures (forall k :: k in GridKeys ==> k in p) && p[ChannelKey] != Str("") ==>
              r == Err(Builtin(UnboundLocalError("chan")))
  {
    var date :- Lookup(p, DateKey);
    var gridDir :- Lookup(p, GridPathKey);
    var it :- Lookup(p, IntegrationTimeKey);
    var channel :- Lookup(p, ChannelKey);
    if channel != Str("") then Err(Builtin(UnboundLocalError("chan")))
    else
      var cs :- DetectChannels(dataFile, env.channelCheck, ChannelLetters);
      Ok((Show(gridDir) + "/" + GridName(Show(date), abbrv, code), " -tl 120 -i " + Show(it) + FixOptions(cs)))
  }

  /** The options name exactly the channels `a`..`h`, in order, whose tag is
      in the data file name or which the check finds in the file. */
  lemma GridOptionsChannels(p: Parameters, code: string, env: Env, abbrv: string, dataFile: string)
    requires GridSetup(p, code, env, abbrv, dataFile).Ok?
    ensures var options := GridSetup(p, code, env, abbrv, dataFile).value.1;
            var prefix := " -tl 120 -i " + Show(p[IntegrationTimeKey]);
            && prefix <= options
            && ParseFixes(options[|prefix|..]).Some?
            && var cs := ParseFixes(options[|prefix|..]).value;
               && Increasing(cs)
               && forall c :: c in cs <==>
                    (c in ChannelLetters
                     && (Contains(dataFile, ChannelTag(c)) || env.channelCheck(dataFile, c) == Ok(true)))
  {
    var cs := DetectChannels(dataFile, env.channelCheck, ChannelLetters).value;
    LettersIncreasing();
    assert Increasing(cs);
    FixesAfter(" -tl 120 -i " + Show(p[IntegrationTimeKey]), cs);
  }

  /** The channel letters are in alphabetical order. */
  lemma LettersIncreasing()
    ensures Increasing(ChannelLetters)
  {
  }

  /** The channels can be read back from the options after any prefix. */
  lemma FixesAfter(prefix: string, cs: seq<char>)
    ensures prefix <= prefix + FixOptions(cs)
    ensures ParseFixes((prefix + FixOptions(cs))[|prefix|..]) == Some(cs)
  {
    assert (prefix + FixOptions(cs))[|prefix|..] == FixOptions(cs);
    FixOptionsRoundTrip(cs);
  }

  const MismatchPrefix := "Mismatched radar abbreviation: "
  const MismatchMiddle := " and file name "

  /** `generate_radar_grid_file(radar_abbrv, data_file)`: refuses a data
      file whose name does not contain the radar's acronym, before anything
      else; otherwise builds the grid file and options and makes the grid. */
  function GenerateRadarGridFile(p: Parameters, code: string, env: Env, abbrv: string, dataFile: string)
    : (a: GridAttempt)
    ensures !Contains(dataFile, abbrv) ==>
              a == GridAttempt(None, "", None, Err(Builtin(ValueError(MismatchPrefix + abbrv + MismatchMiddle + dataFile))))
    ensures Contains(dataFile, abbrv) ==>
              var setup := GridSetup(p, code, env, abbrv, dataFile);
              if setup.Ok? then a == MakeGrid(env, dataFile, setup.value.0, setup.value.1)
              else a == GridAttempt(None, "", None, Err(setup.error))
    ensures a.status == Ok(0) ==> Contains(dataFile, abbrv) && p[ChannelKey] == Str("")
  {
    if !Contains(dataFile, abbrv) then
      GridAttempt(None, "", None, Err(Builtin(ValueError(MismatchPrefix + abbrv + MismatchMiddle + dataFile))))
    else
      match GridSetup(p, code, env, abbrv, dataFile)
      case Err(e) => GridAttempt(None, "", None, Err(e))
      case Ok((gridFile, options)) => MakeGrid(env, dataFile, gridFile, options)
  }

  // ---------------------------------------------------------------------------
  // Data files

  /** The text after the last dot, which is what `name.split('.')[-1]`
      gives. */
  function Extension(name: string): (ext: string)
    ensures '.' !in ext
    ensures |ext| <= |name| && ext == name[|name| - |ext|..]
    decreases |name|
  {
    if |name| == 0 then ""
    else if name[|name| - 1] == '.' then ""
    else Extension(name[..|name| - 1]) + [name[|name| - 1]]
  }

  lemma {:induction false} ExtensionAfterDot(stem: string, ext: string)
    requires '.' !in ext
    ensures Extension(stem + "." + ext) == ext
    decreases |ext|
  {
    var s := stem + "." + ext;
    if |ext| == 0 {
      assert s[|s| - 1] == '.';
    } else {
      var init := ext[..|ext| - 1];
      assert s[..|s| - 1] == stem + "." + init;
      assert '.' !in init by {
        assert forall k :: 0 <= k < |init| ==> init[k] == ext[k];
      }
      ExtensionAfterDot(stem, init);
      assert init + [ext[|ext| - 1]] == ext;
    }
  }

  /** A data file extension the driver accepts: a compression or a file type. */
  predicate Supported(ext: string) {
    ext in CompressionTypes || ext in FileTypes
  }

  function UnsupportedMessage(ext: string): string {
    "Error: " + ext + " file type or compression extension is not supported. Please use one for"
    + " the following supported types: " + ListRepr(FileTypes) + " " + ListRepr(CompressionTypes)
  }

  /** What preparing one data file did: the decompress command it ran, the
      text it added to `radars_used`, and the file it leaves for the grid
      step or the exception it raised (which the caller logs and ignores). */
  datatype DataFileRun = DataFileRun(
    decompress: Option<string>,
    usedAdded: string,
    outcome: Result<string, Failure>)

  /** The decompress command of a supported compression. */
  function Decompressor(ext: string): (command: string)
    requires ext in CompressionTypes
    ensures ext in DecompressCommand && command == DecompressCommand[ext]
  {
    FileTablesAgree();
    DecompressCommand[ext]
  }

  /** What `EmptyDataFileWarning(data_file)` raises: one argument where the
      constructor takes two. */
  function EmptyFileError(file: string): (e: BuiltinError)
    ensures e.TypeError?
  {
    NewEmptyDataFile([file]).error
  }

  /** The part of preparing a data file after its copy `copied` reached
      the plot path: the decompress command, the name left after the
      compression suffix is stripped, its report in `radars_used`, and its
      size check. */
  function AfterCopy(env: Env, ext: string, copied: string): (d: DataFileRun)
    requires Supported(ext)
    ensures var file := if ext in CompressionTypes then Rewrite(copied, AnyThen(ext), "") else copied;
            && d.decompress == (if ext in CompressionTypes then Some(Decompressor(ext) + " " + copied) else None)
            && d.usedAdded == Basename(file) + " \n"
            && (d.outcome.Ok? <==> env.size(file).Some? && env.size(file).value > 0)
            && (d.outcome.Ok? ==> d.outcome.value == file)
            && (env.size(file) == Some(0) ==> d.outcome.Err? && d.outcome.error.Builtin?
                                              && d.outcome.error.error.TypeError?)
  {
    var compressed := ext in CompressionTypes;
    var file := if compressed then Rewrite(copied, AnyThen(ext), "") else copied;
    var decompress := if compressed then Some(Decompressor(ext) + " " + copied) else None;
    var used := Basename(file) + " \n";
    match env.size(file)
    case None => DataFileRun(decompress, used, Err(Builtin(NoSuchFile(file))))
    case Some(n) =>
      if n == 0 then DataFileRun(decompress, used, Err(Builtin(EmptyFileError(file))))
      else DataFileRun(decompress, used, Ok(file))
  }

  /** One data file of `generate_grid_files`: checks its extension and that
      it is a file, copies it to the plot path, decompresses the copy and
      strips the compression suffix with `re.sub('.' + ext, '', ...)`,
      reports its base name in `radars_used`, and fails for an empty file.
      An empty file was meant to be reported in `radars_errors` too, but the
      warning built just before has a wrong constructor call and raises
      first; a copy onto itself ends in the missing `radars_missing`. */
  function PrepareDataFile(p: Parameters, env: Env, name: string): (d: DataFileRun)
    ensures var e := d.outcome;
            (e.Err? && e.error.Raised? && e.error.exception.UnsupportedType?) <==> !Supported(Extension(name))
    ensures !Supported(Extension(name)) ==>
              d == DataFileRun(None, "", Err(Raised(UnsupportedType(UnsupportedMessage(Extension(name))))))
    ensures Supported(Extension(name)) && !env.isFile(name) ==>
              d == DataFileRun(None, "", Err(Raised(FileDoesNotExist(name))))
    ensures (&& Supported(Extension(name)) && env.isFile(name) && PlotPathKey in p
             && env.copy(name, Show(p[PlotPathKey])) == Copied)
              ==> d == AfterCopy(env, Extension(name), Show(p[PlotPathKey]) + "/" + Basename(name))
    ensures (!(&& Supported(Extension(name)) && env.isFile(name) && PlotPathKey in p
               && env.copy(name, Show(p[PlotPathKey])) == Copied))
              ==> d.usedAdded == "" && d.decompress.None? && d.outcome.Err?
  {
    var ext := Extension(name);
    if !Supported(ext) then DataFileRun(None, "", Err(Raised(UnsupportedType(UnsupportedMessage(ext)))))
    else if !env.isFile(name) then DataFileRun(None, "", Err(Raised(FileDoesNotExist(name))))
    else if PlotPathKey !in p then DataFileRun(None, "", Err(Builtin(KeyError(Name(PlotPathKey)))))
    else
      var plot := Show(p[PlotPathKey]);
      match env.copy(name, plot)
      case SameFile => DataFileRun(None, "", Err(Builtin(AttributeError("radars_missing"))))
      case CopyFailed(m) => DataFileRun(None, "", Err(Builtin(IOError(m))))
      case Copied => AfterCopy(env, ext, plot + "/" + Basename(name))
  }

  /** No match of `.ext` starts in `x` and runs into the dot of `"." + ext`. */
  lemma SuffixNoStraddle(x: string, ext: string)
    requires '.' !in ext
    ensures NoStraddle(x, "." + ext, AnyThen(ext))
  {
    var pat := AnyThen(ext);
    var s := x + ("." + ext);
    forall i | 0 <= i < |x| < i + pat.Width()
      ensures !MatchAt(s, i, pat)
    {
      var j := |x| - i - 1;
      assert s[|x|] == '.';
      if i + pat.Width() <= |s| {
        var w := s[i..i + pat.Width()];
        assert w[1..][j] == '.';
        assert ext[j] != '.';
      }
    }
  }

  /** The suffix `"." + ext` is one match and vanishes. */
  lemma SuffixVanishes(ext: string)
    ensures Rewrite("." + ext, AnyThen(ext), "") == ""
  {
    var pat := AnyThen(ext);
    var b := "." + ext;
    assert b[0..pat.Width()] == b;
    assert MatchAt(b, 0, pat);
    assert b[pat.Width()..] == [];
  }

  /** Stripping a compression suffix with `re.sub('.' + ext, '', ...)`
      gives back the name without the suffix when nothing else in the name
      is a character followed by the extension. */
  lemma StripCompression(x: string, ext: string)
    requires '.' !in ext
    requires forall i :: !MatchAt(x, i, AnyThen(ext))
    ensures Rewrite(x + "." + ext, AnyThen(ext), "") == x
  {
    SuffixNoStraddle(x, ext);
    assert x + "." + ext == x + ("." + ext);
    RewriteAppend(x, "." + ext, AnyThen(ext), "");
    RewriteNoMatch(x, AnyThen(ext), "");
    SuffixVanishes(ext);
  }

  /** A name without the extension's first letter has no match. */
  lemma NoMatchWithout(x: string, ext: string)
    requires |ext| > 0 && ext[0] !in x
    ensures forall i :: !MatchAt(x, i, AnyThen(ext))
  {
    forall i ensures !MatchAt(x, i, AnyThen(ext)) {
      if 0 <= i && i + |ext| + 1 <= |x| {
        assert x[i..i + |ext| + 1][1..][0] == x[i + 1];
      }
    }
  }

  /** But every character followed by the extension is deleted, wherever it
      is: a plot directory `/xbz2` (`c` is `x`, `ext` is `bz2`) loses `xbz2`,
      so the size check looks at `//d.fitacf` rather than `/xbz2/d.fitacf`. */
  lemma StripDeletesEveryMatch(c: char, x: string, ext: string)
    requires c != '\n' && |ext| > 0 && c != ext[0] && '.' !in ext && ext[0] !in x
    ensures Rewrite("/" + ([c] + ext + (x + "." + ext)), AnyThen(ext), "") == "/" + x
  {
    var pat := AnyThen(ext);
    var rest := [c] + ext + (x + "." + ext);
    var s := "/" + rest;
    assert s[1] == c;
    assert !MatchAt(s, 0, pat);
    assert s[1..] == rest;
    StripAfterMatch(c, x, ext);
  }

  /** A character followed by the extension at the front is deleted, and
      the rest of the name keeps its own compression suffix stripped. */
  lemma StripAfterMatch(c: char, x: string, ext: string)
    requires c != '\n' && |ext| > 0 && '.' !in ext && ext[0] !in x
    ensures Rewrite([c] + ext + (x + "." + ext), AnyThen(ext), "") == x
  {
    var pat := AnyThen(ext);
    var t := x + "." + ext;
    var s := [c] + ext + t;
    assert s[0..|ext| + 1] == [c] + ext;
    assert MatchAt(s, 0, pat);
    assert s[|ext| + 1..] == t;
    NoMatchWithout(x, ext);
    StripCompression(x, ext);
  }

  // ---------------------------------------------------------------------------
  // All grid files

  /** `"{data_path}/{date}*{abbrv}*.fitacf.bz2"`: the data files of a radar. */
  function DataPattern(dataDir: string, date: string, abbrv: string): string {
    dataDir + "/" + date + "*" + abbrv + "*.fitacf.bz2"
  }

  /** `"{plot_path}/{date}*{abbrv}*.fitacf"`: the pattern the grid step is
      handed in place of a data file name. */
  function PlotPattern(plotDir: string, date: string, abbrv: string): string {
    plotDir + "/" + date + "*" + abbrv + "*.fitacf"
  }

  /** The text the data files of a radar add to `radars_used`, in match order. */
  function DataStage(p: Parameters, env: Env, files: seq<MatchedFile>): string {
    if |files| == 0 then ""
    else PrepareDataFile(p, env, files[0].name).usedAdded + DataStage(p, env, files[1..])
  }

  /** The grid attempt for a radar, if one is made: none when the plot path
      or date is missing (the error is logged and ignored) or when no copied
      data file matches the plot pattern. */
  function RadarGrid(p: Parameters, code: string, env: Env, abbrv: string): Option<GridAttempt> {
    if PlotPathKey !in p || DateKey !in p then None
    else
      var pattern := PlotPattern(Show(p[PlotPathKey]), Show(p[DateKey]), abbrv);
      if |env.glob(pattern)| == 0 then None
      else Some(GenerateRadarGridFile(p, code, env, abbrv, pattern))
  }

  /** The radar's grid is counted: its attempt returned 0. */
  predicate Made(p: Parameters, code: string, env: Env, abbrv: string) {
    RadarGrid(p, code, env, abbrv).Some? && RadarGrid(p, code, env, abbrv).value.status == Ok(0)
  }

  /** One radar's turn in the loop: its data files are prepared, reported
      in `radars_used`, and its grid is attempted, a failed attempt being
      reported in `radars_errors`. Nothing but the reports changes. */
  function RadarStep(pl: Pipeline, env: Env, dataDir: string, date: string, abbrv: string): (next: Pipeline)
    ensures next.parameter == pl.parameter && next.hemExt == pl.hemExt && next.rstOptions == pl.rstOptions
    ensures pl.radarsUsed <= next.radarsUsed && pl.radarsErrors <= next.radarsErrors
    ensures Made(pl.parameter, pl.hemExt, env, abbrv) ==> next.radarsErrors == pl.radarsErrors
  {
    var used := DataStage(pl.parameter, env, env.glob(DataPattern(dataDir, date, abbrv)));
    var attempt := RadarGrid(pl.parameter, pl.hemExt, env, abbrv);
    var added := if attempt.Some? then attempt.value.errorsAdded else "";
    pl.(radarsUsed := pl.radarsUsed + used, radarsErrors := pl.radarsErrors + added)
  }

  /** The loop over the radars of a hemisphere, counting the radars whose
      grid attempt returned 0. The reports only grow and nothing else
      changes. */
  function RadarLoop(pl: Pipeline, env: Env, dataDir: string, date: string, radars: seq<string>)
    : (r: (Pipeline, nat))
    ensures r.1 <= |radars|
    ensures r.1 == 0 <==> forall i :: 0 <= i < |radars| ==> !Made(pl.parameter, pl.hemExt, env, radars[i])
    ensures r.1 == |radars| <==> forall i :: 0 <= i < |radars| ==> Made(pl.parameter, pl.hemExt, env, radars[i])
    ensures r.0.parameter == pl.parameter && r.0.hemExt == pl.hemExt && r.0.rstOptions == pl.rstOptions
    ensures pl.radarsUsed <= r.0.radarsUsed && pl.radarsErrors <= r.0.radarsErrors
    decreases |radars|
  {
    if |radars| == 0 then (pl, 0)
    else
      var rest := RadarLoop(RadarStep(pl, env, dataDir, date, radars[0]), env, dataDir, date, radars[1..]);
      MadeSplit(pl.parameter, pl.hemExt, env, radars);
      (rest.0, rest.1 + (if Made(pl.parameter, pl.hemExt, env, radars[0]) then 1 else 0))
  }

  /** Whether all radars, or none, made a grid is decided by the first and
      the rest. */
  lemma MadeSplit(p: Parameters, code: string, env: Env, radars: seq<string>)
    requires |radars| > 0
    ensures (forall i :: 0 <= i < |radars| ==> Made(p, code, env, radars[i]))
            <==> Made(p, code, env, radars[0]) && forall i :: 0 <= i < |radars[1..]| ==> Made(p, code, env, radars[1..][i])
    ensures (forall i :: 0 <= i < |radars| ==> !Made(p, code, env, radars[i]))
            <==> !Made(p, code, env, radars[0]) && forall i :: 0 <= i < |radars[1..]| ==> !Made(p, code, env, radars[1..][i])
  {
    assert forall i :: 1 <= i < |radars| ==> radars[i] == radars[1..][i - 1];
  }

  /** The radars of a hemisphere: the southern ones for `'south'`, the
      northern ones for anything else. */
  function HemisphereRadars(hemisphere: Value): seq<string> {
    if hemisphere == Str("south") then SouthRadarAbbrv else NorthRadarAbbrv
  }

  /** The `combine_grid` command joining the radars' grid files into the
      hemisphere's grd file. */
  function CombineCommand(options: string, plotDir: string, date: string, code: string, grd: string): string {
    "combine_grid " + options + " " + plotDir + "/" + date + ".*." + code + ".grid  > " + grd
  }

  /** What `generate_grid_files` leaves: the object with its reports, the
      number of radars whose grid was made, and the combine command. */
  datatype GridRun = GridRun(pipeline: Pipeline, made: nat, combine: string)

  /** `generate_grid_files()`: every radar of the hemisphere is tried; when
      none yields a grid, `NoGridFilesException` lists the hemisphere's
      radars and nothing is combined; otherwise the grids are combined into
      `{plot_path}/{date}.{h}.grd`, which must not come out empty. */
  function GenerateGridFiles(pl: Pipeline, env: Env): (r: Result<GridRun, Failure>)
    ensures var p := pl.parameter;
            HemisphereKey in p && DataPathKey in p && DateKey in p ==>
              var radars := HemisphereRadars(p[HemisphereKey]);
              (r == Err(Raised(NoGridFiles(radars))) <==>
                 forall i :: 0 <= i < |radars| ==> !Made(p, pl.hemExt, env, radars[i]))
    ensures r.Ok? ==> && HemisphereKey in pl.parameter && DateKey in pl.parameter && PlotPathKey in pl.parameter
                      && var p := pl.parameter;
                         var radars := HemisphereRadars(p[HemisphereKey]);
                         var grd := Show(p[PlotPathKey]) + "/" + GrdName(Show(p[DateKey]), pl.hemExt);
                         && 0 < r.value.made <= |radars|
                         && (exists i :: 0 <= i < |radars| && Made(p, pl.hemExt, env, radars[i]))
                         && r.value.combine == CombineCommand(pl.rstOptions, Show(p[PlotPathKey]), Show(p[DateKey]), pl.hemExt, grd)
                         && RunRst(env, r.value.combine, grd).Ok?
    ensures r.Ok? ==> && r.value.pipeline.parameter == pl.parameter && r.value.pipeline.hemExt == pl.hemExt
                      && pl.radarsUsed <= r.value.pipeline.radarsUsed
                      && pl.radarsErrors <= r.value.pipeline.radarsErrors
  {
    var p := pl.parameter;
    var hemisphere :- Lookup(p, HemisphereKey);
    var radars := HemisphereRadars(hemisphere);
    var dataDir :- Lookup(p, DataPathKey);
    var date :- Lookup(p, DateKey);
    var loop := RadarLoop(pl, env, Show(dataDir), Show(date), radars);
    if loop.1 == 0 then Err(Raised(NoGridFiles(radars)))
    else CombineGrids(pl, env, date, loop.0, loop.1)
  }

  /** `generate_grid_files` fails at the first missing parameter among
      the hemisphere, the data path and the date, and after the radar loop
      at a missing plot path if some radar made a grid. */
  lemma GridFilesMissingKey(pl: Pipeline, env: Env)
    ensures var p := pl.parameter;
            var r := GenerateGridFiles(pl, env);
            && (HemisphereKey !in p ==> r == Err(Builtin(KeyError(Name(HemisphereKey)))))
            && (HemisphereKey in p && DataPathKey !in p ==> r == Err(Builtin(KeyError(Name(DataPathKey)))))
            && (HemisphereKey in p && DataPathKey in p && DateKey !in p ==> r == Err(Builtin(KeyError(Name(DateKey)))))
    ensures var p := pl.parameter;
            var radars := if HemisphereKey in p then HemisphereRadars(p[HemisphereKey]) else [];
            && HemisphereKey in p && DataPathKey in p && DateKey in p && PlotPathKey !in p
            && (exists i :: 0 <= i < |radars| && Made(p, pl.hemExt, env, radars[i]))
            ==> GenerateGridFiles(pl, env) == Err(Builtin(KeyError(Name(PlotPathKey))))
  {
  }

  /** With the hemisphere, data path, date and plot path present,
      `generate_grid_files` succeeds exactly when some radar made a grid and
      `combine_grid` passed its check, and otherwise, once a grid was made,
      fails as the combine step did. */
  lemma GridFilesOutcome(pl: Pipeline, env: Env)
    ensures var p := pl.parameter;
            HemisphereKey in p && DataPathKey in p && DateKey in p && PlotPathKey in p ==>
              var r := GenerateGridFiles(pl, env);
              var radars := HemisphereRadars(p[HemisphereKey]);
              var plotDir := Show(p[PlotPathKey]);
              var grd := plotDir + "/" + GrdName(Show(p[DateKey]), pl.hemExt);
              var combined := RunRst(env, CombineCommand(pl.rstOptions, plotDir, Show(p[DateKey]), pl.hemExt, grd), grd);
              var made := exists i :: 0 <= i < |radars| && Made(p, pl.hemExt, env, radars[i]);
              && (r.Ok? <==> made && combined.Ok?)
              && (made && combined.Err? ==> r == Err(combined.error))
  {
    var p := pl.parameter;
    if HemisphereKey in p && DataPathKey in p && DateKey in p && PlotPathKey in p {
      var radars := HemisphereRadars(p[HemisphereKey]);
      var loop := RadarLoop(pl, env, Show(p[DataPathKey]), Show(p[DateKey]), radars);
      assert GenerateGridFiles(pl, env)
             == if loop.1 == 0 then Err(Raised(NoGridFiles(radars)))
                else CombineGrids(pl, env, p[DateKey], loop.0, loop.1);
    }
  }

  /** The closing step of `generate_grid_files`, once some grid was made:
      `combine_grid` over `{plot_path}/{date}.*.{h}.grid`, whose output
      must exist and not be empty. */
  function CombineGrids(pl: Pipeline, env: Env, date: Value, next: Pipeline, made: nat): (r: Result<GridRun, Failure>)
    ensures r.Ok? <==> (&& PlotPathKey in pl.parameter
                        && var grd := Show(pl.parameter[PlotPathKey]) + "/" + GrdName(Show(date), pl.hemExt);
                           RunRst(env, CombineCommand(pl.rstOptions, Show(pl.parameter[PlotPathKey]), Show(date), pl.hemExt, grd), grd).Ok?)
    ensures r.Ok? ==> && r.value.pipeline == next && r.value.made == made
                      && var grd := Show(pl.parameter[PlotPathKey]) + "/" + GrdName(Show(date), pl.hemExt);
                         r.value.combine == CombineCommand(pl.rstOptions, Show(pl.parameter[PlotPathKey]), Show(date), pl.hemExt, grd)
    ensures r.Err? && PlotPathKey !in pl.parameter ==> r.error == Builtin(KeyError("plot_path"))
    ensures PlotPathKey in pl.parameter ==>
              var grd := Show(pl.parameter[PlotPathKey]) + "/" + GrdName(Show(date), pl.hemExt);
              var combined := RunRst(env, CombineCommand(pl.rstOptions, Show(pl.parameter[PlotPathKey]), Show(date), pl.hemExt, grd), grd);
              combined.Err? ==> r == Err(combined.error)
  {
    var plot :- Lookup(pl.parameter, PlotPathKey);
    var grd := Show(plot) + "/" + GrdName(Show(date), pl.hemExt);
    var command := CombineCommand(pl.rstOptions, Show(plot), Show(date), pl.hemExt, grd);
    var _ :- RunRst(env, command, grd);
    Ok(GridRun(next, made, command))
  }

  /** The pattern handed to the grid step contains the radar's acronym, so
      the mismatch check never fires inside `generate_grid_files`. */
  lemma PatternNamesRadar(plotDir: string, date: string, abbrv: string)
    ensures Contains(PlotPattern(plotDir, date, abbrv), abbrv)
  {
    var prefix := plotDir + "/" + date + "*";
    var pattern := PlotPattern(plotDir, date, abbrv);
    assert pattern == prefix + abbrv + "*.fitacf";
    assert pattern[|prefix|..|prefix| + |abbrv|] == abbrv;
    ContainsAt(pattern, abbrv, |prefix|);
  }

  /** Choosing a single channel makes every grid attempt fail, so the grid
      step ends in `NoGridFilesException` for the whole hemisphere. */
  lemma ChannelChosenNoGrids(pl: Pipeline, env: Env)
    requires HemisphereKey in pl.parameter && DataPathKey in pl.parameter && DateKey in pl.parameter
    requires ChannelKey in pl.parameter && pl.parameter[ChannelKey] != Str("")
    ensures GenerateGridFiles(pl, env) == Err(Raised(NoGridFiles(HemisphereRadars(pl.parameter[HemisphereKey]))))
  {
    var p := pl.parameter;
    var radars := HemisphereRadars(p[HemisphereKey]);
    forall i | 0 <= i < |radars| ensures !Made(p, pl.hemExt, env, radars[i]) {
    }
  }

  // ---------------------------------------------------------------------------
  // Map files

  /** The failures `generate_map_files` catches around the OMNI download and
      conversion: `OmniException` and three of the OMNI warnings. */
  predicate OmniCaught(e: Failure) {
    || (e.Raised? && e.exception.OmniException?)
    || (e.Warned? && (e.warning.OmniFileNotGenerated? || e.warning.OmniFileNotFound? || e.warning.OmniBadData?))
  }

  /** Whether OMNI data is to be fetched: what `check_for_updates` returned,
      or true when it raised `OmniFileNotFoundWarning`; anything else it
      raised propagates. */
  function UpdateWanted(checked: Result<bool, Failure>): (r: Result<bool, Failure>)
    ensures r.Ok? <==> checked.Ok? || checked == Err(Warned(OmniFileNotFound))
    ensures r.Ok? ==> (r.value <==> checked != Ok(false))
    ensures r.Err? ==> r == checked
  {
    match checked
    case Ok(b) => Ok(b)
    case Err(e) => if e == Warned(OmniFileNotFound) then Ok(true) else Err(e)
  }

  /** What the OMNI stage leaves: the IMF file it converted (none when a
      caught failure cut it short), the effect on the IMF file, and the
      download call it made. */
  datatype OmniStage = OmniStage(converted: Option<string>, imf: ImfEffect, download: Option<seq<string>>)

  /** The guarded part of the OMNI stage: the download (when an update is
      wanted) and the conversion. Caught failures end the stage quietly;
      every other failure propagates. */
  function FetchAndConvert(o: Omni, env: Env, update: bool, mapDir: string): (r: Result<OmniStage, Failure>)
    ensures r.Err? ==> !OmniCaught(r.error)
    ensures var download := GetOmniFile(o, env.requested, env.isFile, env.size);
            var outcome := OmniFileToImf(o, "", env.read).outcome;
            && (update && download.Err? ==>
                  r == (if OmniCaught(download.error) then Ok(OmniStage(None, Untouched, None)) else Err(download.error)))
            && ((!update || download.Ok?) ==>
                  && (r.Err? <==> outcome.Err? && !OmniCaught(outcome.error))
                  && (r.Err? ==> r.error == outcome.error))
    ensures r.Ok? && r.value.download.Some? ==>
              update && GetOmniFile(o, env.requested, env.isFile, env.size) == Ok(r.value.download.value)
    ensures r.Ok? ==> (r.value.converted.Some? <==>
                         && (update ==> GetOmniFile(o, env.requested, env.isFile, env.size).Ok?)
                         && OmniFileToImf(o, "", env.read).outcome.Ok?)
    ensures r.Ok? && r.value.converted.Some? ==>
              r.value.converted.value == mapDir + "/" + o.imfFilename && r.value.imf.Written?
  {
    var download := if update then Some(GetOmniFile(o, env.requested, env.isFile, env.size)) else None;
    if download.Some? && download.value.Err? then
      if OmniCaught(download.value.error) then Ok(OmniStage(None, Untouched, None))
      else Err(download.value.error)
    else
      var run := OmniFileToImf(o, "", env.read);
      var call := if download.Some? then Some(download.value.value) else None;
      match run.outcome
      case Ok(_) => Ok(OmniStage(Some(mapDir + "/" + run.omni.imfFilename), run.imf, call))
      case Err(e) => if OmniCaught(e) then Ok(OmniStage(None, run.imf, call)) else Err(e)
  }

  /** The OMNI stage of `generate_map_files`: an `Omni` for the date with
      the map path as its directory, the update check, then the download
      and conversion. */
  function OmniStep(env: Env, date: string, mapDir: string): (r: Result<OmniStage, Failure>)
    ensures r.Ok? ==> NewOmni(date, mapDir).Ok?
    ensures r.Ok? && r.value.converted.Some? ==> r.value.converted.value == mapDir + "/" + date + "_imf.txt"
  {
    var o :- NewOmni(date, mapDir);
    var check := CheckForUpdates(o, "", env.isFile, env.scraped);
    var update :- UpdateWanted(check.result);
    FetchAndConvert(check.omni, env, update, mapDir)
  }

  /** The OMNI stage fails as its first failing part does -- the `Omni`
      construction, the update check, or the download and conversion -- and
      succeeds exactly when they all do. */
  lemma OmniStepOutcome(env: Env, date: string, mapDir: string)
    ensures NewOmni(date, mapDir).Err? ==> OmniStep(env, date, mapDir) == Err(NewOmni(date, mapDir).error)
    ensures NewOmni(date, mapDir).Ok? ==>
              var check := CheckForUpdates(NewOmni(date, mapDir).value, "", env.isFile, env.scraped);
              var update := UpdateWanted(check.result);
              && (update.Err? ==> OmniStep(env, date, mapDir) == Err(update.error))
              && (update.Ok? ==>
                    var fetched := FetchAndConvert(check.omni, env, update.value, mapDir);
                    && (OmniStep(env, date, mapDir).Ok? <==> fetched.Ok?)
                    && (fetched.Err? ==> OmniStep(env, date, mapDir) == Err(fetched.error)))
  {
  }

  /** The IMF file handed to `map_addimf`: an existing
      `{imf_path}/{date}_imf.txt` is used as it is; otherwise the OMNI stage
      runs, and its converted file in the map path replaces it unless the
      stage was cut short. */
  function ChooseImf(env: Env, date: string, imfDir: string, mapDir: string)
    : (r: Result<(string, Option<OmniStage>), Failure>)
    ensures var existing := imfDir + "/" + date + "_imf.txt";
            env.pathExists(existing) ==> r == Ok((existing, None))
    ensures var existing := imfDir + "/" + date + "_imf.txt";
            r.Err? ==> !env.pathExists(existing)
    ensures var existing := imfDir + "/" + date + "_imf.txt";
            var stage := OmniStep(env, date, mapDir);
            && (r.Ok? <==> env.pathExists(existing) || stage.Ok?)
            && (!env.pathExists(existing) && stage.Err? ==> r == Err(stage.error))
            && (!env.pathExists(existing) && stage.Ok? ==> r.value.1 == Some(stage.value))
    ensures r.Ok? && r.value.1.Some? && r.value.1.value.converted.Some? ==>
              r.value.0 == mapDir + "/" + date + "_imf.txt"
    ensures r.Ok? && (r.value.1.None? || r.value.1.value.converted.None?) ==>
              r.value.0 == imfDir + "/" + date + "_imf.txt"
  {
    var existing := imfDir + "/" + date + "_imf.txt";
    if env.pathExists(existing) then Ok((existing, None))
    else
      var stage :- OmniStep(env, date, mapDir);
      Ok((if stage.converted.Some? then stage.converted.value else existing, Some(stage)))
  }

  /** The RST programs of the map stage, in the order they run. */
  const MapPrograms: seq<string> := ["map_grd", "map_addhmb", "map_addimf", "map_addmodel", "map_fit"]

  function MapGrdCommand(options: string, plotDir: string, date: string, code: string, empty: string): string {
    "map_grd " + options + " -l 50 " + plotDir + "/" + date + "." + code + ".grd > " + plotDir + "/" + empty
  }

  function AddHmbCommand(options: string, plotDir: string, empty: string, hmb: string): string {
    "map_addhmb " + options + " " + plotDir + "/" + empty + " > " + plotDir + "/" + hmb
  }

  function AddImfCommand(options: string, imfFile: string, plotDir: string, hmb: string, imfMap: string): string {
    "map_addimf " + options + " -omni -d 00:10 -if " + imfFile + " " + plotDir + "/" + hmb + " > " + plotDir + "/" + imfMap
  }

  function AddModelCommand(options: string, plotDir: string, input: string, model: string): string {
    "map_addmodel " + options + " -o 6 -d l " + plotDir + "/" + input + " > " + plotDir + "/" + model
  }

  function MapFitCommand(options: string, plotDir: string, model: string, final: string): string {
    "map_fit " + options + " " + plotDir + "/" + model + " > " + plotDir + "/" + final
  }

  /** The name of the fitted map: `s` or `n` for the two hemispheres and
      `canadian` for any other value. */
  function FinalMapName(hemisphere: Value, date: string): string {
    if hemisphere == Str("south") then date + ".s.map"
    else if hemisphere == Str("north") then date + ".n.map"
    else date + ".canadian.map"
  }

  /** Each map command is reported, should it fail, under its RST program. */
  lemma MapGrdNamed(options: string, plotDir: string, date: string, code: string, empty: string)
    ensures CommandName(MapGrdCommand(options, plotDir, date, code, empty)) == Ok("map_grd")
  {
    var rest := options + " -l 50 " + plotDir + "/" + date + "." + code + ".grd > " + plotDir + "/" + empty;
    assert MapGrdCommand(options, plotDir, date, code, empty) == "map_grd" + " " + rest;
    LeadingWord("map_grd", rest);
  }

  lemma AddHmbNamed(rst: string, plotDir: string, empty: string, hmb: string)
    ensures CommandName(AddHmbCommand(rst, plotDir, empty, hmb)) == Ok("map_addhmb")
  {
    var rest := rst + " " + plotDir + "/" + empty + " > " + plotDir + "/" + hmb;
    assert AddHmbCommand(rst, plotDir, empty, hmb) == "map_addhmb" + " " + rest;
    LeadingWord("map_addhmb", rest);
  }

  lemma AddImfNamed(rst: string, imfFile: string, plotDir: string, hmb: string, imfMap: string)
    ensures CommandName(AddImfCommand(rst, imfFile, plotDir, hmb, imfMap)) == Ok("map_addimf")
  {
    var rest := rst + " -omni -d 00:10 -if " + imfFile + " " + plotDir + "/" + hmb + " > " + plotDir + "/" + imfMap;
    assert AddImfCommand(rst, imfFile, plotDir, hmb, imfMap) == "map_addimf" + " " + rest;
    LeadingWord("map_addimf", rest);
  }

  lemma AddModelNamed(rst: string, plotDir: string, input: string, model: string)
    ensures CommandName(AddModelCommand(rst, plotDir, input, model)) == Ok("map_addmodel")
  {
    var rest := rst + " -o 6 -d l " + plotDir + "/" + input + " > " + plotDir + "/" + model;
    assert AddModelCommand(rst, plotDir, input, model) == "map_addmodel" + " " + rest;
    LeadingWord("map_addmodel", rest);
  }

  lemma MapFitNamed(rst: string, plotDir: string, model: string, final: string)
    ensures CommandName(MapFitCommand(rst, plotDir, model, final)) == Ok("map_fit")
  {
    var rest := rst + " " + plotDir + "/" + model + " > " + plotDir + "/" + final;
    assert MapFitCommand(rst, plotDir, model, final) == "map_fit" + " " + rest;
    LeadingWord("map_fit", rest);
  }

  /** Every command passed `check_rst_command` at the path it was checked
      at: it exited with 0 and no file matching that path is empty. A path
      nothing matches passes, so an output that was never written, or was
      written elsewhere, goes unnoticed. */
  predicate RanCleanly(env: Env, commands: seq<string>, checked: seq<string>) {
    |commands| == |checked| && forall i :: 0 <= i < |commands| ==> RunRst(env, commands[i], checked[i]).Ok?
  }

  /** The commands run the given RST programs, in order. */
  predicate RunsPrograms(commands: seq<string>, programs: seq<string>) {
    |commands| == |programs| && forall i :: 0 <= i < |commands| ==> CommandName(commands[i]) == Ok(programs[i])
  }

  lemma RanCleanlyAppend(env: Env, c1: seq<string>, k1: seq<string>, c2: seq<string>, k2: seq<string>)
    requires RanCleanly(env, c1, k1) && RanCleanly(env, c2, k2)
    ensures RanCleanly(env, c1 + c2, k1 + k2)
  {
    forall i | 0 <= i < |c1 + c2| ensures RunRst(env, (c1 + c2)[i], (k1 + k2)[i]).Ok? {
      if i >= |c1| {
        assert (c1 + c2)[i] == c2[i - |c1|] && (k1 + k2)[i] == k2[i - |k1|];
      }
    }
  }

  lemma RunsProgramsAppend(c1: seq<string>, p1: seq<string>, c2: seq<string>, p2: seq<string>)
    requires RunsPrograms(c1, p1) && RunsPrograms(c2, p2)
    ensures RunsPrograms(c1 + c2, p1 + p2)
  {
    forall i | 0 <= i < |c1 + c2| ensures CommandName((c1 + c2)[i]) == Ok((p1 + p2)[i]) {
      if i >= |c1| {
        assert (c1 + c2)[i] == c2[i - |c1|] && (p1 + p2)[i] == p2[i - |p1|];
      }
    }
  }

  /** The model and fitting steps: `map_addmodel` on the IMF map, `map_fit`
      into the hemisphere's map, and a copy of that map into the map path,
      where a copy onto itself is ignored and any other copy failure
      propagates. Returns the two commands, their checked paths, the fitted
      map and its copy. */
  function ModelAndFit(rst: string, env: Env, hemisphere: Value, plotDir: string, date: string,
                       code: string, mapDir: string, input: string)
    : (r: Result<(seq<string>, seq<string>, string, string), Failure>)
    ensures r.Ok? ==> RanCleanly(env, r.value.0, r.value.1) && RunsPrograms(r.value.0, MapPrograms[3..])
    ensures r.Ok? ==> && r.value.2 == plotDir + "/" + FinalMapName(hemisphere, date)
                      && r.value.3 == mapDir + "/" + date + ".map"
                      && r.value.1 == [plotDir + "/" + MapName(date, code, "model"), r.value.2]
                      && !env.copy(r.value.2, r.value.3).CopyFailed?
    ensures var model := MapName(date, code, "model");
            var final := plotDir + "/" + FinalMapName(hemisphere, date);
            var copied := env.copy(final, mapDir + "/" + date + ".map");
            (&& RunRst(env, AddModelCommand(rst, plotDir, input, model), plotDir + "/" + model).Ok?
             && RunRst(env, MapFitCommand(rst, plotDir, model, FinalMapName(hemisphere, date)), final).Ok?
             && copied.CopyFailed?)
            ==> r == Err(Builtin(IOError(copied.message)))
    ensures var model := MapName(date, code, "model");
            var final := plotDir + "/" + FinalMapName(hemisphere, date);
            var modelRun := RunRst(env, AddModelCommand(rst, plotDir, input, model), plotDir + "/" + model);
            var fitRun := RunRst(env, MapFitCommand(rst, plotDir, model, FinalMapName(hemisphere, date)), final);
            && (r.Ok? <==> modelRun.Ok? && fitRun.Ok? && !env.copy(final, mapDir + "/" + date + ".map").CopyFailed?)
            && (modelRun.Err? ==> r == Err(modelRun.error))
            && (modelRun.Ok? && fitRun.Err? ==> r == Err(fitRun.error))
  {
    var model := MapName(date, code, "model");
    var modelCommand := AddModelCommand(rst, plotDir, input, model);
    var _ :- RunRst(env, modelCommand, plotDir + "/" + model);
    var final := plotDir + "/" + FinalMapName(hemisphere, date);
    var fitCommand := MapFitCommand(rst, plotDir, model, FinalMapName(hemisphere, date));
    var _ :- RunRst(env, fitCommand, final);
    var stored := mapDir + "/" + date + ".map";
    AddModelNamed(rst, plotDir, input, model);
    MapFitNamed(rst, plotDir, model, FinalMapName(hemisphere, date));
    match env.copy(final, stored)
    case CopyFailed(m) => Err(Builtin(IOError(m)))
    case _ => Ok(([modelCommand, fitCommand], [plotDir + "/" + model, final], final, stored))
  }

  /** What `generate_map_files` leaves: the RST commands in the order they
      ran, the path each one's output was checked at, the IMF file handed
      to `map_addimf`, the OMNI stage if it ran, the model's input and the
      IMF option, the fitted map and its copy in the map path. */
  datatype MapRun = MapRun(
    commands: seq<string>,
    checked: seq<string>,
    imfFile: string,
    omni: Option<OmniStage>,
    inputModel: string,
    imfOption: string,
    finalMap: string,
    stored: string)

  /** From `map_addimf` on. The IMF file is chosen and `map_addimf` run;
      its output, written to the plot path, is checked for in the map path.
      Afterwards the IMF option is ` -imf` and the model's input is the IMF
      map, whatever the OMNI stage did. The model and fit follow. */
  function ImfModelFit(pl: Pipeline, env: Env, hemisphere: Value, plotDir: string, date: string)
    : (r: Result<MapRun, Failure>)
    ensures r.Ok? ==> RanCleanly(env, r.value.commands, r.value.checked)
                      && RunsPrograms(r.value.commands, MapPrograms[2..])
    ensures r.Ok? ==> && ImfPathKey in pl.parameter && MapPathKey in pl.parameter
                      && var mapDir := Show(pl.parameter[MapPathKey]);
                         var existing := Show(pl.parameter[ImfPathKey]) + "/" + date + "_imf.txt";
                         && r.value.checked[0] == mapDir + "/" + MapName(date, pl.hemExt, "imf")
                         && r.value.imfFile in {existing, mapDir + "/" + date + "_imf.txt"}
                         && (env.pathExists(existing) ==> r.value.imfFile == existing && r.value.omni.None?)
                         && r.value.stored == mapDir + "/" + date + ".map"
    ensures r.Ok? ==> r.value.imfOption == " -imf" && r.value.inputModel == MapName(date, pl.hemExt, "imf")
    ensures r.Ok? ==> r.value.finalMap == plotDir + "/" + FinalMapName(hemisphere, date)
    ensures ImfPathKey !in pl.parameter ==> r == Err(Builtin(KeyError(Name(ImfPathKey))))
    ensures ImfPathKey in pl.parameter && MapPathKey !in pl.parameter ==> r == Err(Builtin(KeyError(Name(MapPathKey))))
    ensures ImfPathKey in pl.parameter && MapPathKey in pl.parameter ==>
              var mapDir := Show(pl.parameter[MapPathKey]);
              var chosen := ChooseImf(env, date, Show(pl.parameter[ImfPathKey]), mapDir);
              && (chosen.Err? ==> r == Err(chosen.error))
              && (chosen.Ok? ==>
                    var onwards := ImfOnwards(pl.rstOptions, env, hemisphere, plotDir, date, pl.hemExt,
                                              mapDir, chosen.value.0, chosen.value.1);
                    && (r.Ok? <==> onwards.Ok?)
                    && (onwards.Err? ==> r == Err(onwards.error)))
  {
    var p := pl.parameter;
    var imfDir :- Lookup(p, ImfPathKey);
    var mapDir :- Lookup(p, MapPathKey);
    var chosen :- ChooseImf(env, date, Show(imfDir), Show(mapDir));
    ImfOnwards(pl.rstOptions, env, hemisphere, plotDir, date, pl.hemExt, Show(mapDir), chosen.0, chosen.1)
  }

  /** `map_addimf` on the chosen IMF file, then the model and fit. */
  function ImfOnwards(rst: string, env: Env, hemisphere: Value, plotDir: string, date: string, code: string,
                      mapDir: string, imfFile: string, omni: Option<OmniStage>)
    : (r: Result<MapRun, Failure>)
    ensures r.Ok? ==> RanCleanly(env, r.value.commands, r.value.checked)
                      && RunsPrograms(r.value.commands, MapPrograms[2..])
    ensures r.Ok? ==> && r.value.checked[0] == mapDir + "/" + MapName(date, code, "imf")
                      && r.value.imfFile == imfFile && r.value.omni == omni
                      && r.value.stored == mapDir + "/" + date + ".map"
                      && r.value.imfOption == " -imf" && r.value.inputModel == MapName(date, code, "imf")
                      && r.value.finalMap == plotDir + "/" + FinalMapName(hemisphere, date)
    ensures var imfMap := MapName(date, code, "imf");
            var imfRun := RunRst(env, AddImfCommand(rst, imfFile, plotDir, MapName(date, code, "hmb"), imfMap), mapDir + "/" + imfMap);
            var rest := ModelAndFit(rst, env, hemisphere, plotDir, date, code, mapDir, imfMap);
            && (r.Ok? <==> imfRun.Ok? && rest.Ok?)
            && (imfRun.Err? ==> r == Err(imfRun.error))
            && (imfRun.Ok? && rest.Err? ==> r == Err(rest.error))
  {
    var imfMap := MapName(date, code, "imf");
    var hmb := MapName(date, code, "hmb");
    var imfCommand := AddImfCommand(rst, imfFile, plotDir, hmb, imfMap);
    var _ :- RunRst(env, imfCommand, mapDir + "/" + imfMap);
    var rest :- ModelAndFit(rst, env, hemisphere, plotDir, date, code, mapDir, imfMap);
    AddImfNamed(rst, imfFile, plotDir, hmb, imfMap);
    var ran := ImfFirst(env, imfCommand, mapDir + "/" + imfMap, rest.0, rest.1);
    Ok(MapRun(ran.0, ran.1, imfFile, omni, imfMap, " -imf", rest.2, rest.3))
  }

  /** `map_addimf` followed by the model and fit commands. */
  function ImfFirst(env: Env, imfCommand: string, imfChecked: string, commands: seq<string>, checked: seq<string>)
    : (r: (seq<string>, seq<string>))
    requires RunRst(env, imfCommand, imfChecked).Ok? && CommandName(imfCommand) == Ok("map_addimf")
    requires RanCleanly(env, commands, checked) && RunsPrograms(commands, MapPrograms[3..])
    ensures RanCleanly(env, r.0, r.1) && RunsPrograms(r.0, MapPrograms[2..])
    ensures r.0 == [imfCommand] + commands && r.1 == [imfChecked] + checked
  {
    assert RanCleanly(env, [imfCommand], [imfChecked]);
    assert RunsPrograms([imfCommand], ["map_addimf"]);
    RanCleanlyAppend(env, [imfCommand], [imfChecked], commands, checked);
    RunsProgramsAppend([imfCommand], ["map_addimf"], commands, MapPrograms[3..]);
    assert MapPrograms[2..] == ["map_addimf"] + MapPrograms[3..];
    ([imfCommand] + commands, [imfChecked] + checked)
  }

  /** The options of `map_grd`: the RST options and ` -sh` for the southern
      hemisphere, none otherwise. */
  function MapGrdOptions(rst: string, hemisphere: Value): string {
    if hemisphere == Str("south") then rst + " -sh" else ""
  }

  /** `generate_map_files()`: checks that the hemisphere's grd file exists,
      then runs `map_grd`, `map_addhmb`, `map_addimf`, `map_addmodel` and
      `map_fit` in that order, each checked for a non-empty output, and
      copies the fitted map into the map path. */
  function GenerateMapFiles(pl: Pipeline, env: Env): (r: Result<MapRun, Failure>)
    ensures r.Ok? ==> RanCleanly(env, r.value.commands, r.value.checked) && RunsPrograms(r.value.commands, MapPrograms)
    ensures var p := pl.parameter;
            HemisphereKey in p && PlotPathKey in p && DateKey in p ==>
              var grd := Show(p[PlotPathKey]) + "/" + GrdName(Show(p[DateKey]), pl.hemExt);
              !env.isFile(grd) ==> r == Err(Builtin(IOError(grd + MissingSuffix)))
    ensures r.Ok? ==> && HemisphereKey in pl.parameter && PlotPathKey in pl.parameter && DateKey in pl.parameter
                      && var p := pl.parameter;
                         var plotDir := Show(p[PlotPathKey]);
                         var date := Show(p[DateKey]);
                         && env.isFile(plotDir + "/" + GrdName(date, pl.hemExt))
                         && r.value.commands[0] == MapGrdCommand(MapGrdOptions(pl.rstOptions, p[HemisphereKey]), plotDir, date,
                                                                  pl.hemExt, MapName(date, pl.hemExt, "empty"))
                         && r.value.imfOption == " -imf" && r.value.inputModel == MapName(date, pl.hemExt, "imf")
                         && r.value.finalMap == plotDir + "/" + FinalMapName(p[HemisphereKey], date)
                         && (MapPathKey in p ==> r.value.checked[2] == Show(p[MapPathKey]) + "/" + MapName(date, pl.hemExt, "imf"))
    ensures r.Ok? ==> && ImfPathKey in pl.parameter && MapPathKey in pl.parameter && DateKey in pl.parameter
                      && var date := Show(pl.parameter[DateKey]);
                         var existing := Show(pl.parameter[ImfPathKey]) + "/" + date + "_imf.txt";
                         && r.value.imfFile in {existing, Show(pl.parameter[MapPathKey]) + "/" + date + "_imf.txt"}
                         && (env.pathExists(existing) ==> r.value.imfFile == existing && r.value.omni.None?)
  {
    var p := pl.parameter;
    var hemisphere :- Lookup(p, HemisphereKey);
    var plot :- Lookup(p, PlotPathKey);
    var dateValue :- Lookup(p, DateKey);
    var first :- EmptyAndHmb(pl.rstOptions, env, hemisphere, Show(plot), Show(dateValue), pl.hemExt);
    var rest :- ImfModelFit(pl, env, hemisphere, Show(plot), Show(dateValue));
    Ok(Joined(env, first.0, first.1, rest))
  }

  /** `generate_map_files` fails at the first missing parameter, then at
      the first of the two map steps that fails, and succeeds exactly when
      both steps succeed. */
  lemma MapFilesOutcome(pl: Pipeline, env: Env)
    ensures var p := pl.parameter;
            var r := GenerateMapFiles(pl, env);
            && (HemisphereKey !in p ==> r == Err(Builtin(KeyError(Name(HemisphereKey)))))
            && (HemisphereKey in p && PlotPathKey !in p ==> r == Err(Builtin(KeyError(Name(PlotPathKey)))))
            && (HemisphereKey in p && PlotPathKey in p && DateKey !in p ==> r == Err(Builtin(KeyError(Name(DateKey)))))
    ensures var p := pl.parameter;
            HemisphereKey in p && PlotPathKey in p && DateKey in p ==>
              var r := GenerateMapFiles(pl, env);
              var plotDir := Show(p[PlotPathKey]);
              var date := Show(p[DateKey]);
              var first := EmptyAndHmb(pl.rstOptions, env, p[HemisphereKey], plotDir, date, pl.hemExt);
              var rest := ImfModelFit(pl, env, p[HemisphereKey], plotDir, date);
              && (r.Ok? <==> first.Ok? && rest.Ok?)
              && (first.Err? ==> r == Err(first.error))
              && (first.Ok? && rest.Err? ==> r == Err(rest.error))
  {
  }

  /** The first two map steps followed by the rest: the commands and their
      checked paths concatenate, everything else is the rest's. */
  function Joined(env: Env, commands: seq<string>, checked: seq<string>, rest: MapRun): (r: MapRun)
    requires RanCleanly(env, commands, checked) && RunsPrograms(commands, MapPrograms[..2])
    requires RanCleanly(env, rest.commands, rest.checked) && RunsPrograms(rest.commands, MapPrograms[2..])
    ensures RanCleanly(env, r.commands, r.checked) && RunsPrograms(r.commands, MapPrograms)
    ensures r.commands[0] == commands[0] && r.checked[2] == rest.checked[0]
    ensures r.(commands := rest.commands, checked := rest.checked) == rest
  {
    RanCleanlyAppend(env, commands, checked, rest.commands, rest.checked);
    RunsProgramsAppend(commands, MapPrograms[..2], rest.commands, MapPrograms[2..]);
    assert MapPrograms == MapPrograms[..2] + MapPrograms[2..];
    rest.(commands := commands + rest.commands, checked := checked + rest.checked)
  }

  /** The first two map steps, after the grd file is found: `map_grd` into
      the empty map and `map_addhmb` into the HMB map. */
  function EmptyAndHmb(rst: string, env: Env, hemisphere: Value, plotDir: string, date: string, code: string)
    : (r: Result<(seq<string>, seq<string>), Failure>)
    ensures var grd := plotDir + "/" + GrdName(date, code);
            !env.isFile(grd) ==> r == Err(Builtin(IOError(grd + MissingSuffix)))
    ensures var empty := MapName(date, code, "empty");
            var hmb := MapName(date, code, "hmb");
            var grdRun := RunRst(env, MapGrdCommand(MapGrdOptions(rst, hemisphere), plotDir, date, code, empty), plotDir + "/" + empty);
            var hmbRun := RunRst(env, AddHmbCommand(rst, plotDir, empty, hmb), plotDir + "/" + hmb);
            && (r.Ok? <==> env.isFile(plotDir + "/" + GrdName(date, code)) && grdRun.Ok? && hmbRun.Ok?)
            && (env.isFile(plotDir + "/" + GrdName(date, code)) && grdRun.Err? ==> r == Err(grdRun.error))
            && (env.isFile(plotDir + "/" + GrdName(date, code)) && grdRun.Ok? && hmbRun.Err? ==> r == Err(hmbRun.error))
    ensures r.Ok? ==> RanCleanly(env, r.value.0, r.value.1) && RunsPrograms(r.value.0, MapPrograms[..2])
    ensures r.Ok? ==> r.value.0[0] == MapGrdCommand(MapGrdOptions(rst, hemisphere), plotDir, date, code, MapName(date, code, "empty"))
  {
    var grd := plotDir + "/" + GrdName(date, code);
    var _ :- FileExists(grd, env.isFile(grd));
    var empty := MapName(date, code, "empty");
    var grdCommand := MapGrdCommand(MapGrdOptions(rst, hemisphere), plotDir, date, code, empty);
    var _ :- RunRst(env, grdCommand, plotDir + "/" + empty);
    var hmb := MapName(date, code, "hmb");
    var hmbCommand := AddHmbCommand(rst, plotDir, empty, hmb);
    var _ :- RunRst(env, hmbCommand, plotDir + "/" + hmb);
    MapGrdNamed(MapGrdOptions(rst, hemisphere), plotDir, date, code, empty);
    AddHmbNamed(rst, plotDir, empty, hmb);
    Ok(([grdCommand, hmbCommand], [plotDir + "/" + empty, plotDir + "/" + hmb]))
  }

  /** `map_grd` is given the RST options and ` -sh` in the south, and no
      options at all elsewhere. */
  lemma SouthernMapFlag(rst: string, hemisphere: Value, plotDir: string, date: string, code: string, empty: string)
    ensures var grd := MapGrdCommand(MapGrdOptions(rst, hemisphere), plotDir, date, code, empty);
            hemisphere == Str("south") ==> Contains(grd, rst + " -sh")
    ensures var grd := MapGrdCommand(MapGrdOptions(rst, hemisphere), plotDir, date, code, empty);
            hemisphere != Str("south") ==> |grd| >= 15 && grd[..15] == "map_grd  -l 50 "
  {
    var options := MapGrdOptions(rst, hemisphere);
    var grd := MapGrdCommand(options, plotDir, date, code, empty);
    var tail := plotDir + "/" + date + "." + code + ".grd > " + plotDir + "/" + empty;
    assert grd == "map_grd " + options + " -l 50 " + tail;
    if hemisphere == Str("south") {
      assert grd[8..8 + |options|] == options;
      ContainsAt(grd, options, 8);
    } else {
      assert grd == "map_grd  -l 50 " + tail;
    }
  }

  /** A constructed object never makes the `canadian` map: the fitted map
      carries the same hemisphere code as every file before it. */
  lemma NeverCanadian(pl: Pipeline, date: string)
    requires Constructed(pl)
    ensures FinalMapName(pl.parameter[HemisphereKey], date) == date + "." + pl.hemExt + ".map"
    ensures FinalMapName(pl.parameter[HemisphereKey], date) == MapName(date, pl.hemExt, "")[..|date| + 3] + "map"
  {
    assert MapName(date, pl.hemExt, "") == date + "." + pl.hemExt + "." + "" + ".map";
  }

  /** The environment with the files matching `path` replaced. */
  function WithGlob(env: Env, path: string, files: seq<MatchedFile>): (e: Env)
    ensures e.glob(path) == files
    ensures forall p :: p != path ==> e.glob(p) == env.glob(p)
    ensures e.exitCode == env.exitCode
  {
    env.(glob := p => if p == path then files else env.glob(p))
  }

  /** The IMF map is written to the plot path but looked for in the map
      path, and `check_rst_command` inspects only the files that match. So
      the check of `map_addimf` fails only on a non-zero exit code or a
      stale empty file of that name in the map path: with exit code 0 and
      nothing there it passes, and with distinct paths what was written to
      the plot path never changes its outcome. */
  lemma ImfMapCheckedElsewhere(rst: string, imfFile: string, env: Env, plotDir: string, mapDir: string,
                               date: string, code: string, written: seq<MatchedFile>)
    ensures var imfMap := MapName(date, code, "imf");
            var command := AddImfCommand(rst, imfFile, plotDir, MapName(date, code, "hmb"), imfMap);
            var matched := env.glob(mapDir + "/" + imfMap);
            var passes := env.exitCode(command) == 0 && forall k :: 0 <= k < |matched| ==> matched[k].size > 0;
            RunRst(env, command, mapDir + "/" + imfMap).Ok? <==> passes
    ensures var imfMap := MapName(date, code, "imf");
            var command := AddImfCommand(rst, imfFile, plotDir, MapName(date, code, "hmb"), imfMap);
            env.exitCode(command) == 0 && env.glob(mapDir + "/" + imfMap) == [] ==>
              RunRst(env, command, mapDir + "/" + imfMap).Ok?
    ensures var imfMap := MapName(date, code, "imf");
            var command := AddImfCommand(rst, imfFile, plotDir, MapName(date, code, "hmb"), imfMap);
            mapDir != plotDir ==>
              RunRst(WithGlob(env, plotDir + "/" + imfMap, written), command, mapDir + "/" + imfMap)
                == RunRst(env, command, mapDir + "/" + imfMap)
  {
    var name := "/" + MapName(date, code, "imf");
    assert mapDir + "/" + MapName(date, code, "imf") == mapDir + name;
    assert plotDir + "/" + MapName(date, code, "imf") == plotDir + name;
    SameTailSameHead(mapDir, plotDir, name);
  }

  lemma SameTailSameHead(a: string, b: string, tail: string)
    ensures a + tail == b + tail ==> a == b
  {
    if a + tail == b + tail {
      assert |a| == |b|;
      assert a == (a + tail)[..|a|];
      assert b == (b + tail)[..|b|];
    }
  }
}

=== FILE: exceptions.dfy ===
/** The exceptions of the convection-map process and their messages. Each
    constructor keeps its arguments; the message is a function of them. */
module Exceptions {
  import opened Outcomes
  import opened Text

  datatype MapException =
    | OmniException(message: string)
    | PathDoesNotExist(path: string)
    | FileDoesNotExist(filename: string)
    | UnsupportedType(message: string)
    | RstException(functionName: string, returnValue: int)
    | RstFileEmpty(filename: string)
    | NoGridFiles(radars: seq<string>)

  const PathPrefix := "Path: "
  const PathSuffix := " does not exist"
  /** The message of `FileDoesNotExistException`: a template whose `{}` is
      never filled in. */
  const FileTemplate := "Error: " + "{}" + " does not exist, please makes sure the spelling and path is correct."
  const RstPrefix := "RST function "
  const RstMiddle := " failed with error value of "
  const RstEmptyPrefix := "RST file "
  const RstEmptySuffix := " is empty"
  const NoGridPrefix := "No grid files were produced for the following radars: "

  /** The `message` attribute of each exception. */
  function Message(e: MapException): string {
    match e
    case OmniException(m) => m
    case PathDoesNotExist(p) => PathPrefix + p + PathSuffix
    case FileDoesNotExist(_) => FileTemplate
    case UnsupportedType(m) => m
    case RstException(f, v) => RstPrefix + f + RstMiddle + IntToString(v) + " "
    case RstFileEmpty(f) => RstEmptyPrefix + f + RstEmptySuffix
    case NoGridFiles(rs) => NoGridPrefix + RadarList(rs)
  }

  /** `" {r},"` for each radar, in list order. */
  function RadarList(rs: seq<string>): string {
    if |rs| == 0 then "" else " " + rs[0] + "," + RadarList(rs[1..])
  }

  // ---------------------------------------------------------------------------
  // Reading messages back

  function ParsePathMessage(m: string): Option<string> {
    match DropPrefix(m, PathPrefix)
    case None => None
    case Some(rest) => DropSuffix(rest, PathSuffix)
  }

  function ParseRstMessage(m: string): Option<(string, int)> {
    match DropPrefix(m, RstPrefix)
    case None => None
    case Some(rest) =>
      var i := IndexOf(rest, ' ');
      match DropPrefix(rest[i..], RstMiddle)
      case None => None
      case Some(tail) =>
        match DropSuffix(tail, " ")
        case None => None
        case Some(n) =>
          match ParseInt(n)
          case None => None
          case Some(v) => Some((rest[..i], v))
  }

  function ParseRstEmptyMessage(m: string): Option<string> {
    match DropPrefix(m, RstEmptyPrefix)
    case None => None
    case Some(rest) => DropSuffix(rest, RstEmptySuffix)
  }

  /** Reads a radar list written by `RadarList` back into its radars. */
  function ParseRadarList(s: string): Option<seq<string>>
    decreases |s|
  {
    if |s| == 0 then Some([])
    else
      match DropPrefix(s, " ")
      case None => None
      case Some(rest) =>
        var i := IndexOf(rest, ',');
        if i == |rest| then None
        else
          match ParseRadarList(rest[i + 1..])
          case None => None
          case Some(rs) => Some([rest[..i]] + rs)
  }

  function ParseNoGridMessage(m: string): Option<seq<string>> {
    match DropPrefix(m, NoGridPrefix)
    case None => None
    case Some(rest) => ParseRadarList(rest)
  }

  // ---------------------------------------------------------------------------
  // Properties of the messages

  /** `OmniException` and `UnsupportedTypeException` carry their argument as
      the message, unchanged. */
  lemma MessageIsArgument(m: string)
    ensures Message(OmniException(m)) == m
    ensures Message(UnsupportedType(m)) == m
  {
  }

  /** The path can be read back from the `PathDoesNotExistException` message. */
  lemma PathMessageRoundTrip(p: string)
    ensures ParsePathMessage(Message(PathDoesNotExist(p))) == Some(p)
  {
    assert Message(PathDoesNotExist(p)) == PathPrefix + (p + PathSuffix);
    DropPrefixOf(PathPrefix, p + PathSuffix);
    DropSuffixOf(p, PathSuffix);
  }

  /** The `FileDoesNotExistException` message is the same for every file
      name and still holds the unfilled `{}`. */
  lemma FileMessageIgnoresName(a: string, b: string)
    ensures Message(FileDoesNotExist(a)) == Message(FileDoesNotExist(b))
    ensures Contains(Message(FileDoesNotExist(a)), "{}")
  {
    assert FileTemplate[|"Error: "|..|"Error: "| + 2] == "{}";
    ContainsAt(FileTemplate, "{}", |"Error: "|);
  }

  /** The function name and the return value can be read back from the
      `RSTException` message, for a function name without spaces (the
      first word of a command never has one). */
  lemma RstMessageRoundTrip(f: string, v: int)
    requires ' ' !in f
    ensures ParseRstMessage(Message(RstException(f, v))) == Some((f, v))
  {
    var n := IntToString(v);
    var rest := f + (RstMiddle + (n + " "));
    var m := Message(RstException(f, v));
    assert m == RstPrefix + f + RstMiddle + n + " ";
    assert m == RstPrefix + rest;
    DropPrefixOf(RstPrefix, rest);
    IndexOfAfter(f, ' ', RstMiddle + (n + " "));
    DropPrefixOf(RstMiddle, n + " ");
    DropSuffixOf(n, " ");
    IntRoundTrip(v);
  }

  /** The file name can be read back from the `RSTFileEmptyException` message. */
  lemma RstEmptyMessageRoundTrip(f: string)
    ensures ParseRstEmptyMessage(Message(RstFileEmpty(f))) == Some(f)
  {
    assert Message(RstFileEmpty(f)) == RstEmptyPrefix + (f + RstEmptySuffix);
    DropPrefixOf(RstEmptyPrefix, f + RstEmptySuffix);
    DropSuffixOf(f, RstEmptySuffix);
  }

  /** The message grows by `" {r},"` per radar, in list order, starting from
      the bare prefix: the loop that builds it appends at the end. */
  lemma {:induction false} NoGridMessageAppend(rs: seq<string>, r: string)
    ensures Message(NoGridFiles([])) == NoGridPrefix
    ensures Message(NoGridFiles(rs + [r])) == Message(NoGridFiles(rs)) + " " + r + ","
  {
    RadarListAppend(rs, r);
    assert NoGridPrefix + (RadarList(rs) + " " + r + ",") == NoGridPrefix + RadarList(rs) + " " + r + ",";
  }

  lemma {:induction false} RadarListAppend(rs: seq<string>, r: string)
    ensures RadarList(rs + [r]) == RadarList(rs) + " " + r + ","
  {
    if |rs| > 0 {
      assert (rs + [r])[1..] == rs[1..] + [r];
      RadarListAppend(rs[1..], r);
    }
  }

  /** The radars can be read back from the `NoGridFilesException` message,
      when no acronym holds a comma. */
  lemma NoGridMessageRoundTrip(rs: seq<string>)
    requires forall k :: 0 <= k < |rs| ==> ',' !in rs[k]
    ensures ParseNoGridMessage(Message(NoGridFiles(rs))) == Some(rs)
  {
    DropPrefixOf(NoGridPrefix, RadarList(rs));
    RadarListRoundTrip(rs);
  }

  lemma {:induction false} RadarListRoundTrip(rs: seq<string>)
    requires forall k :: 0 <= k < |rs| ==> ',' !in rs[k]
    ensures ParseRadarList(RadarList(rs)) == Some(rs)
    decreases |rs|
  {
    if |rs| > 0 {
      var tail := RadarList(rs[1..]);
      var rest := rs[0] + ("," + tail);
      assert RadarList(rs) == " " + rest;
      DropPrefixOf(" ", rest);
      IndexOfAfter(rs[0], ',', "," + tail);
      assert rest[|rs[0]| + 1..] == tail;
      RadarListRoundTrip(rs[1..]);
      assert [rs[0]] + rs[1..] == rs;
    }
  }
}

=== FILE: failures.dfy ===
/** Everything a step of the process can end in besides returning: a
    built-in Python exception, one of the process's own exceptions, or one
    of its warnings raised as an exception. */
module Failures {
  import opened Builtins
  import opened Exceptions
  import opened Warnings

  datatype Failure =
    | Builtin(error: BuiltinError)
    | Raised(exception: MapException)
    | Warned(warning: MapWarning)
}

=== FILE: omni.dfy ===
/** The OMNI side of the process: naming the OMNI and IMF files of a date,
    deciding whether the local OMNI file is stale, reading the download
    link and the availability date scraped from the OMNI web site, and
    converting OMNI records into the IMF lines RST reads. The web site, the
    shell and the file system are inputs. */
module OmniFiles {
  import opened Outcomes
  import opened Text
  import opened Calendar
  import opened Builtins
  import opened Strptime
  import opened Exceptions
  import opened Warnings
  import opened Failures

  /** The fields of an `Omni` object. */
  datatype Omni = Omni(
    date: string,
    omniFilename: string,
    imfFilename: string,
    omniPath: string,
    imfPath: string,
    startTime: string,
    omniStartTime: string)

  /** The text of a `CalledProcessError` for `command` ending with `code`:
      a negative code is the signal that killed the shell, printed as the
      `signal.Signals` member `repr` gives when there is one. */
  function CalledProcessMessage(command: string, code: int): string {
    if code < 0 then
      match SignalName(-code)
      case Some(name) =>
        "Command '" + command + "' died with <Signals." + name + ": " + IntToString(-code) + ">."
      case None => "Command '" + command + "' died with unknown signal " + IntToString(-code) + "."
    else "Command '" + command + "' returned non-zero exit status " + IntToString(code) + "."
  }

  /** The member name of `signal.Signals(n)` on Linux; where two names share
      a number the enumeration keeps the one first in alphabetical order. */
  function SignalName(n: int): Option<string> {
    match n
    case 1 => Some("SIGHUP")     case 2 => Some("SIGINT")     case 3 => Some("SIGQUIT")
    case 4 => Some("SIGILL")     case 5 => Some("SIGTRAP")    case 6 => Some("SIGABRT")
    case 7 => Some("SIGBUS")     case 8 => Some("SIGFPE")     case 9 => Some("SIGKILL")
    case 10 => Some("SIGUSR1")   case 11 => Some("SIGSEGV")   case 12 => Some("SIGUSR2")
    case 13 => Some("SIGPIPE")   case 14 => Some("SIGALRM")   case 15 => Some("SIGTERM")
    case 16 => Some("SIGSTKFLT") case 17 => Some("SIGCHLD")   case 18 => Some("SIGCONT")
    case 19 => Some("SIGSTOP")   case 20 => Some("SIGTSTP")   case 21 => Some("SIGTTIN")
    case 22 => Some("SIGTTOU")   case 23 => Some("SIGURG")    case 24 => Some("SIGXCPU")
    case 25 => Some("SIGXFSZ")   case 26 => Some("SIGVTALRM") case 27 => Some("SIGPROF")
    case 28 => Some("SIGWINCH")  case 29 => Some("SIGIO")     case 30 => Some("SIGPWR")
    case 31 => Some("SIGSYS")    case 34 => Some("SIGRTMIN")  case 64 => Some("SIGRTMAX")
    case _ => None
  }

  // ---------------------------------------------------------------------------
  // Construction

  /** `Omni(date, omni_path)`: the OMNI and IMF file names and paths of the
      date, its midnight as `YYYYMMDD 00:00`, and the OMNI request start,
      which is that midnight less ten minutes printed as `YYYYMMDDHH`. The
      start is therefore hour 23 of the previous calendar day; for the
      first representable day there is none and Python overflows. */
  function NewOmni(date: string, omniDir: string): (r: Result<Omni, Failure>)
    ensures r.Ok? <==> ParseDateTime(date + " 00:00").Ok?
                       && ParseDateTime(date + " 00:00").value.date != FirstDate
    ensures r.Ok? ==> && r.value.date == date
                      && r.value.omniFilename == date + "_omni.txt"
                      && r.value.imfFilename == date + "_imf.txt"
                      && r.value.omniPath == omniDir + "/" + r.value.omniFilename
                      && r.value.imfPath == omniDir + "/" + r.value.imfFilename
                      && r.value.startTime == date + " 00:00"
    ensures r.Ok? ==> var d := ParseDateTime(date + " 00:00").value.date;
                      r.value.omniStartTime == FormatDate(PrevDay(d)) + "23"
    ensures ParseDateTime(date + " 00:00").Err? ==> r == Err(Builtin(ParseDateTime(date + " 00:00").error))
    ensures ParseDateTime(date + " 00:00").Ok? && ParseDateTime(date + " 00:00").value.date == FirstDate ==>
              r == Err(Builtin(OverflowError("date value out of range")))
  {
    var omniFilename := date + "_omni.txt";
    var imfFilename := date + "_imf.txt";
    var startTime := date + " 00:00";
    match ParseDateTime(startTime)
    case Err(e) => Err(Builtin(e))
    case Ok(t) =>
      MidnightOf(date);
      EveningBefore(t);
      match AddSeconds(t, -(10 * 60))
      case None => Err(Builtin(OverflowError("date value out of range")))
      case Some(s) =>
        Ok(Omni(date, omniFilename, imfFilename, omniDir + "/" + omniFilename,
                omniDir + "/" + imfFilename, startTime, FormatDateHour(s)))
  }

  /** A date read with time `00:00` is at second 0 of its day. */
  lemma MidnightOf(date: string)
    ensures ParseDateTime(date + " 00:00").Ok? ==> ParseDateTime(date + " 00:00").value.second == 0
  {
    var head, clock := date + " ", "00:00";
    assert head + clock == date + " 00:00";
    if ParseDateTime(head + clock).Ok? {
      assert clock[..2] == "00" && clock[3..] == "00";
      assert DigitsToNat("00") == 0 by {
        assert "00"[..1] == "0";
        assert "0"[..0] == "";
      }
      ClockAtEnd(head, clock);
    }
  }

  /** Ten minutes before midnight is 23:50 of the previous day. */
  lemma EveningBefore(t: DateTime)
    requires ValidDateTime(t) && t.second == 0
    ensures AddSeconds(t, -(10 * 60)).Some? <==> t.date != FirstDate
    ensures t.date != FirstDate ==>
              AddSeconds(t, -(10 * 60)) == Some(DateTime(PrevDay(t.date), SecondsPerDay - 600))
    ensures t.date != FirstDate ==>
              FormatDateHour(AddSeconds(t, -(10 * 60)).value) == FormatDate(PrevDay(t.date)) + "23"
  {
    assert -600 / SecondsPerDay == -1 && -600 % SecondsPerDay == SecondsPerDay - 600;
    if t.date != FirstDate {
      PrevDayOrdinal(t.date);
      assert AddDays(PrevDay(t.date), 0) == Some(PrevDay(t.date));
      assert AddDays(t.date, -1) == Some(PrevDay(t.date));
      var s := DateTime(PrevDay(t.date), SecondsPerDay - 600);
      assert Hour(s) == 23;
      assert Pad2(23) == "23";
    }
  }

  /** The OMNI file name is the last component of its path, and the date
      can be read back from either name. */
  lemma NamesReadBack(date: string, omniDir: string)
    requires '/' !in date
    requires NewOmni(date, omniDir).Ok?
    ensures var o := NewOmni(date, omniDir).value;
            && Basename(o.omniPath) == o.omniFilename
            && Basename(o.imfPath) == o.imfFilename
            && DropSuffix(o.omniFilename, "_omni.txt") == Some(date)
            && DropSuffix(o.imfFilename, "_imf.txt") == Some(date)
  {
    var o := NewOmni(date, omniDir).value;
    BasenameAfterSlash(omniDir, o.omniFilename);
    BasenameAfterSlash(omniDir, o.imfFilename);
    DropSuffixOf(date, "_omni.txt");
    DropSuffixOf(date, "_imf.txt");
  }

  lemma {:induction false} BasenameAfterSlash(dir: string, name: string)
    requires '/' !in name
    ensures Basename(dir + "/" + name) == name
    decreases |name|
  {
    var p := dir + "/" + name;
    if |name| == 0 {
      assert p[|p| - 1] == '/';
    } else {
      var init := name[..|name| - 1];
      assert p[..|p| - 1] == dir + "/" + init;
      assert '/' !in init by {
        assert forall k :: 0 <= k < |init| ==> init[k] == name[k];
      }
      BasenameAfterSlash(dir, init);
      assert init + [name[|name| - 1]] == name;
    }
  }

  // ---------------------------------------------------------------------------
  // Availability and updates

  /** The shell pipeline that scrapes the OMNI data availability line. */
  const ScrapeCommand := "curl https://omniweb.gsfc.nasa.gov/html/ow_data.html 2>/dev/null | grep '1963.*IMF' "

  /** The TypeError of `bytes.split` given a `str` separator. */
  const BytesSplitError := TypeError("a bytes-like object is required, not 'str'")

  /** The availability date read from a scraped line as text: the fourth
      space-separated token, printed `YYYY-MM-DD`. */
  function ReadAvailability(text: string): (r: Result<Date, Failure>)
    ensures r.Ok? <==> |SplitOn(text, ' ')| > 3 && ParseIsoDate(SplitOn(text, ' ')[3]).Ok?
    ensures r.Ok? ==> r.value == ParseIsoDate(SplitOn(text, ' ')[3]).value
    ensures |SplitOn(text, ' ')| <= 3 ==> r == Err(Builtin(IndexError))
    ensures |SplitOn(text, ' ')| > 3 && ParseIsoDate(SplitOn(text, ' ')[3]).Err? ==>
              r == Err(Builtin(ParseIsoDate(SplitOn(text, ' ')[3]).error))
  {
    var tokens := SplitOn(text, ' ');
    if |tokens| <= 3 then Err(Builtin(IndexError))
    else
      match ParseIsoDate(tokens[3])
      case Err(e) => Err(Builtin(e))
      case Ok(d) => Ok(d)
  }

  /** `get_data_availability()` given the scraping pipeline's output, or its
      exit status when it failed. Under Python 3 `check_output` returns
      bytes, and splitting bytes on the `str` `" "` raises, so the lookup
      never returns a date: it fails with the `strptime` ValueError of an
      unparsable start, the `OmniException` of a failed pipeline, or the
      TypeError of the split. */
  function GetDataAvailability(o: Omni, scraped: Result<string, int>): (r: Result<Date, Failure>)
    ensures r.Err?
    ensures ParseDateTime(o.startTime).Err? ==> r.error == Builtin(ParseDateTime(o.startTime).error)
    ensures ParseDateTime(o.startTime).Ok? && scraped.Err? ==>
              r.error.Raised? && r.error.exception.OmniException?
    ensures ParseDateTime(o.startTime).Ok? && scraped.Ok? ==> r.error == Builtin(BytesSplitError)
    ensures r.error.Raised? ==> r.error.exception.OmniException? && scraped.Err?
  {
    if ParseDateTime(o.startTime).Err? then Err(Builtin(ParseDateTime(o.startTime).error))
    else
      match scraped
      case Err(code) => Err(Raised(OmniException(CalledProcessMessage(ScrapeCommand, code))))
      case Ok(_) => Err(Builtin(BytesSplitError))
  }

  /** Read as text, a scraped line whose fourth token is a printed date
      yields that date, whatever the other tokens are. */
  lemma AvailabilityIsFourthToken(lead: seq<string>, d: Date, rest: seq<string>)
    requires |lead| == 3 && ValidDate(d)
    requires forall k :: 0 <= k < |lead| ==> ' ' !in lead[k]
    requires forall k :: 0 <= k < |rest| ==> ' ' !in rest[k]
    ensures ReadAvailability(Join(lead + [FormatIsoDate(d)] + rest, " ")) == Ok(d)
  {
    FourthTokenIsDate(lead, d, rest);
  }

  lemma FourthTokenIsDate(lead: seq<string>, d: Date, rest: seq<string>)
    requires |lead| == 3 && ValidDate(d)
    requires forall k :: 0 <= k < |lead| ==> ' ' !in lead[k]
    requires forall k :: 0 <= k < |rest| ==> ' ' !in rest[k]
    ensures var tokens := SplitOn(Join(lead + [FormatIsoDate(d)] + rest, " "), ' ');
            |tokens| > 3 && ParseIsoDate(tokens[3]) == Ok(d)
  {
    var iso := FormatIsoDate(d);
    var tokens := lead + [iso] + rest;
    IsoDateIsToken(d);
    SpaceFreeTokens(lead, iso, rest);
    JoinSplitOn(tokens, ' ');
    assert tokens[3] == iso;
    ParseIsoFormatted(d);
  }

  lemma IsoDateIsToken(d: Date)
    requires ValidDate(d)
    ensures ' ' !in FormatIsoDate(d)
  {
    var iso := FormatIsoDate(d);
    var y, m, dd := Pad4(d.year), Pad2(d.month), Pad2(d.day);
    assert iso == y + "-" + m + "-" + dd;
    assert forall k :: 0 <= k < |iso| ==> iso[k] != ' ' by {
      forall k | 0 <= k < |iso| ensures iso[k] != ' ' {
        if k < 4 { assert iso[k] == y[k]; }
        else if 5 <= k < 7 { assert iso[k] == m[k - 5]; }
        else if 8 <= k { assert iso[k] == dd[k - 8]; }
      }
    }
  }

  lemma SpaceFreeTokens(lead: seq<string>, t: string, rest: seq<string>)
    requires |lead| == 3 && ' ' !in t
    requires forall k :: 0 <= k < |lead| ==> ' ' !in lead[k]
    requires forall k :: 0 <= k < |rest| ==> ' ' !in rest[k]
    ensures var tokens := lead + [t] + rest;
            |tokens| > 3 && forall k :: 0 <= k < |tokens| ==> ' ' !in tokens[k]
  {
    var tokens := lead + [t] + rest;
    forall k | 0 <= k < |tokens| ensures ' ' !in tokens[k] {
      if k < 3 {
        assert tokens[k] == lead[k];
      } else if k > 3 {
        assert tokens[k] == rest[k - 4];
      }
    }
  }

  /** The result of `check_for_updates`, together with the object, whose
      `omni_filename` an argument replaces. */
  datatype UpdateCheck = UpdateCheck(omni: Omni, result: Result<bool, Failure>)

  /** The path `check_for_updates` checks: the OMNI path joined with the
      OMNI file name. */
  function CheckedPath(o: Omni): string {
    o.omniPath + "/" + o.omniFilename
  }

  /** The object after `omni_filename` is set by a non-empty argument. */
  function WithFilename(o: Omni, filename: string): (r: Omni)
    ensures filename == "" ==> r == o
    ensures filename != "" ==> r == o.(omniFilename := filename)
  {
    if filename != "" then o.(omniFilename := filename) else o
  }

  /** `check_for_updates(omni_filename)`: fails with `OmniFileNotFoundWarning`
      when the checked path is not a file, and answers False when the
      availability cannot be fetched. Every other outcome of the lookup is
      a failure that propagates, so the modification-time comparison after
      it is never reached. */
  function CheckForUpdates(o: Omni, filename: string, isFile: string -> bool, scraped: Result<string, int>)
    : (r: UpdateCheck)
    ensures r.omni == WithFilename(o, filename)
    ensures !isFile(CheckedPath(r.omni)) ==> r.result == Err(Warned(OmniFileNotFound))
    ensures isFile(CheckedPath(r.omni)) && ParseDateTime(o.startTime).Ok? && scraped.Err? ==>
              r.result == Ok(false)
    ensures isFile(CheckedPath(r.omni)) && ParseDateTime(o.startTime).Ok? && scraped.Ok? ==>
              r.result == Err(Builtin(BytesSplitError))
    ensures r.result.Ok? ==> r.result.value == false
  {
    var omni := WithFilename(o, filename);
    var path := CheckedPath(omni);
    if !isFile(path) then
      var warning := NewOmniFileNotFound([]);
      UpdateCheck(omni, Err(Warned(warning.value)))
    else
      var lookup := GetDataAvailability(omni, scraped);
      if lookup.error.Raised? && lookup.error.exception.OmniException? then UpdateCheck(omni, Ok(false))
      else UpdateCheck(omni, Err(lookup.error))
  }

  /** A file system in which a file has nothing below it. */
  ghost predicate FilesAreLeaves(isFile: string -> bool) {
    forall p, q {:trigger isFile(p + "/" + q)} :: isFile(p) ==> !isFile(p + "/" + q)
  }

  /** The OMNI path already ends in the OMNI file name, and
      `check_for_updates` appends the name once more. So once the OMNI file
      of the date exists, the check always reports it as missing. */
  lemma UpdateCheckDoublesName(date: string, omniDir: string, isFile: string -> bool, scraped: Result<string, int>)
    requires NewOmni(date, omniDir).Ok?
    ensures var o := NewOmni(date, omniDir).value;
            CheckedPath(o) == (omniDir + "/" + (date + "_omni.txt")) + "/" + (date + "_omni.txt")
    ensures var o := NewOmni(date, omniDir).value;
            FilesAreLeaves(isFile) && isFile(o.omniPath) ==>
              CheckForUpdates(o, "", isFile, scraped).result
                == Err(Warned(OmniFileNotFound))
  {
    var o := NewOmni(date, omniDir).value;
    if FilesAreLeaves(isFile) && isFile(o.omniPath) {
      assert !isFile(o.omniPath + "/" + o.omniFilename);
    }
  }

  // ---------------------------------------------------------------------------
  // Download

  /** The request for the OMNI file of the date: one-minute OMNI data from
      the request start to hour 23 of the date, filtered for the link to
      the `.lst` file. */
  function RequestCommand(o: Omni): string {
    "curl -d  \"activity=ftp&res=min&spacecraft=omni_min&start_date=" + o.omniStartTime
    + "&end_date=" + o.date + "23&vars=13&vars=14&vars=17&vars=18&submit=Submit\" "
    + "https://omniweb.sci.gsfc.nasa.gov/cgi/nx1.cgi | grep -oh http.*.lst\\\" | grep -oh http.*.lst"
  }

  const BytesQuote: set<char> := {'b', '\''}
  const EscapedNewline: set<char> := {'\\', 'n', '\''}

  /** The link as `get_omni_file` cleans up the text of the scraped output:
      `http` becomes `https` everywhere unless `https` already occurs, then
      `b` and quotes are stripped from both ends, then backslashes, `n` and
      quotes. */
  function NormaliseUrl(raw: string): string {
    var secure := if !Contains(raw, "https") then Replace(raw, "http", "https") else raw;
    Strip(Strip(secure, BytesQuote), EscapedNewline)
  }

  /** `get_omni_file()` given the output of the request, or its exit status
      when it failed, and the file system after the download: the arguments
      of the download call, the download command split on whitespace. The
      final check is `not isfile(p) and getsize(p) < 0`, which cannot hold,
      so `OmniFileNotGeneratedWarning` is never raised: a missing file ends
      in the OSError of `getsize` instead. */
  function GetOmniFile(o: Omni, requested: Result<string, int>, isFile: string -> bool,
                       size: string -> Option<nat>): (r: Result<seq<string>, Failure>)
    ensures requested.Err? ==> r == Err(Raised(OmniException(CalledProcessMessage(RequestCommand(o), requested.error))))
    ensures requested.Ok? ==>
              (r.Ok? <==> isFile(o.omniPath) || size(o.omniPath).Some?)
    ensures r.Ok? ==> requested.Ok? && r.value == SplitWords("curl -o " + o.omniPath + " " + NormaliseUrl(requested.value))
    ensures r.Ok? ==> |r.value| >= 2 && r.value[0] == "curl" && r.value[1] == "-o"
    ensures r.Err? ==> !r.error.Warned?
    ensures r.Err? && requested.Ok? ==> r.error.Builtin? && r.error.error.OSError?
  {
    match requested
    case Err(code) => Err(Raised(OmniException(CalledProcessMessage(RequestCommand(o), code))))
    case Ok(raw) =>
      var args := DownloadCall(o.omniPath, NormaliseUrl(raw));
      if !isFile(o.omniPath) then
        match size(o.omniPath)
        case None => Err(Builtin(OSError("[Errno 2] No such file or directory: '" + o.omniPath + "'")))
        case Some(n) =>
          if n < 0 then Err(Warned(OmniFileNotGenerated(o.omniFilename, o.date))) else Ok(args)
      else Ok(args)
  }

  /** The words of `curl -o ...` start with `curl` and `-o`. */
  function DownloadCall(path: string, link: string): (args: seq<string>)
    ensures args == SplitWords("curl -o " + path + " " + link)
    ensures |args| >= 2 && args[0] == "curl" && args[1] == "-o"
  {
    var rest := path + " " + link;
    var ws := ["curl", "-o"];
    assert Join(ws, " ") == "curl -o";
    SplitWordsLead(ws, rest);
    assert "curl -o " + path + " " + link == Join(ws, " ") + " " + rest;
    ws + SplitWords(rest)
  }

  /** With `http` at the front of the scraped text, a colon after it and no
      other `http`, it holds no `https` match. */
  lemma NoHttps(tail: string)
    requires !Contains(tail, "http") && |tail| > 0 && tail[0] == ':'
    ensures !Contains("b'" + ("http" + tail), "https")
  {
    NoMatchOf(tail, "http");
    NoHttpsMatch(tail);
    NotContains("b'" + ("http" + tail), "https");
  }

  lemma NoHttpsMatch(tail: string)
    requires forall i :: !MatchAt(tail, i, Literal("http"))
    requires |tail| > 0 && tail[0] == ':'
    ensures forall i :: !MatchAt("b'" + ("http" + tail), i, Literal("https"))
  {
    var raw := "b'" + ("http" + tail);
    forall i ensures !MatchAt(raw, i, Literal("https")) {
      if 0 <= i && i + 5 <= |raw| {
        var w := raw[i..i + 5];
        if i == 2 {
          assert w[4] == raw[6] == tail[0];
        } else if i < 6 {
          assert w[0] == raw[i];
        } else {
          var t := tail[i - 6..i - 2];
          assert forall j | 0 <= j < 4 :: t[j] == w[j];
          assert !MatchAt(tail, i - 6, Literal("http"));
        }
      }
    }
  }

  /** `str.replace('http', 'https')` upgrades the one `http` at the front. */
  lemma HttpUpgraded(tail: string)
    requires !Contains(tail, "http")
    ensures Replace("b'" + ("http" + tail), "http", "https") == "b'" + ("https" + tail)
  {
    var p := Literal("http");
    var rest := "http" + tail;
    assert NoStraddle("b'", rest, p) by {
      forall i | 0 <= i < 2 < i + 4 ensures !MatchAt("b'" + rest, i, p) {
        assert ("b'" + rest)[i..i + 4][0] == ("b'" + rest)[i];
      }
    }
    RewriteAppend("b'", rest, p, "https");
    RewriteNoMatch("b'", p, "https");
    assert MatchAt(rest, 0, p) by {
      assert rest[0..4] == "http";
    }
    assert rest[4..] == tail;
    forall i ensures !MatchAt(tail, i, p) {
      if MatchAt(tail, i, p) {
        ContainsAt(tail, "http", i);
      }
    }
    RewriteNoMatch(tail, p, "https");
  }

  /** Stripping the bytes quotes and the escaped newline leaves the link. */
  lemma StripRepr(link: string)
    requires |link| > 0
    requires link[0] !in BytesQuote + EscapedNewline
    requires link[|link| - 1] !in BytesQuote + EscapedNewline
    ensures Strip(Strip("b'" + link + "\\n'", BytesQuote), EscapedNewline) == link
  {
    var inner := link + "\\n";
    assert "b'" + link + "\\n'" == "b'" + inner + "'";
    StripOf("b'", inner, "'", BytesQuote);
    StripOf("", link, "\\n", EscapedNewline);
    assert "" + link + "\\n" == inner;
  }

  /** The text Python 3 makes of the bytes of a plain-http link and its
      newline, `b'http://....lst\n'`, cleans up to the https link. */
  lemma NormaliseHttpRepr(path: string)
    requires !Contains(path, "http")
    ensures NormaliseUrl("b'" + ("http" + ("://" + path + ".lst\\n'")))
            == "https://" + path + ".lst"
  {
    var tail := "://" + path + ".lst\\n'";
    LinkTailNoHttp(path);
    NoHttps(tail);
    HttpUpgraded(tail);
    var link := "https://" + path + ".lst";
    UpgradedRepr(path);
    StripRepr(link);
  }

  lemma UpgradedRepr(path: string)
    ensures "b'" + ("https" + ("://" + path + ".lst\\n'")) == "b'" + ("https://" + path + ".lst") + "\\n'"
  {
  }

  /** The text after the leading `http` holds another `http` only if the
      path does. */
  lemma LinkTailNoHttp(path: string)
    requires !Contains(path, "http")
    ensures !Contains("://" + path + ".lst\\n'", "http")
  {
    var tail := "://" + path + ".lst\\n'";
    var e := 3 + |path|;
    forall i ensures !MatchAt(tail, i, Literal("http")) {
      if 0 <= i && i + 4 <= |tail| {
        var w := tail[i..i + 4];
        if i < 3 || e <= i {
          assert w[0] == tail[i];
        } else if i + 4 <= e {
          assert path[i - 3..i + 1] == w;
          if w == "http" {
            ContainsAt(path, "http", i - 3);
          }
        } else {
          assert w[e - i] == tail[e] == '.';
        }
      }
    }
    NotContains(tail, "http");
  }

  /** The arguments of the download call: `curl -o <omni path> <https link>`. */
  lemma DownloadArguments(o: Omni, path: string, isFile: string -> bool, size: string -> Option<nat>)
    requires !Contains(path, "http") && NoSpace(path) && |o.omniPath| > 0 && NoSpace(o.omniPath)
    requires isFile(o.omniPath)
    ensures GetOmniFile(o, Ok("b'" + ("http" + ("://" + path + ".lst\\n'"))), isFile, size)
            == Ok(["curl", "-o", o.omniPath, "https://" + path + ".lst"])
  {
    var raw := "b'" + ("http" + ("://" + path + ".lst\\n'"));
    var link := "https://" + path + ".lst";
    NormaliseHttpRepr(path);
    DownloadOf(o, raw, link, isFile, size);
    LinkNoSpace(path);
    DownloadCallOf(o.omniPath, link);
  }

  /** When the downloaded file exists, the download is the call of `curl`
      on the OMNI path and the cleaned-up link. */
  lemma DownloadOf(o: Omni, raw: string, link: string, isFile: string -> bool, size: string -> Option<nat>)
    requires isFile(o.omniPath) && NormaliseUrl(raw) == link
    ensures GetOmniFile(o, Ok(raw), isFile, size) == Ok(DownloadCall(o.omniPath, link))
  {
  }

  /** The https link of a space-free path is a single word. */
  lemma LinkNoSpace(path: string)
    requires NoSpace(path)
    ensures NoSpace("https://" + path + ".lst") && |"https://" + path + ".lst"| > 0
  {
    assert NoSpace("https://") && NoSpace(".lst");
    NoSpaceAppend("https://", path);
    NoSpaceAppend("https://" + path, ".lst");
  }

  /** Two single words after `curl -o` are its third and fourth arguments. */
  lemma DownloadCallOf(path: string, link: string)
    requires |path| > 0 && NoSpace(path) && |link| > 0 && NoSpace(link)
    ensures DownloadCall(path, link) == ["curl", "-o", path, link]
  {
    assert Join([path], " ") == path;
    SplitWordsLead([path], link);
    assert Join([link], " ") == link;
    SplitWordsJoin([link]);
    assert ["curl", "-o"] + ([path] + [link]) == ["curl", "-o", path, link];
  }

  // ---------------------------------------------------------------------------
  // OMNI records to IMF lines

  /** The IMF line RST reads: year, month, day, hour, minute, seconds `00`
      and the three field components, separated by single spaces. */
  function ImfLine(year: string, month: string, day: string, hour: string, minute: string,
                   fieldX: string, fieldY: string, fieldZ: string): string {
    Join([year, month, day, hour, minute, "00", fieldX, fieldY, fieldZ], " ") + "\n"
  }

  /** An IMF line reads back, split on whitespace, as its nine fields. */
  lemma ImfLineFields(year: string, month: string, day: string, hour: string, minute: string,
                      fieldX: string, fieldY: string, fieldZ: string)
    requires forall f :: f in [year, month, day, hour, minute, fieldX, fieldY, fieldZ] ==> |f| > 0 && NoSpace(f)
    ensures SplitWords(ImfLine(year, month, day, hour, minute, fieldX, fieldY, fieldZ))
            == [year, month, day, hour, minute, "00", fieldX, fieldY, fieldZ]
  {
    var fields := [year, month, day, hour, minute, "00", fieldX, fieldY, fieldZ];
    forall k | 0 <= k < |fields| ensures |fields[k]| > 0 && NoSpace(fields[k]) {
      if k != 5 {
        assert fields[k] in [year, month, day, hour, minute, fieldX, fieldY, fieldZ];
      }
    }
    SplitWordsJoin(fields);
    SplitWordsAppend(Join(fields, " "), "\n");
    assert SplitWords("\n") == [];
  }

  /** One OMNI record turned into an IMF line: the calendar date of its day
      of year, the line, and the field magnitude `BM` still as text. */
  datatype ImfRecord = ImfRecord(date: Date, line: string, magnitude: string)

  /** Why one OMNI line fails to convert: the number of fields is not
      eight, a field is not an integer or not a number, the year does not
      fit a C `int` or is outside 1..9999, the day count does not fit a `timedelta`, or the date leaves
      the representable range. */
  datatype LineError =
    | Unpack(count: nat)
    | NotInt(text: string)
    | YearOverflow(year: int)
    | YearOutOfRange(year: int)
    | DaysTooLarge(days: int)
    | DateOutOfRange
    | NotFloat(text: string)

  /** The exception Python raises for each of them. */
  function PythonError(e: LineError): BuiltinError {
    match e
    case Unpack(n) =>
      if n < 8 then ValueError("not enough values to unpack (expected 8, got " + IntToString(n) + ")")
      else ValueError("too many values to unpack (expected 8)")
    case NotInt(text) => ValueError("invalid literal for int() with base 10: '" + text + "'")
    case YearOverflow(y) =>
      if y < CLongMin || y > CLongMax then OverflowError("Python int too large to convert to C long")
      else if y > CIntMax then OverflowError("signed integer is greater than maximum")
      else OverflowError("signed integer is less than minimum")
    case YearOutOfRange(y) => ValueError("year " + IntToString(y) + " is out of range")
    case DaysTooLarge(n) =>
      if n < CIntMin || n > CIntMax then OverflowError("Python int too large to convert to C int")
      else OverflowError("days=" + IntToString(n) + "; must have magnitude <= 999999999")
    case DateOutOfRange => OverflowError("date value out of range")
    case NotFloat(text) => ValueError("could not convert string to float: '" + text + "'")
  }

  /** The bounds of the C `int` and `long` the `datetime` constructor reads
      its fields into, on a 64-bit platform. */
  const CIntMin := -0x8000_0000
  const CIntMax := 0x7fff_ffff
  const CLongMin := -0x8000_0000_0000_0000
  const CLongMax := 0x7fff_ffff_ffff_ffff

  /** The largest day count a `timedelta` holds. */
  const MaxDeltaDays := 999999999

  /** January 1 of year `y` plus `n` days is a representable date. */
  predicate DayInRange(y: int, n: int)
    requires MinYear <= y <= MaxYear
  {
    AddDays(Date(y, 1, 1), n).Some?
  }

  /** A day count a `timedelta` cannot hold takes any year's January 1
      outside the representable dates. */
  lemma DeltaBeyondDates(y: int, n: int)
    requires MinYear <= y <= MaxYear
    requires n < -MaxDeltaDays || n > MaxDeltaDays
    ensures !DayInRange(y, n)
  {
    OrdinalRange(Date(y, 1, 1));
  }

  /** `datetime(int(year), 1, 1) + timedelta(int(doy) - 1)`: January 1 of
      the year plus `doy - 1` days, with the failure Python raises first. A
      year that does not fit a C `int` overflows before its range is
      checked. */
  function DateOf(yearText: string, doyText: string): (r: Result<Date, LineError>)
    ensures r.Ok? <==> && ParseInt(yearText).Some?
                       && MinYear <= ParseInt(yearText).value <= MaxYear
                       && ParseInt(doyText).Some?
                       && DayInRange(ParseInt(yearText).value, ParseInt(doyText).value - 1)
    ensures r.Ok? ==> && ValidDate(r.value)
                      && Ordinal(r.value) == Ordinal(Date(ParseInt(yearText).value, 1, 1)) + ParseInt(doyText).value - 1
    ensures ParseInt(yearText).None? ==> r == Err(NotInt(yearText))
    ensures ParseInt(yearText).Some? ==>
              var y := ParseInt(yearText).value;
              && (y < CIntMin || y > CIntMax ==> r == Err(YearOverflow(y)))
              && (CIntMin <= y <= CIntMax && (y < MinYear || y > MaxYear) ==> r == Err(YearOutOfRange(y)))
  {
    match ParseInt(yearText)
    case None => Err(NotInt(yearText))
    case Some(y) =>
      if y < CIntMin || y > CIntMax then Err(YearOverflow(y))
      else if y < MinYear || y > MaxYear then Err(YearOutOfRange(y))
      else match ParseInt(doyText)
        case None => Err(NotInt(doyText))
        case Some(doy) =>
          var n := doy - 1;
          if n < -MaxDeltaDays || n > MaxDeltaDays then
            DeltaBeyondDates(y, n);
            Err(DaysTooLarge(n))
          else match AddDays(Date(y, 1, 1), n)
            case None => Err(DateOutOfRange)
            case Some(d) => Ok(d)
  }

  /** A day of year within its year lands in that year, and the month and
      day printed name exactly that day of the year. */
  lemma DateOfDayOfYear(yearText: string, doyText: string)
    requires DateOf(yearText, doyText).Ok?
    requires 1 <= ParseInt(doyText).value <= DaysInYear(ParseInt(yearText).value)
    ensures var d := DateOf(yearText, doyText).value;
            d.year == ParseInt(yearText).value && DayOfYear(d) == ParseInt(doyText).value
  {
    AddDaysDayOfYear(ParseInt(yearText).value, ParseInt(doyText).value);
  }

  /** The conversion of one OMNI line, as the loop body of
      `omnifile_to_IMFfile` does it before looking at `BM`: eight
      whitespace-separated fields `year doy hour minute BM Bx By Bz`, the
      date of the year and day of year, and the line, which keeps the year,
      hour and minute text as read and prints month and day with two
      digits. */
  function ConvertLine(line: string): (r: Result<ImfRecord, LineError>)
    ensures var ws := SplitWords(line);
            r.Ok? <==> |ws| == 8 && DateOf(ws[0], ws[1]).Ok?
    ensures var ws := SplitWords(line);
            r.Ok? ==> r.value.date == DateOf(ws[0], ws[1]).value && r.value.magnitude == ws[4]
    ensures |SplitWords(line)| != 8 ==> r == Err(Unpack(|SplitWords(line)|))
    ensures var ws := SplitWords(line);
            r.Ok? ==> && ValidDate(r.value.date)
                      && r.value.line == ImfLine(ws[0], Pad2(r.value.date.month), Pad2(r.value.date.day),
                                                 ws[2], ws[3], ws[5], ws[6], ws[7])
  {
    var ws := SplitWords(line);
    if |ws| != 8 then Err(Unpack(|ws|))
    else match DateOf(ws[0], ws[1])
      case Err(e) => Err(e)
      case Ok(d) => Ok(RecordOf(ws, d))
  }

  /** The record of eight OMNI fields dated `d`. */
  function RecordOf(ws: seq<string>, d: Date): (rec: ImfRecord)
    requires |ws| == 8 && forall k :: 0 <= k < 8 ==> |ws[k]| > 0 && NoSpace(ws[k])
    requires ValidDate(d)
    ensures rec.date == d && rec.magnitude == ws[4]
    ensures SplitWords(rec.line) == [ws[0], Pad2(d.month), Pad2(d.day), ws[2], ws[3], "00", ws[5], ws[6], ws[7]]
  {
    var month := Pad2(d.month);
    var day := Pad2(d.day);
    DigitsNoSpace(month);
    DigitsNoSpace(day);
    assert ws[0] in ws && ws[2] in ws && ws[3] in ws && ws[5] in ws && ws[6] in ws && ws[7] in ws;
    ImfLineFields(ws[0], month, day, ws[2], ws[3], ws[5], ws[6], ws[7]);
    ImfRecord(d, ImfLine(ws[0], month, day, ws[2], ws[3], ws[5], ws[6], ws[7]), ws[4])
  }

  lemma DigitsNoSpace(s: string)
    requires AllDigits(s)
    ensures NoSpace(s)
  {
  }

  /** What the loop body makes of one line: a line rejected before anything
      is written; a line written whose `BM` is not a number, which ends the
      loop after the write; or a line written whose `BM` was read, bad when
      it exceeds 999, the OMNI fill value. */
  datatype LineStep =
    | Rejected(error: LineError)
    | Unreadable(line: string, error: LineError)
    | Read(line: string, bad: bool)

  function Step(line: string): (s: LineStep)
    ensures s.Rejected? <==> ConvertLine(line).Err?
    ensures !s.Rejected? ==> s.line == ConvertLine(line).value.line
    ensures s.Read? <==> ConvertLine(line).Ok? && ParseDecimal(ConvertLine(line).value.magnitude).Some?
    ensures s.Read? ==> (s.bad <==> ParseDecimal(ConvertLine(line).value.magnitude).value > 999.0)
  {
    match ConvertLine(line)
    case Err(e) => Rejected(e)
    case Ok(rec) =>
      match ParseDecimal(rec.magnitude)
      case None => Unreadable(rec.line, NotFloat(rec.magnitude))
      case Some(v) => Read(rec.line, v > 999.0)
  }

  /** The line converts and its `BM` exceeds 999. */
  predicate IsBad(line: string) {
    Step(line).Read? && Step(line).bad
  }

  /** The outcome of the loop: the IMF lines written, the number of bad
      lines counted, and the failure that ended it early, if any. */
  datatype Conversion = Conversion(written: seq<string>, bad: nat, failure: Option<LineError>)

  /** The loop over the steps of the lines. Without a failure every line is
      written, in order, and the count of bad lines reaches the number of
      lines exactly when every line is bad. With a failure, the lines before
      the first failing one are written, and that one too when only its `BM`
      failed. */
  function Loop(steps: seq<LineStep>): (c: Conversion)
    ensures c.bad <= |c.written| <= |steps|
    ensures forall k :: 0 <= k < |c.written| ==> !steps[k].Rejected? && c.written[k] == steps[k].line
    ensures c.failure.None? <==> forall k :: 0 <= k < |steps| ==> steps[k].Read?
    ensures c.failure.None? ==> |c.written| == |steps|
    ensures c.failure.None? ==> (c.bad == |steps| <==> forall k :: 0 <= k < |steps| ==> steps[k].bad)
    ensures c.failure.Some? ==> exists k :: && 0 <= k < |steps| && !steps[k].Read?
                                             && c.failure == Some(steps[k].error)
                                             && (forall j :: 0 <= j < k ==> steps[j].Read?)
                                             && |c.written| == (if steps[k].Unreadable? then k + 1 else k)
    decreases |steps|
  {
    if |steps| == 0 then Conversion([], 0, None)
    else
      match steps[0]
      case Rejected(e) => Conversion([], 0, Some(e))
      case Unreadable(line, e) => Conversion([line], 0, Some(e))
      case Read(line, bad) =>
        var rest := Loop(steps[1..]);
        assert forall k :: 1 <= k < |steps| ==> steps[k] == steps[1..][k - 1];
        var c := Conversion([line] + rest.written, (if bad then 1 else 0) + rest.bad, rest.failure);
        if rest.failure.Some? then
          FailureAfterRead(steps, rest.failure, |rest.written|);
          c
        else
          AllBadAfterRead(steps, rest.bad);
          c
  }

  /** Every step is bad exactly when the first one is and the count of the
      bad ones after it reaches their number. */
  lemma AllBadAfterRead(steps: seq<LineStep>, restBad: nat)
    requires |steps| > 0 && steps[0].Read? && restBad <= |steps| - 1
    requires forall k :: 0 <= k < |steps[1..]| ==> steps[1..][k].Read?
    requires restBad == |steps| - 1 <==> forall k :: 0 <= k < |steps[1..]| ==> steps[1..][k].bad
    ensures (if steps[0].bad then 1 else 0) + restBad == |steps| <==> forall k :: 0 <= k < |steps| ==> steps[k].bad
  {
    assert forall k :: 1 <= k < |steps| ==> steps[k] == steps[1..][k - 1];
  }

  /** A failure of the steps after a read one is a failure of all the steps
      one index later, with one more line written. */
  lemma FailureAfterRead(steps: seq<LineStep>, failure: Option<LineError>, written: nat)
    requires |steps| > 0 && steps[0].Read?
    requires exists k :: && 0 <= k < |steps[1..]| && !steps[1..][k].Read?
                         && failure == Some(steps[1..][k].error)
                         && (forall j :: 0 <= j < k ==> steps[1..][j].Read?)
                         && written == (if steps[1..][k].Unreadable? then k + 1 else k)
    ensures exists k :: && 0 <= k < |steps| && !steps[k].Read?
                        && failure == Some(steps[k].error)
                        && (forall j :: 0 <= j < k ==> steps[j].Read?)
                        && written + 1 == (if steps[k].Unreadable? then k + 1 else k)
  {
    var k :| && 0 <= k < |steps[1..]| && !steps[1..][k].Read?
             && failure == Some(steps[1..][k].error)
             && (forall j :: 0 <= j < k ==> steps[1..][j].Read?)
             && written == (if steps[1..][k].Unreadable? then k + 1 else k);
    assert steps[k + 1] == steps[1..][k];
    assert forall j :: 1 <= j < k + 1 ==> steps[j] == steps[1..][j - 1];
  }

  /** The step of each line. */
  function Steps(lines: seq<string>): (steps: seq<LineStep>)
    ensures |steps| == |lines|
    ensures forall k :: 0 <= k < |lines| ==> steps[k] == Step(lines[k])
  {
    if |lines| == 0 then [] else [Step(lines[0])] + Steps(lines[1..])
  }

  /** Every line converts and has its `BM` read. */
  predicate AllConvert(lines: seq<string>) {
    forall k :: 0 <= k < |lines| ==> Step(lines[k]).Read?
  }

  /** Every line converts with a `BM` above 999; true of no lines at all. */
  predicate AllBad(lines: seq<string>) {
    forall k :: 0 <= k < |lines| ==> IsBad(lines[k])
  }

  /** The loop of `omnifile_to_IMFfile` over the lines of the OMNI file. */
  function ConvertLines(lines: seq<string>): (c: Conversion)
    ensures c.bad <= |c.written| <= |lines|
    ensures forall k :: 0 <= k < |c.written| ==> !Step(lines[k]).Rejected? && c.written[k] == Step(lines[k]).line
    ensures c.failure.None? <==> AllConvert(lines)
    ensures c.failure.None? ==> |c.written| == |lines|
    ensures c.failure.None? ==> (c.bad == |lines| <==> AllBad(lines))
  {
    Loop(Steps(lines))
  }

  /** A conversion that fails ends at the first line that fails, with that
      line's failure. */
  lemma FirstFailingLine(lines: seq<string>)
    requires ConvertLines(lines).failure.Some?
    ensures exists k :: && 0 <= k < |lines| && !Step(lines[k]).Read?
                        && ConvertLines(lines).failure == Some(Step(lines[k]).error)
                        && (forall j :: 0 <= j < k ==> Step(lines[j]).Read?)
  {
    var k := FirstFailure(lines, Step, Steps(lines));
  }

  /** The same for any step function, found by the loop's own index. */
  lemma FirstFailure(lines: seq<string>, step: string -> LineStep, steps: seq<LineStep>) returns (k: nat)
    requires |steps| == |lines| && forall i :: 0 <= i < |lines| ==> steps[i] == step(lines[i])
    requires Loop(steps).failure.Some?
    ensures k < |lines| && !step(lines[k]).Read? && Loop(steps).failure == Some(step(lines[k]).error)
    ensures forall j :: 0 <= j < k ==> step(lines[j]).Read?
  {
    k :| && 0 <= k < |steps| && !steps[k].Read?
         && Loop(steps).failure == Some(steps[k].error)
         && (forall j :: 0 <= j < k ==> steps[j].Read?);
  }

  /** What became of the IMF file. */
  datatype ImfEffect = Untouched | Written(lines: seq<string>) | Removed

  /** The object after the call, the IMF file at `imfPath`, and the outcome. */
  datatype ImfRun = ImfRun(omni: Omni, imf: ImfEffect, outcome: Result<(), Failure>)

  /** `omnifile_to_IMFfile(omni_filename)` given the contents of the file at
      `omni_path` (`None` when it cannot be opened); `""` stands for no
      file name. A given file name replaces `omni_filename` only: the file
      read is still `omni_path`. An unreadable file raises
      `OmniFileNotFoundWarning(name)`, whose constructor takes no argument,
      so the outcome is a TypeError. When every line is bad, an empty file
      included, the IMF file is removed and `OmniBadDataWarning` raised. */
  function OmniFileToImf(o: Omni, filename: string, read: string -> Option<string>): (run: ImfRun)
    ensures run.omni == (if filename == "" then o else o.(omniFilename := filename))
    ensures read(o.omniPath).None? ==>
              run.imf == Untouched && run.outcome.Err? && run.outcome.error.Builtin?
              && run.outcome.error.error.TypeError?
    ensures read(o.omniPath).Some? ==>
              (run.imf, run.outcome) == ImfOf(o.date, SplitLines(read(o.omniPath).value))
    ensures run.outcome.Err? ==> !(run.outcome.error.Warned? && run.outcome.error.warning.OmniFileNotFound?)
  {
    var named := if filename == "" then o else o.(omniFilename := filename);
    match read(o.omniPath)
    case None =>
      var raised := NewOmniFileNotFound([named.omniFilename]);
      ImfRun(named, Untouched, Err(Builtin(raised.error)))
    case Some(text) => ImfRun(named, ImfOf(o.date, SplitLines(text)).0, ImfOf(o.date, SplitLines(text)).1)
  }

  /** The IMF file and the outcome of converting the lines of a readable
      OMNI file of the date. */
  function ImfOf(date: string, lines: seq<string>): (r: (ImfEffect, Result<(), Failure>))
    ensures r.1.Ok? <==> AllConvert(lines) && !AllBad(lines)
    ensures r.0 == Removed <==> r.1 == Err(Warned(OmniBadData(date)))
    ensures r.1.Ok? ==> r.0 == Written(ConvertLines(lines).written) && |r.0.lines| == |lines|
    ensures r.1.Err? ==> r.1.error.Builtin? || r.1.error == Warned(OmniBadData(date))
    ensures r == (Removed, Err(Warned(OmniBadData(date)))) <==> AllConvert(lines) && AllBad(lines)
    ensures ConvertLines(lines).failure.Some? ==>
              r == (Written(ConvertLines(lines).written),
                    Err(Builtin(PythonError(ConvertLines(lines).failure.value))))
  {
    var c := ConvertLines(lines);
    match c.failure
    case Some(e) => (Written(c.written), Err(Builtin(PythonError(e))))
    case None =>
      if c.bad == |lines| then (Removed, Err(Warned(OmniBadData(date))))
      else (Written(c.written), Ok(()))
  }

  /** A conversion that stops raises the built-in error of the first line
      that does not convert, with the lines before it already written. */
  lemma ImfOfFirstFailure(date: string, lines: seq<string>) returns (k: nat)
    requires !AllConvert(lines)
    ensures k < |lines| && !Step(lines[k]).Read? && forall j :: 0 <= j < k ==> Step(lines[j]).Read?
    ensures ImfOf(date, lines).1 == Err(Builtin(PythonError(Step(lines[k]).error)))
    ensures ImfOf(date, lines).0 == Written(ConvertLines(lines).written)
  {
    var c := ConvertLines(lines);
    assert c.failure.Some?;
    k := FirstFailure(lines, Step, Steps(lines));
  }

  /** Passing a file name changes what the object records and nothing else:
      the same file is read and the same IMF file results. */
  lemma FilenameOverrideIgnored(o: Omni, f: string, g: string, read: string -> Option<string>)
    ensures OmniFileToImf(o, f, read).imf == OmniFileToImf(o, g, read).imf
    ensures OmniFileToImf(o, f, read).outcome.Ok? == OmniFileToImf(o, g, read).outcome.Ok?
    ensures OmniFileToImf(o, f, read).omni.omniPath == o.omniPath
  {
  }
}

=== FILE: outcomes.dfy ===
/** Option and Result types shared by every module of the model. A Python
    function that raises is modelled as one that returns `Err` carrying what
    was raised. */
module Outcomes {

  datatype Option<+T> = None | Some(value: T)

  datatype Result<+T, +E> = Ok(value: T) | Err(error: E) {
    predicate IsFailure() { Err? }

    function PropagateFailure<U>(): Result<U, E>
      requires Err?
    {
      Err(error)
    }

    function Extract(): T
      requires Ok?
    {
      value
    }
  }
}

=== FILE: strptime.dfy ===
/** `datetime.strptime` for the two formats the package reads,
    `"%Y%m%d %H:%M"` and `"%Y-%m-%d"`, the way CPython's `_strptime` does it.
    The format becomes a regular expression, which is matched at the start
    of the text. Text left over after the match is an error. The numbers
    read must then name a date that `datetime.date` accepts. The messages
    are those of CPython 3.10 to 3.13. */
module Strptime {
  import opened Outcomes
  import opened Text
  import opened Calendar
  import opened Builtins

  const StartFormat := "%Y%m%d %H:%M"
  const IsoFormat := "%Y-%m-%d"

  // ---------------------------------------------------------------------------
  // The regular expressions

  /** A one-character class of the directives' expressions. */
  datatype CharClass = AnyDigit | DigitIn(lo: char, hi: char) | Exactly(c: char)

  predicate InClass(k: CharClass, c: char) {
    match k
    case AnyDigit => IsDigit(c)
    case DigitIn(lo, hi) => lo <= c <= hi
    case Exactly(x) => c == x
  }

  /** The directives of the two formats. */
  datatype Directive = YearDigits | MonthDigits | DayDigits | HourDigits | MinuteDigits

  /** The alternatives of a directive's group, in the order they are tried. */
  function Alternatives(d: Directive): (alts: seq<seq<CharClass>>)
    ensures |alts| > 0
  {
    match d
    // `%Y`: `\d\d\d\d`
    case YearDigits => [[AnyDigit, AnyDigit, AnyDigit, AnyDigit]]
    // `%m`: `1[0-2]|0[1-9]|[1-9]`
    case MonthDigits => [[Exactly('1'), DigitIn('0', '2')], [Exactly('0'), DigitIn('1', '9')], [DigitIn('1', '9')]]
    // `%d`: `3[01]|[12]\d|0[1-9]|[1-9]| [1-9]`
    case DayDigits =>
      [[Exactly('3'), DigitIn('0', '1')], [DigitIn('1', '2'), AnyDigit], [Exactly('0'), DigitIn('1', '9')],
       [DigitIn('1', '9')], [Exactly(' '), DigitIn('1', '9')]]
    // `%H`: `2[0-3]|[0-1]\d|\d`
    case HourDigits => [[Exactly('2'), DigitIn('0', '3')], [DigitIn('0', '1'), AnyDigit], [AnyDigit]]
    // `%M`: `[0-5]\d|\d`
    case MinuteDigits => [[DigitIn('0', '5'), AnyDigit], [AnyDigit]]
  }

  /** A piece of an expression: a directive's group, the `\s+` that a space
      of the format becomes, or a literal character. */
  datatype Item = Group(directive: Directive) | Blanks | Char(c: char)

  /** The expression of `"%Y%m%d %H:%M"`. */
  const StartExpression: seq<Item> :=
    [Group(YearDigits), Group(MonthDigits), Group(DayDigits), Blanks, Group(HourDigits), Char(':'),
     Group(MinuteDigits)]

  /** The expression of `"%Y-%m-%d"`. */
  const IsoExpression: seq<Item> :=
    [Group(YearDigits), Char('-'), Group(MonthDigits), Char('-'), Group(DayDigits)]

  // ---------------------------------------------------------------------------
  // What a match is

  /** The run of classes matches all of `w`. */
  predicate RunFits(run: seq<CharClass>, w: string) {
    |run| == |w| && forall k :: 0 <= k < |w| ==> InClass(run[k], w[k])
  }

  /** One of the runs matches all of `w`. */
  predicate AnyRunFits(alts: seq<seq<CharClass>>, w: string) {
    exists k :: 0 <= k < |alts| && RunFits(alts[k], w)
  }

  /** The item matches all of `w`. */
  predicate ItemFits(item: Item, w: string) {
    match item
    case Group(d) => AnyRunFits(Alternatives(d), w)
    case Blanks => |w| > 0 && forall k :: 0 <= k < |w| ==> IsSpace(w[k])
    case Char(c) => w == [c]
  }

  /** Where the piece of item `k` starts, given where every piece ends. */
  function PieceStart(i: nat, ends: seq<nat>, k: nat): nat
    requires k <= |ends|
  {
    if k == 0 then i else ends[k - 1]
  }

  /** `ends` cuts `s`, from `i` on, into pieces that the items match in turn. */
  predicate Fits(s: string, i: nat, items: seq<Item>, ends: seq<nat>) {
    && |ends| == |items|
    && forall k :: 0 <= k < |ends| ==> PieceFits(s, i, items, ends, k)
  }

  /** The piece `k` that `ends` cuts from `s`, from `i` on, lies in `s` and item `k` matches it. */
  predicate PieceFits(s: string, i: nat, items: seq<Item>, ends: seq<nat>, k: nat)
    requires k < |ends| <= |items|
  {
    PieceStart(i, ends, k) <= ends[k] <= |s| && ItemFits(items[k], s[PieceStart(i, ends, k)..ends[k]])
  }

  /** A later piece of `[item] + rest` is a piece of `rest`, one place earlier. */
  lemma LaterPiece(s: string, i: nat, item: Item, rest: seq<Item>, ends: seq<nat>, k: nat)
    requires 0 < k < |ends| == |rest| + 1 && PieceFits(s, ends[0], rest, ends[1..], k - 1)
    ensures PieceFits(s, i, [item] + rest, ends, k)
  {
    var tail, j := ends[1..], k - 1;
    assert ends[k] == tail[j] && ([item] + rest)[k] == rest[j];
    assert PieceStart(i, ends, k) == PieceStart(ends[0], tail, j) by {
      if j > 0 { assert ends[k - 1] == tail[j - 1]; }
    }
  }

  /** A piece matched by one item, followed by pieces matched by the rest. */
  lemma FitsFirst(s: string, i: nat, item: Item, rest: seq<Item>, ends: seq<nat>)
    requires |ends| > 0 && i <= ends[0] <= |s| && ItemFits(item, s[i..ends[0]]) && Fits(s, ends[0], rest, ends[1..])
    ensures Fits(s, i, [item] + rest, ends)
  {
    forall k | 0 <= k < |ends|
      ensures PieceFits(s, i, [item] + rest, ends, k)
    {
      if k == 0 {
        assert PieceStart(i, ends, k) == i && ([item] + rest)[k] == item;
      } else {
        assert PieceFits(s, ends[0], rest, ends[1..], k - 1);
        LaterPiece(s, i, item, rest, ends, k);
      }
    }
  }

  /** What one of the later runs matches, one of the runs matches. */
  lemma WiderRuns(alts: seq<seq<CharClass>>, w: string)
    requires |alts| > 0 && AnyRunFits(alts[1..], w)
    ensures AnyRunFits(alts, w)
  {
    var k :| 0 <= k < |alts[1..]| && RunFits(alts[1..][k], w);
    assert RunFits(alts[k + 1], w);
  }

  // ---------------------------------------------------------------------------
  // Matching

  /** The end of the run of whitespace at `i`. */
  function BlanksEnd(s: string, i: nat): (j: nat)
    requires i <= |s|
    ensures i <= j <= |s| && (j < |s| ==> !IsSpace(s[j]))
    ensures forall k :: i <= k < j ==> IsSpace(s[k])
    decreases |s| - i
  {
    if i < |s| && IsSpace(s[i]) then BlanksEnd(s, i + 1) else i
  }

  /** `re.match` of `items` on `s` at `i`: where each item's piece ends in the
      first match a backtracking search finds, or `None` when there is no
      match. A group tries its alternatives in order, and `\s+` tries the
      longest run first. `MatchSound` states that what it finds is a match. */
  function Match(s: string, i: nat, items: seq<Item>): (r: Option<seq<nat>>)
    requires i <= |s|
    decreases |items|, 1, 0
  {
    if |items| == 0 then Some([])
    else
      match items[0]
      case Group(d) => MatchAlts(s, i, Alternatives(d), items[1..])
      case Blanks =>
        var j := BlanksEnd(s, i);
        if j == i then None else MatchBlanks(s, i, j, items[1..])
      case Char(c) => MatchChar(s, i, c, items[1..])
  }

  /** A group's alternatives from the first, each followed by a match of the
      rest of the expression. */
  function MatchAlts(s: string, i: nat, alts: seq<seq<CharClass>>, rest: seq<Item>): (r: Option<seq<nat>>)
    requires i <= |s|
    decreases |rest| + 1, 0, |alts|
  {
    if |alts| == 0 then None
    else
      var e := i + |alts[0]|;
      var first := if e <= |s| && RunFits(alts[0], s[i..e]) then Match(s, e, rest) else None;
      if first.Some? then Some([e] + first.value) else MatchAlts(s, i, alts[1..], rest)
  }

  /** `\s+` over `s[i..j]`, then over shorter runs, each followed by a match
      of the rest of the expression. */
  function MatchBlanks(s: string, i: nat, j: nat, rest: seq<Item>): (r: Option<seq<nat>>)
    requires i < j <= |s|
    decreases |rest| + 1, 0, j
  {
    match Match(s, j, rest)
    case Some(ends) => Some([j] + ends)
    case None => if i + 1 < j then MatchBlanks(s, i, j - 1, rest) else None
  }

  /** A literal character followed by a match of the rest of the expression. */
  function MatchChar(s: string, i: nat, c: char, rest: seq<Item>): (r: Option<seq<nat>>)
    requires i <= |s|
    decreases |rest| + 1, 0, 0
  {
    if i < |s| && s[i] == c then
      match Match(s, i + 1, rest)
      case Some(ends) => Some([i + 1] + ends)
      case None => None
    else None
  }

  /** What `Match` finds is a match: its pieces cover the text from `i` to
      the last end, and each item matches its piece. */
  lemma {:induction false} MatchSound(s: string, i: nat, items: seq<Item>)
    requires i <= |s|
    ensures Match(s, i, items).Some? ==> Fits(s, i, items, Match(s, i, items).value)
    decreases |items|, 1, 0
  {
    if |items| > 0 {
      assert items == [items[0]] + items[1..];
      match items[0]
      case Group(d) => GroupSound(s, i, d, items[1..]);
      case Blanks =>
        var j := BlanksEnd(s, i);
        if j > i {
          BlanksFirstSound(s, i, j, items[1..]);
        }
      case Char(c) => CharSound(s, i, c, items[1..]);
    }
  }

  lemma {:induction false} GroupSound(s: string, i: nat, d: Directive, rest: seq<Item>)
    requires i <= |s|
    ensures var r := MatchAlts(s, i, Alternatives(d), rest);
            r.Some? ==> Fits(s, i, [Group(d)] + rest, r.value)
    decreases |rest| + 1, 0, |Alternatives(d)| + 1
  {
    var r := MatchAlts(s, i, Alternatives(d), rest);
    AltsSound(s, i, Alternatives(d), rest);
    if r.Some? {
      FitsFirst(s, i, Group(d), rest, r.value);
    }
  }

  lemma {:induction false} BlanksFirstSound(s: string, i: nat, j: nat, rest: seq<Item>)
    requires i < j <= |s| && forall k :: i <= k < j ==> IsSpace(s[k])
    ensures var r := MatchBlanks(s, i, j, rest);
            r.Some? ==> Fits(s, i, [Blanks] + rest, r.value)
    decreases |rest| + 1, 0, j + 1
  {
    var r := MatchBlanks(s, i, j, rest);
    BlanksSound(s, i, j, rest);
    if r.Some? {
      FitsFirst(s, i, Blanks, rest, r.value);
    }
  }

  lemma {:induction false} CharSound(s: string, i: nat, c: char, rest: seq<Item>)
    requires i <= |s|
    ensures var r := MatchChar(s, i, c, rest);
            r.Some? ==> Fits(s, i, [Char(c)] + rest, r.value)
    decreases |rest| + 1, 0, 0
  {
    if i < |s| && s[i] == c {
      MatchSound(s, i + 1, rest);
      var r := Match(s, i + 1, rest);
      if r.Some? {
        assert s[i..i + 1] == [c];
        var ends := [i + 1] + r.value;
        assert ends[1..] == r.value;
        FitsFirst(s, i, Char(c), rest, ends);
      }
    }
  }

  lemma {:induction false} AltsSound(s: string, i: nat, alts: seq<seq<CharClass>>, rest: seq<Item>)
    requires i <= |s|
    ensures var r := MatchAlts(s, i, alts, rest);
            r.Some? ==> && |r.value| > 0 && i <= r.value[0] <= |s|
                        && AnyRunFits(alts, s[i..r.value[0]]) && Fits(s, r.value[0], rest, r.value[1..])
    decreases |rest| + 1, 0, |alts|
  {
    if |alts| > 0 {
      var e := i + |alts[0]|;
      if e <= |s| && RunFits(alts[0], s[i..e]) {
        MatchSound(s, e, rest);
      }
      var first := if e <= |s| && RunFits(alts[0], s[i..e]) then Match(s, e, rest) else None;
      if first.Some? {
        assert ([e] + first.value)[1..] == first.value;
      } else {
        AltsSound(s, i, alts[1..], rest);
        var r := MatchAlts(s, i, alts[1..], rest);
        if r.Some? {
          WiderRuns(alts, s[i..r.value[0]]);
        }
      }
    }
  }

  lemma {:induction false} BlanksSound(s: string, i: nat, j: nat, rest: seq<Item>)
    requires i < j <= |s| && forall k :: i <= k < j ==> IsSpace(s[k])
    ensures var r := MatchBlanks(s, i, j, rest);
            r.Some? ==> && |r.value| > 0 && i < r.value[0] <= |s|
                        && ItemFits(Blanks, s[i..r.value[0]]) && Fits(s, r.value[0], rest, r.value[1..])
    decreases |rest| + 1, 0, j
  {
    MatchSound(s, j, rest);
    match Match(s, j, rest)
    case Some(ends) =>
      assert forall k :: 0 <= k < j - i ==> s[i..j][k] == s[i + k];
      assert ([j] + ends)[1..] == ends;
    case None =>
      if i + 1 < j {
        BlanksSound(s, i, j - 1, rest);
      }
  }

  // ---------------------------------------------------------------------------
  // Messages

  /** The quote `repr` puts around `s`: a double quote when `s` holds a
      single quote and no double quote, a single quote otherwise. */
  function ReprQuote(s: string): char {
    if '\'' in s && '"' !in s then '"' else '\''
  }

  /** The characters below U+0100 that `str.isprintable()` rejects. */
  predicate Unprintable(c: char) {
    c < ' ' || ('\U{7F}' <= c <= '\U{A0}') || c == '\U{AD}'
  }

  function HexDigit(n: nat): (c: char)
    requires n < 16
  {
    "0123456789abcdef"[n]
  }

  /** One character as `repr` writes it between the quotes `q`. */
  function Escape(c: char, q: char): (r: string)
    ensures |r| >= 1
  {
    if c == q || c == '\\' then ['\\', c]
    else if c == '\t' then "\\t"
    else if c == '\n' then "\\n"
    else if c == '\r' then "\\r"
    else if Unprintable(c) then "\\x" + [HexDigit(c as int / 16), HexDigit(c as int % 16)]
    else [c]
  }

  function Escaped(s: string, q: char): string {
    if |s| == 0 then "" else Escape(s[0], q) + Escaped(s[1..], q)
  }

  /** `repr(s)`, the `%r` of the mismatch message. */
  function Repr(s: string): (r: string)
    ensures |r| >= 2 + |s| && r[0] == r[|r| - 1] == ReprQuote(s)
  {
    EscapedLength(s, ReprQuote(s));
    [ReprQuote(s)] + Escaped(s, ReprQuote(s)) + [ReprQuote(s)]
  }

  lemma {:induction false} EscapedLength(s: string, q: char)
    ensures |Escaped(s, q)| >= |s|
  {
    if |s| > 0 {
      EscapedLength(s[1..], q);
    }
  }

  /** Printable ASCII without a backslash. */
  predicate PlainText(s: string) {
    forall k :: 0 <= k < |s| ==> ' ' <= s[k] <= '~' && s[k] != '\\'
  }

  /** Printable ASCII without a backslash or the quote is written as it is. */
  lemma {:induction false} EscapedPlain(s: string, q: char)
    requires PlainText(s) && q !in s
    ensures Escaped(s, q) == s
  {
    if |s| > 0 {
      assert s[0] != q && ' ' <= s[0] <= '~';
      EscapedPlain(s[1..], q);
      assert s == [s[0]] + s[1..];
    }
  }

  /** A printable ASCII text without a backslash, and without the quote
      `repr` picks for it, is that text between the quotes. */
  lemma ReprPlain(s: string)
    requires PlainText(s) && ReprQuote(s) !in s
    ensures Repr(s) == [ReprQuote(s)] + s + [ReprQuote(s)]
  {
    EscapedPlain(s, ReprQuote(s));
  }

  /** The ValueError of a text the expression of `format` does not match. */
  function NoMatch(s: string, format: string): BuiltinError {
    ValueError("time data " + Repr(s) + " does not match format " + Repr(format))
  }

  /** The ValueError of text left after the match. */
  function Unconverted(rest: string): BuiltinError {
    ValueError("unconverted data remains: " + rest)
  }

  /** `datetime.date(year, month, day)`, which checks the year, then the
      month, then the day. */
  function NewDate(year: int, month: int, day: int): (r: Result<Date, BuiltinError>)
    ensures r.Ok? <==> ValidDate(Date(year, month, day))
    ensures r.Ok? ==> r.value == Date(year, month, day)
    ensures !(MinYear <= year <= MaxYear) ==> r == Err(ValueError("year " + IntToString(year) + " is out of range"))
    ensures MinYear <= year <= MaxYear && 1 <= month <= 12 && r.Err? ==>
              r == Err(ValueError("day is out of range for month"))
    ensures r.Err? ==> r.error.ValueError?
  {
    if year < MinYear || year > MaxYear then Err(ValueError("year " + IntToString(year) + " is out of range"))
    else if month < 1 || month > 12 then Err(ValueError("month must be in 1..12"))
    else if day < 1 || day > DaysInMonth(year, month) then Err(ValueError("day is out of range for month"))
    else Ok(Date(year, month, day))
  }

  // ---------------------------------------------------------------------------
  // The fields of a match

  /** A matched field: digits, or, for `%d`, a space and digits. */
  predicate Numeral(w: string) {
    if |w| > 0 && w[0] == ' ' then AllDigits(w[1..]) else AllDigits(w)
  }

  /** `int()` of a matched field, which skips the leading space. */
  function FieldValue(w: string): nat
    requires Numeral(w)
  {
    if |w| > 0 && w[0] == ' ' then DigitsToNat(w[1..]) else DigitsToNat(w)
  }

  lemma SingleValue(w: string)
    requires |w| == 1 && IsDigit(w[0])
    ensures AllDigits(w) && DigitsToNat(w) == w[0] as int - '0' as int
  {
    assert w[..0] == [];
  }

  lemma PairValue(w: string)
    requires |w| == 2 && IsDigit(w[0]) && IsDigit(w[1])
    ensures AllDigits(w) && DigitsToNat(w) == (w[0] as int - '0' as int) * 10 + (w[1] as int - '0' as int)
  {
    SingleValue(w[..1]);
  }

  /** The value of a one-character piece matched by a run of classes. */
  lemma OneClass(w: string, run: seq<CharClass>, lo: char, hi: char)
    requires RunFits(run, w) && run == [DigitIn(lo, hi)] && '0' <= lo && hi <= '9'
    ensures AllDigits(w) && lo as int - '0' as int <= DigitsToNat(w) <= hi as int - '0' as int
  {
    assert InClass(run[0], w[0]);
    SingleValue(w);
  }

  /** The value of a two-character piece matched by a run of classes. */
  lemma TwoClasses(w: string, run: seq<CharClass>, lo: char, hi: char, lo': char, hi': char)
    requires RunFits(run, w) && |run| == 2
    requires InClass(run[0], w[0]) ==> lo <= w[0] <= hi
    requires InClass(run[1], w[1]) ==> lo' <= w[1] <= hi'
    requires '0' <= lo && hi <= '9' && '0' <= lo' && hi' <= '9'
    ensures AllDigits(w)
    ensures (lo as int - '0' as int) * 10 + (lo' as int - '0' as int) <= DigitsToNat(w)
    ensures DigitsToNat(w) <= (hi as int - '0' as int) * 10 + (hi' as int - '0' as int)
  {
    assert InClass(run[0], w[0]) && InClass(run[1], w[1]);
    PairValue(w);
  }

  lemma YearPiece(w: string)
    requires ItemFits(Group(YearDigits), w)
    ensures |w| == 4 && AllDigits(w) && DigitsToNat(w) < 10000
  {
    var run := Alternatives(YearDigits)[0];
    assert RunFits(run, w);
    assert forall k :: 0 <= k < 4 ==> InClass(run[k], w[k]);
    FourDigits(w);
  }

  lemma MonthPiece(w: string)
    requires ItemFits(Group(MonthDigits), w)
    ensures 1 <= |w| <= 2 && AllDigits(w) && 1 <= DigitsToNat(w) <= 12
  {
    var alts := Alternatives(MonthDigits);
    var k :| 0 <= k < |alts| && RunFits(alts[k], w);
    if k == 0 {
      assert 1 <= |w| <= 2 && AllDigits(w) && 1 <= DigitsToNat(w) <= 12 by { TwoClasses(w, alts[0], '1', '1', '0', '2'); }
    } else if k == 1 {
      assert 1 <= |w| <= 2 && AllDigits(w) && 1 <= DigitsToNat(w) <= 12 by { TwoClasses(w, alts[1], '0', '0', '1', '9'); }
    } else {
      assert 1 <= |w| <= 2 && AllDigits(w) && 1 <= DigitsToNat(w) <= 12 by { OneClass(w, alts[2], '1', '9'); }
    }
  }

  lemma DayPiece(w: string)
    requires ItemFits(Group(DayDigits), w)
    ensures 1 <= |w| <= 2 && Numeral(w) && 1 <= FieldValue(w) <= 31
  {
    var alts := Alternatives(DayDigits);
    var k :| 0 <= k < |alts| && RunFits(alts[k], w);
    if k == 0 {
      assert 1 <= |w| <= 2 && Numeral(w) && 1 <= FieldValue(w) <= 31 by { TwoClasses(w, alts[0], '3', '3', '0', '1'); }
    } else if k == 1 {
      assert 1 <= |w| <= 2 && Numeral(w) && 1 <= FieldValue(w) <= 31 by { TwoClasses(w, alts[1], '1', '2', '0', '9'); }
    } else if k == 2 {
      assert 1 <= |w| <= 2 && Numeral(w) && 1 <= FieldValue(w) <= 31 by { TwoClasses(w, alts[2], '0', '0', '1', '9'); }
    } else if k == 3 {
      assert 1 <= |w| <= 2 && Numeral(w) && 1 <= FieldValue(w) <= 31 by { OneClass(w, alts[3], '1', '9'); }
    } else {
      assert InClass(alts[4][0], w[0]) && InClass(alts[4][1], w[1]);
      assert 1 <= |w| <= 2 && Numeral(w) && 1 <= FieldValue(w) <= 31 by { OneClass(w[1..], [DigitIn('1', '9')], '1', '9'); }
    }
  }

  lemma HourPiece(w: string)
    requires ItemFits(Group(HourDigits), w)
    ensures 1 <= |w| <= 2 && AllDigits(w) && DigitsToNat(w) < 24
  {
    var alts := Alternatives(HourDigits);
    var k :| 0 <= k < |alts| && RunFits(alts[k], w);
    if k == 0 {
      assert 1 <= |w| <= 2 && AllDigits(w) && DigitsToNat(w) < 24 by { TwoClasses(w, alts[0], '2', '2', '0', '3'); }
    } else if k == 1 {
      assert 1 <= |w| <= 2 && AllDigits(w) && DigitsToNat(w) < 24 by { TwoClasses(w, alts[1], '0', '1', '0', '9'); }
    } else {
      assert |w| == 1 && InClass(AnyDigit, w[0]) by { assert alts[k] == [AnyDigit]; }
      assert 1 <= |w| <= 2 && AllDigits(w) && DigitsToNat(w) < 24 by { OneClass(w, [DigitIn('0', '9')], '0', '9'); }
    }
  }

  lemma MinutePiece(w: string)
    requires ItemFits(Group(MinuteDigits), w)
    ensures 1 <= |w| <= 2 && AllDigits(w) && DigitsToNat(w) < 60
  {
    var alts := Alternatives(MinuteDigits);
    var k :| 0 <= k < |alts| && RunFits(alts[k], w);
    if k == 0 {
      assert 1 <= |w| <= 2 && AllDigits(w) && DigitsToNat(w) < 60 by { TwoClasses(w, alts[0], '0', '5', '0', '9'); }
    } else {
      assert |w| == 1 && InClass(AnyDigit, w[0]) by { assert alts[k] == [AnyDigit]; }
      assert 1 <= |w| <= 2 && AllDigits(w) && DigitsToNat(w) < 60 by { OneClass(w, [DigitIn('0', '9')], '0', '9'); }
    }
  }

  /** A match ends within the text. */
  lemma LastEnd(s: string, i: nat, items: seq<Item>, ends: seq<nat>)
    requires Fits(s, i, items, ends) && |items| > 0
    ensures |ends| == |items| && ends[|items| - 1] <= |s|
  {
    assert PieceFits(s, i, items, ends, |items| - 1);
  }

  /** The pieces of a match of the start expression, in order. */
  lemma StartPieces(s: string, ends: seq<nat>)
    requires Fits(s, 0, StartExpression, ends)
    ensures |ends| == 7
    ensures ends[0] <= ends[1] <= ends[2] <= ends[3] <= ends[4] <= ends[5] <= ends[6] <= |s|
    ensures ItemFits(Group(YearDigits), s[..ends[0]]) && ItemFits(Group(MonthDigits), s[ends[0]..ends[1]])
    ensures ItemFits(Group(DayDigits), s[ends[1]..ends[2]]) && ItemFits(Blanks, s[ends[2]..ends[3]])
    ensures ItemFits(Group(HourDigits), s[ends[3]..ends[4]]) && s[ends[4]..ends[5]] == [':']
    ensures ItemFits(Group(MinuteDigits), s[ends[5]..ends[6]])
  {
    var x := StartExpression;
    assert PieceFits(s, 0, x, ends, 0);
    assert PieceFits(s, 0, x, ends, 1);
    assert PieceFits(s, 0, x, ends, 2);
    assert PieceFits(s, 0, x, ends, 3);
    assert PieceFits(s, 0, x, ends, 4);
    assert PieceFits(s, 0, x, ends, 5);
    assert PieceFits(s, 0, x, ends, 6);
  }

  /** The pieces of a match of the ISO expression, in order. */
  lemma IsoPieces(s: string, ends: seq<nat>)
    requires Fits(s, 0, IsoExpression, ends)
    ensures |ends| == 5
    ensures ends[0] <= ends[1] <= ends[2] <= ends[3] <= ends[4] <= |s|
    ensures ItemFits(Group(YearDigits), s[..ends[0]]) && s[ends[0]..ends[1]] == ['-']
    ensures ItemFits(Group(MonthDigits), s[ends[1]..ends[2]]) && s[ends[2]..ends[3]] == ['-']
    ensures ItemFits(Group(DayDigits), s[ends[3]..ends[4]])
  {
    var x := IsoExpression;
    assert PieceFits(s, 0, x, ends, 0);
    assert PieceFits(s, 0, x, ends, 1);
    assert PieceFits(s, 0, x, ends, 2);
    assert PieceFits(s, 0, x, ends, 3);
    assert PieceFits(s, 0, x, ends, 4);
  }

  /** The numbers `_strptime` reads from the groups of a match. */
  datatype Fields = Fields(year: nat, month: nat, day: nat, hour: nat, minute: nat)

  function StartFields(s: string, ends: seq<nat>): (f: Fields)
    requires Fits(s, 0, StartExpression, ends)
    ensures f.year < 10000 && 1 <= f.month <= 12 && 1 <= f.day <= 31 && f.hour < 24 && f.minute < 60
  {
    StartPieces(s, ends);
    YearPiece(s[..ends[0]]);
    MonthPiece(s[ends[0]..ends[1]]);
    DayPiece(s[ends[1]..ends[2]]);
    HourPiece(s[ends[3]..ends[4]]);
    MinutePiece(s[ends[5]..ends[6]]);
    Fields(DigitsToNat(s[..ends[0]]), DigitsToNat(s[ends[0]..ends[1]]), FieldValue(s[ends[1]..ends[2]]),
           DigitsToNat(s[ends[3]..ends[4]]), DigitsToNat(s[ends[5]..ends[6]]))
  }

  function IsoFields(s: string, ends: seq<nat>): (f: Fields)
    requires Fits(s, 0, IsoExpression, ends)
    ensures f.year < 10000 && 1 <= f.month <= 12 && 1 <= f.day <= 31
  {
    IsoPieces(s, ends);
    YearPiece(s[..ends[0]]);
    MonthPiece(s[ends[1]..ends[2]]);
    DayPiece(s[ends[3]..ends[4]]);
    Fields(DigitsToNat(s[..ends[0]]), DigitsToNat(s[ends[1]..ends[2]]), FieldValue(s[ends[3]..ends[4]]), 0, 0)
  }

  // ---------------------------------------------------------------------------
  // Parsing

  /** The second of the day at `hour:minute`. */
  function ClockSecond(hour: nat, minute: nat): (r: nat)
    requires hour < 24 && minute < 60
    ensures r < SecondsPerDay && r % 60 == 0
    ensures r / 3600 == hour && r % 3600 / 60 == minute
  {
    var r := hour * 3600 + minute * 60;
    assert r % 3600 == minute * 60;
    r
  }

  /** `hour:minute` on day `d`. */
  function Moment(d: Date, hour: nat, minute: nat): (t: DateTime)
    requires ValidDate(d) && hour < 24 && minute < 60
    ensures ValidDateTime(t) && t.second % 60 == 0 && t.date == d
    ensures Hour(t) == hour && Minute(t) == minute
  {
    DateTime(d, ClockSecond(hour, minute))
  }

  /** `datetime.strptime(s, "%Y%m%d %H:%M")`. The text must match the
      expression from its start, with nothing left over, and the date read
      must exist. */
  function ParseDateTime(s: string): (r: Result<DateTime, BuiltinError>)
    ensures r.Ok? ==> ValidDateTime(r.value) && r.value.second % 60 == 0
    ensures r.Err? ==> r.error.ValueError?
    ensures Match(s, 0, StartExpression).None? ==> r == Err(NoMatch(s, StartFormat))
  {
    match Match(s, 0, StartExpression)
    case None => Err(NoMatch(s, StartFormat))
    case Some(ends) =>
      MatchSound(s, 0, StartExpression);
      LastEnd(s, 0, StartExpression, ends);
      if ends[6] < |s| then Err(Unconverted(s[ends[6]..]))
      else
        FieldsMoment(StartFields(s, ends))
  }

  /** The moment the fields read name, or the error `datetime` raises for
      them. */
  function FieldsMoment(f: Fields): (r: Result<DateTime, BuiltinError>)
    requires f.hour < 24 && f.minute < 60
    ensures r.Ok? <==> NewDate(f.year, f.month, f.day).Ok?
    ensures r.Ok? ==> r.value == DateTime(Date(f.year, f.month, f.day), f.hour * 3600 + f.minute * 60)
    ensures r.Ok? ==> ValidDateTime(r.value) && r.value.second % 60 == 0
    ensures r.Err? ==> r == Err(NewDate(f.year, f.month, f.day).error) && r.error.ValueError?
  {
    match NewDate(f.year, f.month, f.day)
    case Err(e) => Err(e)
    case Ok(d) => Ok(Moment(d, f.hour, f.minute))
  }

  /** `datetime.strptime(s, "%Y-%m-%d").date()`. */
  function ParseIsoDate(s: string): (r: Result<Date, BuiltinError>)
    ensures r.Ok? ==> ValidDate(r.value)
    ensures r.Err? ==> r.error.ValueError?
    ensures Match(s, 0, IsoExpression).None? ==> r == Err(NoMatch(s, IsoFormat))
  {
    match Match(s, 0, IsoExpression)
    case None => Err(NoMatch(s, IsoFormat))
    case Some(ends) =>
      MatchSound(s, 0, IsoExpression);
      LastEnd(s, 0, IsoExpression, ends);
      if ends[4] < |s| then Err(Unconverted(s[ends[4]..]))
      else
        var f := IsoFields(s, ends);
        NewDate(f.year, f.month, f.day)
  }

  // ---------------------------------------------------------------------------
  // Matching a printed text, step by step

  /** `s[i]` and `s[i + 1]` are the two digits of `n`. */
  predicate DigitsAt(s: string, i: nat, n: nat) {
    n < 100 && i + 2 <= |s| && s[i] == DigitChar(n / 10) && s[i + 1] == DigitChar(n % 10)
  }

  lemma GroupFirst(s: string, i: nat, d: Directive, rest: seq<Item>)
    requires i <= |s|
    ensures Match(s, i, [Group(d)] + rest) == MatchAlts(s, i, Alternatives(d), rest)
  {
    var items := [Group(d)] + rest;
    assert items[0] == Group(d) && items[1..] == rest;
  }

  /** The first alternative matches and so does the rest after it. */
  lemma AltTaken(s: string, i: nat, alts: seq<seq<CharClass>>, rest: seq<Item>, ends: seq<nat>)
    requires |alts| > 0 && i + |alts[0]| <= |s| && RunFits(alts[0], s[i..i + |alts[0]|])
    requires Match(s, i + |alts[0]|, rest) == Some(ends)
    ensures MatchAlts(s, i, alts, rest) == Some([i + |alts[0]|] + ends)
  {
  }

  /** The first alternative does not match here, so the next is tried. */
  lemma AltSkipped(s: string, i: nat, alts: seq<seq<CharClass>>, rest: seq<Item>)
    requires i <= |s| && |alts| > 0 && i + |alts[0]| <= |s| && !RunFits(alts[0], s[i..i + |alts[0]|])
    ensures MatchAlts(s, i, alts, rest) == MatchAlts(s, i, alts[1..], rest)
  {
  }

  lemma CharThen(s: string, i: nat, c: char, rest: seq<Item>, ends: seq<nat>)
    requires i < |s| && s[i] == c && Match(s, i + 1, rest) == Some(ends)
    ensures Match(s, i, [Char(c)] + rest) == Some([i + 1] + ends)
  {
    var items := [Char(c)] + rest;
    assert items[0] == Char(c) && items[1..] == rest;
  }

  lemma YearThen(s: string, i: nat, rest: seq<Item>, ends: seq<nat>)
    requires i + 4 <= |s| && AllDigits(s[i..i + 4]) && Match(s, i + 4, rest) == Some(ends)
    ensures Match(s, i, [Group(YearDigits)] + rest) == Some([i + 4] + ends)
  {
    var alts := Alternatives(YearDigits);
    GroupFirst(s, i, YearDigits, rest);
    assert RunFits(alts[0], s[i..i + 4]);
    AltTaken(s, i, alts, rest, ends);
  }

  lemma MonthThen(s: string, i: nat, m: nat, rest: seq<Item>, ends: seq<nat>)
    requires DigitsAt(s, i, m) && 1 <= m <= 12 && Match(s, i + 2, rest) == Some(ends)
    ensures Match(s, i, [Group(MonthDigits)] + rest) == Some([i + 2] + ends)
  {
    var alts := Alternatives(MonthDigits);
    GroupFirst(s, i, MonthDigits, rest);
    if m >= 10 {
      assert RunFits(alts[0], s[i..i + 2]);
      AltTaken(s, i, alts, rest, ends);
    } else {
      assert s[i] == '0';
      AltSkipped(s, i, alts, rest);
      assert RunFits(alts[1..][0], s[i..i + 2]);
      AltTaken(s, i, alts[1..], rest, ends);
    }
  }

  lemma DayThen(s: string, i: nat, d: nat, rest: seq<Item>, ends: seq<nat>)
    requires DigitsAt(s, i, d) && 1 <= d <= 31 && Match(s, i + 2, rest) == Some(ends)
    ensures Match(s, i, [Group(DayDigits)] + rest) == Some([i + 2] + ends)
  {
    var alts := Alternatives(DayDigits);
    GroupFirst(s, i, DayDigits, rest);
    if d >= 30 {
      assert RunFits(alts[0], s[i..i + 2]);
      AltTaken(s, i, alts, rest, ends);
    } else {
      assert s[i] != '3';
      AltSkipped(s, i, alts, rest);
      if d >= 10 {
        assert RunFits(alts[1..][0], s[i..i + 2]);
        AltTaken(s, i, alts[1..], rest, ends);
      } else {
        assert s[i] == '0';
        AltSkipped(s, i, alts[1..], rest);
        assert RunFits(alts[1..][1..][0], s[i..i + 2]);
        AltTaken(s, i, alts[1..][1..], rest, ends);
      }
    }
  }

  lemma HourThen(s: string, i: nat, h: nat, rest: seq<Item>, ends: seq<nat>)
    requires DigitsAt(s, i, h) && h < 24 && Match(s, i + 2, rest) == Some(ends)
    ensures Match(s, i, [Group(HourDigits)] + rest) == Some([i + 2] + ends)
  {
    var alts := Alternatives(HourDigits);
    GroupFirst(s, i, HourDigits, rest);
    if h >= 20 {
      assert RunFits(alts[0], s[i..i + 2]);
      AltTaken(s, i, alts, rest, ends);
    } else {
      assert s[i] != '2';
      AltSkipped(s, i, alts, rest);
      assert RunFits(alts[1..][0], s[i..i + 2]);
      AltTaken(s, i, alts[1..], rest, ends);
    }
  }

  lemma MinuteThen(s: string, i: nat, m: nat, rest: seq<Item>, ends: seq<nat>)
    requires DigitsAt(s, i, m) && m < 60 && Match(s, i + 2, rest) == Some(ends)
    ensures Match(s, i, [Group(MinuteDigits)] + rest) == Some([i + 2] + ends)
  {
    var alts := Alternatives(MinuteDigits);
    GroupFirst(s, i, MinuteDigits, rest);
    assert RunFits(alts[0], s[i..i + 2]);
    AltTaken(s, i, alts, rest, ends);
  }

  /** The run of whitespace at `i` ends where the whitespace stops. */
  lemma {:induction false} BlanksEndAt(s: string, i: nat, j: nat)
    requires i <= j <= |s| && (forall k :: i <= k < j ==> IsSpace(s[k])) && (j < |s| ==> !IsSpace(s[j]))
    ensures BlanksEnd(s, i) == j
    decreases j - i
  {
    if i < j {
      BlanksEndAt(s, i + 1, j);
    }
  }

  lemma BlanksThen(s: string, i: nat, j: nat, rest: seq<Item>, ends: seq<nat>)
    requires i < j <= |s| && (forall k :: i <= k < j ==> IsSpace(s[k])) && (j < |s| ==> !IsSpace(s[j]))
    requires Match(s, j, rest) == Some(ends)
    ensures Match(s, i, [Blanks] + rest) == Some([j] + ends)
  {
    var items := [Blanks] + rest;
    assert items[0] == Blanks && items[1..] == rest;
    BlanksEndAt(s, i, j);
  }

  // ---------------------------------------------------------------------------
  // Printed texts

  predicate Spaces(sp: string) {
    forall k :: 0 <= k < |sp| ==> IsSpace(sp[k])
  }

  /** A date and time printed zero-padded, with the whitespace `sp` between
      the date and the time. */
  function StartText(y: nat, m: nat, d: nat, sp: string, hh: nat, mm: nat): string
    requires y < 10000 && m < 100 && d < 100 && hh < 100 && mm < 100
  {
    Pad4(y) + Pad2(m) + Pad2(d) + sp + Pad2(hh) + ":" + Pad2(mm)
  }

  /** Where the pieces of a printed start end, for whitespace of length `n`. */
  function StartEnds(n: nat): seq<nat> {
    [4, 6, 8, 8 + n, 10 + n, 11 + n, 13 + n]
  }

  /** The characters of a printed start, with any text after it. */
  lemma StartTextAt(y: nat, m: nat, d: nat, sp: string, hh: nat, mm: nat, rest: string)
    requires y < 10000 && m < 100 && d < 100 && hh < 100 && mm < 100
    ensures var s, n := StartText(y, m, d, sp, hh, mm) + rest, |sp|;
            && |s| == 13 + n + |rest| && s[..4] == Pad4(y) && s[4..6] == Pad2(m) && s[6..8] == Pad2(d)
            && s[8..8 + n] == sp && s[8 + n..10 + n] == Pad2(hh) && s[10 + n] == ':'
            && s[11 + n..13 + n] == Pad2(mm) && s[13 + n..] == rest
  {
    var s, n := StartText(y, m, d, sp, hh, mm) + rest, |sp|;
    assert s == Pad4(y) + Pad2(m) + Pad2(d) + sp + Pad2(hh) + ":" + Pad2(mm) + rest;
  }

  lemma DigitNotSpace(c: char)
    requires IsDigit(c)
    ensures !IsSpace(c)
  {
  }

  /** A slice that is a padded two-digit field holds its digits. */
  lemma PaddedAt(s: string, i: nat, n: nat)
    requires n < 100 && i + 2 <= |s| && s[i..i + 2] == Pad2(n)
    ensures DigitsAt(s, i, n)
  {
    assert s[i] == s[i..i + 2][0] && s[i + 1] == s[i..i + 2][1];
  }

  lemma MinuteTail(s: string, i: nat, mm: nat)
    requires DigitsAt(s, i, mm) && mm < 60
    ensures Match(s, i, [Group(MinuteDigits)]) == Some([i + 2])
  {
    assert Match(s, i + 2, []) == Some([]);
    MinuteThen(s, i, mm, [], []);
    assert [Group(MinuteDigits)] + [] == [Group(MinuteDigits)] && [i + 2] + [] == [i + 2];
  }

  /** `%H:%M` at `j`, ending the text's match. */
  lemma ClockFrom(s: string, j: nat, hh: nat, mm: nat)
    requires DigitsAt(s, j, hh) && hh < 24 && j + 2 < |s| && s[j + 2] == ':' && DigitsAt(s, j + 3, mm) && mm < 60
    ensures Match(s, j, [Group(HourDigits), Char(':'), Group(MinuteDigits)]) == Some([j + 2, j + 3, j + 5])
  {
    MinuteTail(s, j + 3, mm);
    CharThen(s, j + 2, ':', [Group(MinuteDigits)], [j + 5]);
    assert [Char(':')] + [Group(MinuteDigits)] == [Char(':'), Group(MinuteDigits)] && [j + 3] + [j + 5] == [j + 3, j + 5];
    HourThen(s, j, hh, [Char(':'), Group(MinuteDigits)], [j + 3, j + 5]);
    assert [Group(HourDigits)] + [Char(':'), Group(MinuteDigits)] == [Group(HourDigits), Char(':'), Group(MinuteDigits)];
    assert [j + 2] + [j + 3, j + 5] == [j + 2, j + 3, j + 5];
  }

  /** Whitespace from `i` to `j`, then `%H:%M`. */
  lemma TimeFrom(s: string, i: nat, j: nat, hh: nat, mm: nat)
    requires DigitsAt(s, j, hh) && hh < 24 && j + 2 < |s| && s[j + 2] == ':' && DigitsAt(s, j + 3, mm) && mm < 60
    requires i < j && forall k :: i <= k < j ==> IsSpace(s[k])
    ensures Match(s, i, [Blanks, Group(HourDigits), Char(':'), Group(MinuteDigits)]) == Some([j, j + 2, j + 3, j + 5])
  {
    var clock := [Group(HourDigits), Char(':'), Group(MinuteDigits)];
    ClockFrom(s, j, hh, mm);
    DigitNotSpace(s[j]);
    BlanksThen(s, i, j, clock, [j + 2, j + 3, j + 5]);
    assert [Blanks] + clock == [Blanks, Group(HourDigits), Char(':'), Group(MinuteDigits)];
    assert [j] + [j + 2, j + 3, j + 5] == [j, j + 2, j + 3, j + 5];
  }

  /** `%m%d` at 4, then `rest` from 8 on. */
  lemma MonthDayFrom(s: string, m: nat, d: nat, rest: seq<Item>, ends: seq<nat>)
    requires DigitsAt(s, 4, m) && 1 <= m <= 12 && DigitsAt(s, 6, d) && 1 <= d <= 31
    requires Match(s, 8, rest) == Some(ends)
    ensures Match(s, 4, [Group(MonthDigits), Group(DayDigits)] + rest) == Some([6, 8] + ends)
  {
    var days := [Group(DayDigits)] + rest;
    DayThen(s, 6, d, rest, ends);
    MonthThen(s, 4, m, days, [8] + ends);
    assert [Group(MonthDigits)] + days == [Group(MonthDigits), Group(DayDigits)] + rest;
    assert [6] + ([8] + ends) == [6, 8] + ends;
  }

  /** `%Y%m%d` from the start, then `rest` from 8 on. */
  lemma DateFrom(s: string, m: nat, d: nat, rest: seq<Item>, ends: seq<nat>)
    requires 8 <= |s| && AllDigits(s[..4]) && DigitsAt(s, 4, m) && 1 <= m <= 12 && DigitsAt(s, 6, d) && 1 <= d <= 31
    requires Match(s, 8, rest) == Some(ends)
    ensures Match(s, 0, [Group(YearDigits), Group(MonthDigits), Group(DayDigits)] + rest) == Some([4, 6, 8] + ends)
  {
    var months := [Group(MonthDigits), Group(DayDigits)] + rest;
    MonthDayFrom(s, m, d, rest, ends);
    assert s[0..4] == s[..4];
    YearThen(s, 0, months, [6, 8] + ends);
    assert [Group(YearDigits)] + months == [Group(YearDigits), Group(MonthDigits), Group(DayDigits)] + rest;
    assert [4] + ([6, 8] + ends) == [4, 6, 8] + ends;
  }

  /** The match of a text laid out as a printed start, with `n` blanks. */
  lemma StartLayout(s: string, n: nat, m: nat, d: nat, hh: nat, mm: nat)
    requires 0 < n && 13 + n <= |s| && AllDigits(s[..4])
    requires DigitsAt(s, 4, m) && 1 <= m <= 12 && DigitsAt(s, 6, d) && 1 <= d <= 31
    requires forall k :: 8 <= k < 8 + n ==> IsSpace(s[k])
    requires DigitsAt(s, 8 + n, hh) && hh < 24 && s[10 + n] == ':' && DigitsAt(s, 11 + n, mm) && mm < 60
    ensures Match(s, 0, StartExpression) == Some(StartEnds(n))
  {
    var time := [Blanks, Group(HourDigits), Char(':'), Group(MinuteDigits)];
    TimeFrom(s, 8, 8 + n, hh, mm);
    DateFrom(s, m, d, time, [8 + n, 10 + n, 11 + n, 13 + n]);
    StartParts(n);
  }

  /** The start expression and its ends, as a date part and a time part. */
  lemma StartParts(n: nat)
    ensures [Group(YearDigits), Group(MonthDigits), Group(DayDigits)] + [Blanks, Group(HourDigits), Char(':'), Group(MinuteDigits)]
            == StartExpression
    ensures [4, 6, 8] + [8 + n, 10 + n, 11 + n, 13 + n] == StartEnds(n)
  {
  }

  /** The characters of `sp`, placed at `i`. */
  lemma SpacesAt(s: string, i: nat, sp: string)
    requires i + |sp| <= |s| && s[i..i + |sp|] == sp && Spaces(sp)
    ensures forall k :: i <= k < i + |sp| ==> IsSpace(s[k])
  {
    forall k | i <= k < i + |sp| ensures IsSpace(s[k]) {
      assert s[k] == sp[k - i];
    }
  }

  /** The match of a printed start: every field takes its two digits, and
      `\s+` takes all of the whitespace. */
  lemma StartMatch(y: nat, m: nat, d: nat, sp: string, hh: nat, mm: nat, rest: string)
    requires y < 10000 && 1 <= m <= 12 && 1 <= d <= 31 && hh < 24 && mm < 60
    requires |sp| > 0 && Spaces(sp)
    ensures Match(StartText(y, m, d, sp, hh, mm) + rest, 0, StartExpression) == Some(StartEnds(|sp|))
  {
    var s, n := StartText(y, m, d, sp, hh, mm) + rest, |sp|;
    StartTextAt(y, m, d, sp, hh, mm, rest);
    PaddedAt(s, 4, m);
    PaddedAt(s, 6, d);
    PaddedAt(s, 8 + n, hh);
    PaddedAt(s, 11 + n, mm);
    SpacesAt(s, 8, sp);
    StartLayout(s, n, m, d, hh, mm);
  }

  // ---------------------------------------------------------------------------
  // Reading a printed text

  /** What `ParseDateTime` makes of a match. */
  lemma ParseMatched(s: string, ends: seq<nat>)
    requires Match(s, 0, StartExpression) == Some(ends)
    ensures Fits(s, 0, StartExpression, ends) && |ends| == 7 && ends[6] <= |s|
    ensures ends[6] < |s| ==> ParseDateTime(s) == Err(Unconverted(s[ends[6]..]))
    ensures ends[6] == |s| ==> ParseDateTime(s) == FieldsMoment(StartFields(s, ends))
  {
    MatchSound(s, 0, StartExpression);
    LastEnd(s, 0, StartExpression, ends);
  }

  /** The fields read from a printed start are the numbers printed. */
  lemma StartTextFields(y: nat, m: nat, d: nat, sp: string, hh: nat, mm: nat, rest: string)
    requires y < 10000 && 1 <= m <= 12 && 1 <= d <= 31 && hh < 24 && mm < 60
    requires |sp| > 0 && Spaces(sp)
    ensures var s := StartText(y, m, d, sp, hh, mm) + rest;
            && Match(s, 0, StartExpression) == Some(StartEnds(|sp|)) && Fits(s, 0, StartExpression, StartEnds(|sp|))
            && StartFields(s, StartEnds(|sp|)) == Fields(y, m, d, hh, mm)
  {
    var s, n := StartText(y, m, d, sp, hh, mm) + rest, |sp|;
    StartMatch(y, m, d, sp, hh, mm, rest);
    MatchSound(s, 0, StartExpression);
    StartTextAt(y, m, d, sp, hh, mm, rest);
    assert s[6..8][0] == Pad2(d)[0] && IsDigit(Pad2(d)[0]);
  }

  /** The moment, or the error, for fields within the ranges the
      expression lets through. */
  lemma FieldsOutcome(y: nat, m: nat, d: nat, hh: nat, mm: nat)
    requires y < 10000 && 1 <= m <= 12 && 1 <= d <= 31 && hh < 24 && mm < 60
    ensures FieldsMoment(Fields(y, m, d, hh, mm)) ==
              if y == 0 then Err(ValueError("year 0 is out of range"))
              else if d > DaysInMonth(y, m) then Err(ValueError("day is out of range for month"))
              else Ok(DateTime(Date(y, m, d), hh * 3600 + mm * 60))
  {
    if y == 0 {
      assert "year " + IntToString(0) + " is out of range" == "year 0 is out of range" by {
        assert NatToDigits(0) == "0";
      }
    }
  }

  /** Where a printed start ends. */
  lemma StartTextRest(y: nat, m: nat, d: nat, sp: string, hh: nat, mm: nat, rest: string)
    requires y < 10000 && m < 100 && d < 100 && hh < 100 && mm < 100
    ensures var s := StartText(y, m, d, sp, hh, mm) + rest;
            |s| == 13 + |sp| + |rest| && s[13 + |sp|..] == rest
  {
  }

  /** A printed start followed by `rest` is read as its fields when nothing
      follows, and reports what follows otherwise. */
  lemma StartTextRead(y: nat, m: nat, d: nat, sp: string, hh: nat, mm: nat, rest: string)
    requires y < 10000 && 1 <= m <= 12 && 1 <= d <= 31 && hh < 24 && mm < 60
    requires |sp| > 0 && Spaces(sp)
    ensures ParseDateTime(StartText(y, m, d, sp, hh, mm) + rest) ==
              if |rest| > 0 then Err(Unconverted(rest)) else FieldsMoment(Fields(y, m, d, hh, mm))
  {
    var s := StartText(y, m, d, sp, hh, mm) + rest;
    StartTextFields(y, m, d, sp, hh, mm, rest);
    StartTextRest(y, m, d, sp, hh, mm, rest);
    ParseMatched(s, StartEnds(|sp|));
  }

  /** `datetime.strptime` of a printed start followed by `rest`: what is
      left over is reported first, then a year 0, then a day the month does
      not have. */
  lemma ParseStartText(y: nat, m: nat, d: nat, sp: string, hh: nat, mm: nat, rest: string)
    requires y < 10000 && 1 <= m <= 12 && 1 <= d <= 31 && hh < 24 && mm < 60
    requires |sp| > 0 && Spaces(sp)
    ensures ParseDateTime(StartText(y, m, d, sp, hh, mm) + rest) ==
              if |rest| > 0 then Err(Unconverted(rest))
              else if y == 0 then Err(ValueError("year 0 is out of range"))
              else if d > DaysInMonth(y, m) then Err(ValueError("day is out of range for month"))
              else Ok(DateTime(Date(y, m, d), hh * 3600 + mm * 60))
  {
    StartTextRead(y, m, d, sp, hh, mm, rest);
    FieldsOutcome(y, m, d, hh, mm);
  }

  /** `strftime("%Y%m%d %H:%M")` of a whole-minute moment is a printed start
      with one space. */
  lemma PrintedStart(t: DateTime)
    requires ValidDateTime(t) && t.second % 60 == 0
    ensures Hour(t) < 24 && Minute(t) < 60 && Hour(t) * 3600 + Minute(t) * 60 == t.second
    ensures FormatDate(t.date) + " " + FormatHourMinute(t)
            == StartText(t.date.year, t.date.month, t.date.day, " ", Hour(t), Minute(t)) + []
  {
    ClockParts(t);
  }

  /** A whole-minute moment printed as `%Y%m%d %H:%M` reads back as itself. */
  lemma ParseFormatted(t: DateTime)
    requires ValidDateTime(t) && t.second % 60 == 0
    ensures ParseDateTime(FormatDate(t.date) + " " + FormatHourMinute(t)) == Ok(t)
  {
    var d, hh, mm := t.date, Hour(t), Minute(t);
    PrintedStart(t);
    var s := StartText(d.year, d.month, d.day, " ", hh, mm) + [];
    assert ParseDateTime(s) == Ok(t) by {
      ParseStartText(d.year, d.month, d.day, " ", hh, mm, []);
      assert d.year != 0 && d.day <= DaysInMonth(d.year, d.month);
      assert t == DateTime(Date(d.year, d.month, d.day), hh * 3600 + mm * 60);
    }
  }

  /** Four, two and two digits, a space, two digits, a colon and two
      digits: the form `strftime("%Y%m%d %H:%M")` prints. */
  predicate DateTimeShaped(s: string) {
    && |s| == 14 && AllDigits(s[..4]) && AllDigits(s[4..6]) && AllDigits(s[6..8]) && s[8] == ' '
    && AllDigits(s[9..11]) && s[11] == ':' && AllDigits(s[12..])
  }

  /** A complete match of a text in the printed form cuts it at the printed
      places. */
  lemma ShapedEnds(s: string, ends: seq<nat>)
    requires DateTimeShaped(s) && Fits(s, 0, StartExpression, ends) && |ends| == 7 && ends[6] == |s|
    ensures ends == StartEnds(1)
  {
    StartPieces(s, ends);
    YearPiece(s[..ends[0]]);
    MonthPiece(s[ends[0]..ends[1]]);
    DayPiece(s[ends[1]..ends[2]]);
    HourPiece(s[ends[3]..ends[4]]);
    assert IsSpace(s[ends[2]]) by { assert s[ends[2]..ends[3]][0] == s[ends[2]]; }
    if ends[2] < 8 {
      assert s[6..8][ends[2] - 6] == s[ends[2]];
      DigitNotSpace(s[ends[2]]);
      assert false;
    }
    assert IsSpace(s[ends[3] - 1]) by { assert s[ends[2]..ends[3]][ends[3] - 1 - ends[2]] == s[ends[3] - 1]; }
    if ends[3] > 9 {
      assert s[9..11][0] == s[9];
      DigitNotSpace(s[9]);
      assert false;
    }
    assert s[ends[4]] == ':' by { assert s[ends[4]..ends[5]][0] == s[ends[4]]; }
  }

  /** The moment read from a text in the printed form holds the numbers of
      its fields. */
  lemma ShapedFields(s: string)
    requires DateTimeShaped(s) && ParseDateTime(s).Ok?
    ensures ParseDateTime(s).value
            == DateTime(Date(DigitsToNat(s[..4]), DigitsToNat(s[4..6]), DigitsToNat(s[6..8])),
                        DigitsToNat(s[9..11]) * 3600 + DigitsToNat(s[12..]) * 60)
    ensures DigitsToNat(s[12..]) < 60
  {
    var ends := Match(s, 0, StartExpression).value;
    ParseMatched(s, ends);
    ShapedEnds(s, ends);
    assert s[6..8][0] == s[6] && s[12..14] == s[12..];
    assert DigitsToNat(s[12..]) == StartFields(s, ends).minute;
  }

  /** The date read from a text in the printed form prints as its first
      eight characters. */
  lemma ShapedDate(s: string)
    requires DateTimeShaped(s) && ParseDateTime(s).Ok?
    ensures FormatDate(ParseDateTime(s).value.date) == s[..8]
  {
    var date := s[..8];
    ShapedFields(s);
    assert date[..4] == s[..4] && date[4..6] == s[4..6] && date[6..] == s[6..8];
    assert AllDigits(date) by {
      forall i | 0 <= i < 8 ensures IsDigit(date[i]) {
        if i < 4 { assert date[i] == s[..4][i]; }
        else if i < 6 { assert date[i] == s[4..6][i - 4]; }
        else { assert date[i] == s[6..8][i - 6]; }
      }
    }
    PrintedDate(ParseDateTime(s).value.date, date);
  }

  /** The clock read from a text in the printed form prints as its last
      five characters. */
  lemma ShapedClock(s: string)
    requires DateTimeShaped(s) && ParseDateTime(s).Ok?
    ensures FormatHourMinute(ParseDateTime(s).value) == s[9..11] + ":" + s[12..]
  {
    ShapedFields(s);
    PrintedFields(ParseDateTime(s).value, s[9..11], s[12..]);
  }

  /** Reading a text in the printed form and printing the moment read gives
      the text back. */
  lemma ParsedPrintsBack(s: string)
    requires DateTimeShaped(s) && ParseDateTime(s).Ok?
    ensures FormatDate(ParseDateTime(s).value.date) + " " + FormatHourMinute(ParseDateTime(s).value) == s
  {
    ShapedDate(s);
    ShapedClock(s);
    ShapedJoin(s);
  }

  /** A text in the printed form is its date, a space and its clock. */
  lemma ShapedJoin(s: string)
    requires DateTimeShaped(s)
    ensures s == s[..8] + " " + (s[9..11] + ":" + s[12..])
  {
    assert s == s[..8] + s[8..9] + s[9..11] + s[11..12] + s[12..];
    assert s[8..9] == " " && s[11..12] == ":";
  }

  /** `-%m-%d` at 4, ending the text's match. */
  lemma IsoTail(s: string, m: nat, d: nat)
    requires DigitsAt(s, 8, d) && 1 <= d <= 31 && DigitsAt(s, 5, m) && 1 <= m <= 12 && s[4] == '-' && s[7] == '-'
    ensures Match(s, 4, [Char('-'), Group(MonthDigits), Char('-'), Group(DayDigits)]) == Some([5, 7, 8, 10])
  {
    var days, months := [Group(DayDigits)], [Group(MonthDigits), Char('-'), Group(DayDigits)];
    assert Match(s, 10, []) == Some([]);
    DayThen(s, 8, d, [], []);
    assert [Group(DayDigits)] + [] == days && [10] + [] == [10];
    CharThen(s, 7, '-', days, [10]);
    assert [Char('-')] + days == months[1..] && [8] + [10] == [8, 10];
    MonthThen(s, 5, m, months[1..], [8, 10]);
    assert [Group(MonthDigits)] + months[1..] == months && [7] + [8, 10] == [7, 8, 10];
    CharThen(s, 4, '-', months, [7, 8, 10]);
    assert [Char('-')] + months == [Char('-'), Group(MonthDigits), Char('-'), Group(DayDigits)];
    assert [5] + [7, 8, 10] == [5, 7, 8, 10];
  }

  /** The match of a text laid out as a printed ISO date. */
  lemma IsoLayout(s: string, m: nat, d: nat)
    requires DigitsAt(s, 8, d) && 1 <= d <= 31 && DigitsAt(s, 5, m) && 1 <= m <= 12
    requires AllDigits(s[..4]) && s[4] == '-' && s[7] == '-'
    ensures Match(s, 0, IsoExpression) == Some([4, 5, 7, 8, 10])
  {
    var tail := [Char('-'), Group(MonthDigits), Char('-'), Group(DayDigits)];
    IsoTail(s, m, d);
    assert s[0..4] == s[..4];
    YearThen(s, 0, tail, [5, 7, 8, 10]);
    assert [Group(YearDigits)] + tail == IsoExpression && [4] + [5, 7, 8, 10] == [4, 5, 7, 8, 10];
  }

  /** The match of a printed ISO date: every field takes its digits. */
  lemma IsoMatch(d: Date)
    requires ValidDate(d)
    ensures Match(FormatIsoDate(d), 0, IsoExpression) == Some([4, 5, 7, 8, 10])
  {
    var s := FormatIsoDate(d);
    assert s[..4] == Pad4(d.year) && s[5..7] == Pad2(d.month) && s[8..] == Pad2(d.day);
    PaddedAt(s, 5, d.month);
    PaddedAt(s, 8, d.day);
    IsoLayout(s, d.month, d.day);
  }

  /** A date printed as `%Y-%m-%d` reads back as itself. */
  lemma ParseIsoFormatted(d: Date)
    requires ValidDate(d)
    ensures ParseIsoDate(FormatIsoDate(d)) == Ok(d)
  {
    var s, ends := FormatIsoDate(d), [4, 5, 7, 8, 10];
    IsoMatch(d);
    MatchSound(s, 0, IsoExpression);
    assert IsoFields(s, ends) == Fields(d.year, d.month, d.day, 0, 0) by {
      assert s[..4] == Pad4(d.year) && s[5..7] == Pad2(d.month) && s[8..10] == Pad2(d.day);
      assert s[8..10][0] == Pad2(d.day)[0] && IsDigit(Pad2(d.day)[0]);
    }
  }

  /** A text that does not open with four digits does not match `%Y`, so
      `strptime` reports that it does not match the format. */
  lemma NoLeadingYear(s: string)
    requires |s| < 4 || !AllDigits(s[..4])
    ensures ParseDateTime(s) == Err(NoMatch(s, StartFormat))
    ensures ParseIsoDate(s) == Err(NoMatch(s, IsoFormat))
  {
    if Match(s, 0, StartExpression).Some? {
      var ends := Match(s, 0, StartExpression).value;
      MatchSound(s, 0, StartExpression);
      StartPieces(s, ends);
      YearPiece(s[..ends[0]]);
      assert false;
    }
    if Match(s, 0, IsoExpression).Some? {
      var ends := Match(s, 0, IsoExpression).value;
      MatchSound(s, 0, IsoExpression);
      IsoPieces(s, ends);
      YearPiece(s[..ends[0]]);
      assert false;
    }
  }

  /** Two digits, a colon and two digits: `%H:%M` as `strftime` prints it. */
  predicate ClockShaped(clock: string) {
    |clock| == 5 && AllDigits(clock[..2]) && clock[2] == ':' && AllDigits(clock[3..])
  }

  /** Where the pieces of `\s+%H:%M` fall in a text that ends with a printed
      `HH:MM` at `n`. */
  lemma ClockEnds(s: string, n: nat, ends: seq<nat>)
    requires n + 5 == |s| && IsDigit(s[n]) && IsDigit(s[n + 1]) && IsDigit(s[n + 3]) && IsDigit(s[n + 4])
    requires |ends| == 7 && ends[2] <= ends[3] <= ends[4] <= ends[5] <= ends[6] == |s|
    requires ItemFits(Blanks, s[ends[2]..ends[3]]) && ItemFits(Group(HourDigits), s[ends[3]..ends[4]])
    requires s[ends[4]..ends[5]] == [':'] && ItemFits(Group(MinuteDigits), s[ends[5]..ends[6]])
    ensures ends[3] == n && ends[4] == n + 2 && ends[5] == n + 3
    ensures DigitsToNat(s[n..n + 2]) < 24 && DigitsToNat(s[n + 3..]) < 60
  {
    MinutePiece(s[ends[5]..ends[6]]);
    HourPiece(s[ends[3]..ends[4]]);
    assert s[ends[4]] == ':' by { assert s[ends[4]..ends[5]][0] == s[ends[4]]; }
    assert IsSpace(s[ends[3] - 1]) by { assert s[ends[2]..ends[3]][ends[3] - 1 - ends[2]] == s[ends[3] - 1]; }
  }

  /** A text that ends with a printed `HH:MM` and parses is read with that
      hour and minute: the digits before the colon cannot be split between
      `%H` and `\s+`. */
  lemma ClockAtEnd(head: string, clock: string)
    requires ClockShaped(clock) && ParseDateTime(head + clock).Ok?
    ensures DigitsToNat(clock[..2]) < 24 && DigitsToNat(clock[3..]) < 60
    ensures ParseDateTime(head + clock).value.second == DigitsToNat(clock[..2]) * 3600 + DigitsToNat(clock[3..]) * 60
  {
    var s, n := head + clock, |head|;
    var ends := Match(s, 0, StartExpression).value;
    ParseMatched(s, ends);
    StartPieces(s, ends);
    assert s[n..] == clock;
    assert IsDigit(s[n]) && IsDigit(s[n + 1]) && IsDigit(s[n + 3]) && IsDigit(s[n + 4]) by {
      assert s[n] == clock[..2][0] && s[n + 1] == clock[..2][1];
      assert s[n + 3] == clock[3..][0] && s[n + 4] == clock[3..][1];
    }
    ClockEnds(s, n, ends);
    assert s[ends[3]..ends[4]] == clock[..2] && s[ends[5]..ends[6]] == clock[3..];
  }
}

=== FILE: text.dfy ===
/** The Python string operations the glue code relies on: `str.split()`,
    `str.split(sep)`, `str.splitlines()`, `str.strip(chars)`, `str.replace`,
    `re.sub` with a one-character wildcard, `sub in s`, `int()`, `str(int)`,
    `float()` on plain decimals and `os.path.basename`. */
module Text {
  import opened Outcomes

  // ---------------------------------------------------------------------------
  // Character classes

  /** The characters `str.isspace()` accepts, which `str.split()` with no
      argument treats as separators. */
  predicate IsSpace(c: char) {
    c == ' ' || c == '\t' || c == '\n' || c == '\r' || c == '\U{0B}' || c == '\U{0C}'
    || ('\U{1C}' <= c <= '\U{1F}') || c == '\U{85}' || c == '\U{A0}' || c == '\U{1680}'
    || ('\U{2000}' <= c <= '\U{200A}') || c == '\U{2028}' || c == '\U{2029}'
    || c == '\U{202F}' || c == '\U{205F}' || c == '\U{3000}'
  }

  /** The line boundaries of `str.splitlines()`. */
  predicate IsLineBreak(c: char) {
    c == '\n' || c == '\r' || c == '\U{0B}' || c == '\U{0C}' || c == '\U{1C}'
    || c == '\U{1D}' || c == '\U{1E}' || c == '\U{85}' || c == '\U{2028}' || c == '\U{2029}'
  }

  predicate NoSpace(s: string) {
    forall i :: 0 <= i < |s| ==> !IsSpace(s[i])
  }

  predicate NoLineBreak(s: string) {
    forall i :: 0 <= i < |s| ==> !IsLineBreak(s[i])
  }

  predicate IsDigit(c: char) {
    '0' <= c <= '9'
  }

  predicate AllDigits(s: string) {
    forall i :: 0 <= i < |s| ==> IsDigit(s[i])
  }

  function DigitChar(d: nat): (c: char)
    requires d < 10
    ensures IsDigit(c) && c as int - '0' as int == d
  {
    "0123456789"[d]
  }

  function DigitValue(c: char): (d: nat)
    requires IsDigit(c)
    ensures d < 10 && DigitChar(d) == c
  {
    (c as int - '0' as int) as nat
  }

  // ---------------------------------------------------------------------------
  // Decimal numerals

  /** The value of a string of decimal digits, most significant first. */
  function DigitsToNat(s: string): nat
    requires AllDigits(s)
  {
    if |s| == 0 then 0 else DigitsToNat(s[..|s| - 1]) * 10 + DigitValue(s[|s| - 1])
  }

  /** The shortest decimal numeral of `n`, as `str(n)` prints it. */
  function NatToDigits(n: nat): (s: string)
    ensures |s| > 0 && AllDigits(s)
  {
    if n < 10 then [DigitChar(n)] else NatToDigits(n / 10) + [DigitChar(n % 10)]
  }

  lemma {:induction false} DigitsRoundTrip(n: nat)
    ensures DigitsToNat(NatToDigits(n)) == n
  {
    if n >= 10 {
      var s := NatToDigits(n);
      assert s[..|s| - 1] == NatToDigits(n / 10);
      DigitsRoundTrip(n / 10);
    }
  }

  /** `str(i)` for a Python int. */
  function IntToString(i: int): (s: string)
    ensures |s| > 0
    ensures i >= 0 ==> AllDigits(s)
    ensures i < 0 ==> s[0] == '-' && AllDigits(s[1..])
  {
    if i < 0 then "-" + NatToDigits(-i) else NatToDigits(i)
  }

  /** `int(s)` for a token without surrounding whitespace: an optional sign
      followed by at least one ASCII digit; anything else is a ValueError,
      here `None`. */
  function ParseInt(s: string): (r: Option<int>)
    ensures r.Some? ==> |s| > 0
    ensures r.Some? && AllDigits(s) ==> r.value == DigitsToNat(s)
  {
    if |s| > 0 && (s[0] == '-' || s[0] == '+') then
      if |s| > 1 && AllDigits(s[1..]) then
        var v: int := DigitsToNat(s[1..]);
        Some(if s[0] == '-' then -v else v)
      else None
    else if |s| > 0 && AllDigits(s) then Some(DigitsToNat(s))
    else None
  }

  /** `int(str(i)) == i`: the numeral printed for an integer reads back as it. */
  lemma IntRoundTrip(i: int)
    ensures ParseInt(IntToString(i)) == Some(i)
  {
    if i < 0 {
      NegativeRoundTrip(-i);
      assert IntToString(i) == "-" + NatToDigits(-i);
    } else {
      NumeralRoundTrip(i);
      assert IntToString(i) == NatToDigits(i);
    }
  }

  /** A numeral reads back as its value. */
  lemma NumeralRoundTrip(n: nat)
    ensures ParseInt(NatToDigits(n)) == Some(n as int)
  {
    var s := NatToDigits(n);
    assert IsDigit(s[0]);
    DigitsRoundTrip(n);
  }

  /** A minus sign before a numeral reads back as the negated value. */
  lemma NegativeRoundTrip(n: nat)
    ensures ParseInt("-" + NatToDigits(n)) == Some(-(n as int))
  {
    var d := NatToDigits(n);
    var s := "-" + d;
    assert s[0] == '-' && s[1..] == d;
    DigitsRoundTrip(n);
  }

  /** The value of a concatenation of numerals. */
  lemma {:induction false} DigitsAppend(a: string, b: string)
    requires AllDigits(a) && AllDigits(b)
    ensures AllDigits(a + b)
    ensures DigitsToNat(a + b) == DigitsToNat(a) * Pow10(|b|) + DigitsToNat(b)
    decreases |b|
  {
    if |b| > 0 {
      var ab := a + b;
      var b' := b[..|b| - 1];
      assert ab[..|ab| - 1] == a + b';
      assert ab[|ab| - 1] == b[|b| - 1];
      DigitsAppend(a, b');
      var x, y, z := DigitsToNat(a), Pow10(|b'|), DigitsToNat(b');
      var last := DigitValue(b[|b| - 1]);
      assert DigitsToNat(ab) == DigitsToNat(a + b') * 10 + last;
      assert DigitsToNat(b) == z * 10 + last;
      assert Pow10(|b|) == y * 10;
      ShiftDecimal(x, y, z);
    } else {
      assert a + b == a;
    }
  }

  lemma ShiftDecimal(x: int, y: int, z: int)
    ensures (x * y + z) * 10 == x * (y * 10) + z * 10
  {
  }

  /** A zero-padded two-digit field, as `strftime("%m")` prints it. */
  function Pad2(n: nat): (s: string)
    requires n < 100
    ensures |s| == 2 && AllDigits(s) && DigitsToNat(s) == n
  {
    var s := [DigitChar(n / 10), DigitChar(n % 10)];
    assert s[..1] == [DigitChar(n / 10)];
    assert s[..1][..0] == [];
    assert DigitsToNat(s[..1]) == n / 10;
    s
  }

  /** A zero-padded four-digit field, as `strftime("%Y")` prints a year. */
  function Pad4(n: nat): (s: string)
    requires n < 10000
    ensures |s| == 4 && AllDigits(s) && DigitsToNat(s) == n
  {
    DigitsAppend(Pad2(n / 100), Pad2(n % 100));
    Pad2(n / 100) + Pad2(n % 100)
  }

  /** A two-digit numeral read and zero-padded again is itself. */
  lemma TwoDigits(s: string)
    requires |s| == 2 && AllDigits(s)
    ensures DigitsToNat(s) < 100 && Pad2(DigitsToNat(s)) == s
  {
    assert s[..1][..0] == [];
    assert DigitsToNat(s[..1]) == DigitValue(s[0]);
    var n := DigitsToNat(s);
    assert n == DigitValue(s[0]) * 10 + DigitValue(s[1]);
    assert n / 10 == DigitValue(s[0]) && n % 10 == DigitValue(s[1]);
  }

  /** A four-digit numeral read and zero-padded again is itself. */
  lemma FourDigits(s: string)
    requires |s| == 4 && AllDigits(s)
    ensures DigitsToNat(s) < 10000 && Pad4(DigitsToNat(s)) == s
  {
    var hi, lo := s[..2], s[2..];
    assert s == hi + lo;
    DigitsAppend(hi, lo);
    assert Pow10(2) == 100;
    TwoDigits(hi);
    TwoDigits(lo);
    var n := DigitsToNat(s);
    assert n == DigitsToNat(hi) * 100 + DigitsToNat(lo);
    assert n / 100 == DigitsToNat(hi) && n % 100 == DigitsToNat(lo);
  }

  /** `float(s)` for the plain decimal forms `[+-]digits[.digits]` and
      `[+-].digits`, as an exact rational value. */
  function ParseDecimal(s: string): (r: Option<real>)
  {
    if |s| > 0 && (s[0] == '-' || s[0] == '+') then
      match Unsigned(s[1..])
      case Some(v) => Some(if s[0] == '-' then -v else v)
      case None => None
    else Unsigned(s)
  }

  function Pow10(k: nat): (p: nat)
    ensures p > 0
  {
    if k == 0 then 1 else 10 * Pow10(k - 1)
  }

  function Unsigned(s: string): (r: Option<real>)
    ensures r.Some? ==> r.value >= 0.0
  {
    var p := IndexOf(s, '.');
    var whole := s[..p];
    var frac := if p < |s| then s[p + 1..] else "";
    if AllDigits(whole) && AllDigits(frac) && |whole| + |frac| > 0 then
      Some(DigitsToNat(whole) as real + DigitsToNat(frac) as real / Pow10(|frac|) as real)
    else None
  }

  lemma DecimalOfNumeral(n: nat)
    ensures ParseDecimal(NatToDigits(n)) == Some(n as real)
  {
    var s := NatToDigits(n);
    assert forall k :: 0 <= k < |s| ==> s[k] != '.';
    assert IndexOf(s, '.') == |s|;
    assert s[..|s|] == s;
    DigitsRoundTrip(n);
  }

  // ---------------------------------------------------------------------------
  // Searching

  /** The first index of `c` in `s`, or `|s|` when `c` does not occur. */
  function IndexOf(s: string, c: char): (i: nat)
    ensures i <= |s|
    ensures i < |s| ==> s[i] == c
    ensures forall k :: 0 <= k < i ==> s[k] != c
  {
    if |s| == 0 then 0 else if s[0] == c then 0 else 1 + IndexOf(s[1..], c)
  }

  /** `sub in s`. */
  predicate Contains(s: string, sub: string)
    decreases |s|
  {
    |sub| <= |s| && (s[..|sub|] == sub || Contains(s[1..], sub))
  }

  lemma {:induction false} ContainsAt(s: string, sub: string, i: nat)
    requires i + |sub| <= |s| && s[i..i + |sub|] == sub
    ensures Contains(s, sub)
    decreases i
  {
    if i > 0 {
      assert s[1..][i - 1..i - 1 + |sub|] == s[i..i + |sub|];
      ContainsAt(s[1..], sub, i - 1);
    }
  }

  /** Without a match anywhere, `sub in s` is false. */
  lemma {:induction false} NotContains(s: string, sub: string)
    requires forall i :: !MatchAt(s, i, Literal(sub))
    ensures !Contains(s, sub)
    decreases |s|
  {
    assert !MatchAt(s, 0, Literal(sub));
    if |sub| <= |s| {
      forall i ensures !MatchAt(s[1..], i, Literal(sub)) {
        if 0 <= i {
          MatchAtDrop(s, 1, i, Literal(sub));
        }
      }
      NotContains(s[1..], sub);
    }
  }

  /** Conversely, when `sub in s` is false there is no match anywhere. */
  lemma NoMatchOf(s: string, sub: string)
    requires !Contains(s, sub)
    ensures forall i :: !MatchAt(s, i, Literal(sub))
  {
    forall i | MatchAt(s, i, Literal(sub)) ensures false {
      ContainsAt(s, sub, i);
    }
  }

  // ---------------------------------------------------------------------------
  // Reading fixed text back

  /** The rest of `s` after the prefix `p`, if `s` starts with it. */
  function DropPrefix(s: string, p: string): (r: Option<string>)
    ensures r.Some? <==> |p| <= |s| && s[..|p|] == p
    ensures r.Some? ==> s == p + r.value
  {
    if |p| <= |s| && s[..|p|] == p then Some(s[|p|..]) else None
  }

  /** The text of `s` before the suffix `q`, if `s` ends with it. */
  function DropSuffix(s: string, q: string): (r: Option<string>)
    ensures r.Some? <==> |q| <= |s| && s[|s| - |q|..] == q
    ensures r.Some? ==> s == r.value + q
  {
    if |q| <= |s| && s[|s| - |q|..] == q then Some(s[..|s| - |q|]) else None
  }

  lemma DropPrefixOf(p: string, x: string)
    ensures DropPrefix(p + x, p) == Some(x)
  {
    assert (p + x)[..|p|] == p;
  }

  lemma DropSuffixOf(x: string, q: string)
    ensures DropSuffix(x + q, q) == Some(x)
  {
    assert (x + q)[|x|..] == q;
  }

  /** The first `c` of `x + rest` is the first character of `rest` when `x`
      has none. */
  lemma IndexOfAfter(x: string, c: char, rest: string)
    requires c !in x
    requires |rest| > 0 && rest[0] == c
    ensures IndexOf(x + rest, c) == |x|
    ensures (x + rest)[..|x|] == x && (x + rest)[|x|..] == rest
  {
    var s := x + rest;
    assert forall k :: 0 <= k < |x| ==> s[k] == x[k] && x[k] != c;
    assert s[|x|] == c;
  }

  // ---------------------------------------------------------------------------
  // Format strings

  /** A piece of a `str.format` template: literal text or a `{name}` field. */
  datatype Piece = Lit(text: string) | Field(name: string)

  /** `template.format(**args)`: fills every field from `args`; the first
      field with no argument fails with its name (Python's `KeyError`).
      Arguments no field names are ignored. */
  function Format(t: seq<Piece>, args: map<string, string>): (r: Result<string, string>)
    ensures r.Ok? <==> forall k :: 0 <= k < |t| && t[k].Field? ==> t[k].name in args
    ensures r.Err? ==> exists k :: 0 <= k < |t| && t[k] == Field(r.error) && r.error !in args
  {
    if |t| == 0 then Ok("")
    else
      var head: Result<string, string> :=
        match t[0]
        case Lit(text) => Ok(text)
        case Field(name) => if name in args then Ok(args[name]) else Err(name);
      match head
      case Err(name) => Err(name)
      case Ok(text) =>
        match Format(t[1..], args)
        case Err(name) =>
          assert forall k :: 1 <= k < |t| ==> t[k] == t[1..][k - 1];
          Err(name)
        case Ok(rest) =>
          assert forall k :: 1 <= k < |t| ==> t[k] == t[1..][k - 1];
          Ok(text + rest)
  }

  // ---------------------------------------------------------------------------
  // Joining and splitting

  /** `sep.join(parts)`. */
  function Join(parts: seq<string>, sep: string): string
  {
    if |parts| == 0 then ""
    else if |parts| == 1 then parts[0]
    else parts[0] + sep + Join(parts[1..], sep)
  }

  /** `s.split(c)` for a one-character separator: the pieces between the
      occurrences of `c`, empty pieces included. */
  function SplitOn(s: string, c: char): (parts: seq<string>)
    ensures |parts| > 0
    ensures forall k :: 0 <= k < |parts| ==> c !in parts[k]
    decreases |s|
  {
    var i := IndexOf(s, c);
    if i == |s| then [s] else [s[..i]] + SplitOn(s[i + 1..], c)
  }

  /** Joining the pieces of a split with the separator gives the string back. */
  lemma {:induction false} SplitOnJoin(s: string, c: char)
    ensures Join(SplitOn(s, c), [c]) == s
    decreases |s|
  {
    var i := IndexOf(s, c);
    if i < |s| {
      SplitOnJoin(s[i + 1..], c);
      assert s == s[..i] + [c] + s[i + 1..];
    }
  }

  /** Splitting a join of separator-free pieces gives the pieces back. */
  lemma {:induction false} JoinSplitOn(parts: seq<string>, c: char)
    requires |parts| > 0
    requires forall k :: 0 <= k < |parts| ==> c !in parts[k]
    ensures SplitOn(Join(parts, [c]), c) == parts
    decreases |parts|
  {
    if |parts| > 1 {
      var s := Join(parts, [c]);
      var p := parts[0];
      assert s == p + [c] + Join(parts[1..], [c]);
      assert IndexOf(s, c) == |p| by {
        assert s[|p|] == c;
        assert forall k :: 0 <= k < |p| ==> s[k] == p[k];
      }
      assert s[..|p|] == p;
      assert s[|p| + 1..] == Join(parts[1..], [c]);
      JoinSplitOn(parts[1..], c);
    } else {
      assert forall k :: 0 <= k < |parts[0]| ==> parts[0][k] != c;
      assert IndexOf(parts[0], c) == |parts[0]|;
    }
  }

  /** The longest prefix of `s` free of whitespace. */
  function Word(s: string): (w: string)
    ensures |w| <= |s| && w == s[..|w|]
    ensures NoSpace(w)
    ensures |w| < |s| ==> IsSpace(s[|w|])
  {
    if |s| == 0 || IsSpace(s[0]) then [] else [s[0]] + Word(s[1..])
  }

  /** `s.split()`: the maximal runs of non-whitespace characters, in order. */
  function SplitWords(s: string): (ws: seq<string>)
    ensures forall k :: 0 <= k < |ws| ==> |ws[k]| > 0 && NoSpace(ws[k])
    decreases |s|
  {
    if |s| == 0 then []
    else if IsSpace(s[0]) then SplitWords(s[1..])
    else var w := Word(s); [w] + SplitWords(s[|w|..])
  }

  lemma {:induction false} WordOfJoin(w: string, rest: string)
    requires NoSpace(w)
    requires |rest| == 0 || IsSpace(rest[0])
    ensures Word(w + rest) == w
    decreases |w|
  {
    if |w| > 0 {
      assert (w + rest)[1..] == w[1..] + rest;
      WordOfJoin(w[1..], rest);
    } else {
      assert w + rest == rest;
    }
  }

  /** `" ".join(ws).split() == ws` for non-empty whitespace-free words. */
  lemma {:induction false} SplitWordsJoin(ws: seq<string>)
    requires forall k :: 0 <= k < |ws| ==> |ws[k]| > 0 && NoSpace(ws[k])
    ensures SplitWords(Join(ws, " ")) == ws
    decreases |ws|
  {
    if |ws| == 1 {
      WordOfJoin(ws[0], "");
      assert ws[0] + "" == ws[0];
      assert ws[0][|ws[0]|..] == "";
    } else if |ws| > 1 {
      var tail := Join(ws[1..], " ");
      var s := Join(ws, " ");
      assert s == ws[0] + (" " + tail);
      WordOfJoin(ws[0], " " + tail);
      assert s[|ws[0]|..] == " " + tail;
      assert (" " + tail)[1..] == tail;
      SplitWordsJoin(ws[1..]);
    }
  }

  /** Splitting distributes over a concatenation whose seam is whitespace. */
  lemma {:induction false} SplitWordsAppend(a: string, b: string)
    requires |a| == 0 || |b| == 0 || IsSpace(a[|a| - 1]) || IsSpace(b[0])
    ensures SplitWords(a + b) == SplitWords(a) + SplitWords(b)
    decreases |a|, 1
  {
    if |a| == 0 {
      assert a + b == b;
    } else if IsSpace(a[0]) {
      assert (a + b)[1..] == a[1..] + b;
      SplitWordsAppend(a[1..], b);
    } else {
      SplitWordsAppendWord(a, b);
    }
  }

  /** The case of `SplitWordsAppend` where `a` starts with a word. */
  lemma {:induction false} SplitWordsAppendWord(a: string, b: string)
    requires |a| > 0 && !IsSpace(a[0])
    requires |b| == 0 || IsSpace(a[|a| - 1]) || IsSpace(b[0])
    ensures SplitWords(a + b) == SplitWords(a) + SplitWords(b)
    decreases |a|, 0
  {
    var w := Word(a);
    if |w| < |a| {
      assert a + b == w + (a[|w|..] + b);
      WordOfJoin(w, a[|w|..] + b);
      assert (a + b)[|w|..] == a[|w|..] + b;
      SplitWordsAppend(a[|w|..], b);
    } else if |b| == 0 {
      assert a + b == a;
    } else {
      assert w == a[..|a|] == a;
      assert !IsSpace(a[|a| - 1]);
      WordOfJoin(a, b);
      assert (a + b)[|a|..] == b;
      assert a[|a|..] == [];
    }
  }

  /** Whitespace-free pieces make a whitespace-free text. */
  lemma NoSpaceAppend(a: string, b: string)
    requires NoSpace(a) && NoSpace(b)
    ensures NoSpace(a + b)
  {
    forall k | 0 <= k < |a + b| ensures !IsSpace((a + b)[k]) {
      if k >= |a| {
        assert (a + b)[k] == b[k - |a|];
      }
    }
  }

  /** Words joined by spaces, then a space, then more text, split into those
      words followed by the words of the text. */
  lemma SplitWordsLead(ws: seq<string>, rest: string)
    requires |ws| > 0
    requires forall k :: 0 <= k < |ws| ==> |ws[k]| > 0 && NoSpace(ws[k])
    ensures SplitWords(Join(ws, " ") + " " + rest) == ws + SplitWords(rest)
  {
    var front := Join(ws, " ");
    var tail := " " + rest;
    assert IsSpace(tail[0]) && tail[1..] == rest;
    assert SplitWords(tail) == SplitWords(rest);
    SplitWordsJoin(ws);
    SplitWordsAppend(front, tail);
    assert front + " " + rest == front + tail;
  }

  /** A printed integer is one word. */
  lemma IntIsWord(i: int)
    ensures NoSpace(IntToString(i))
  {
    var s := IntToString(i);
    if i < 0 {
      assert forall k :: 1 <= k < |s| ==> s[k] == s[1..][k - 1];
    }
  }

  /** The text of `s` up to its first line boundary. */
  function LineText(s: string): (l: string)
    ensures |l| <= |s| && l == s[..|l|]
    ensures NoLineBreak(l)
    ensures |l| < |s| ==> IsLineBreak(s[|l|])
  {
    if |s| == 0 || IsLineBreak(s[0]) then [] else [s[0]] + LineText(s[1..])
  }

  /** `s.splitlines()`: lines without their terminators, `"\r\n"` counting as
      one terminator and no empty line after a final terminator. */
  function SplitLines(s: string): (ls: seq<string>)
    ensures forall k :: 0 <= k < |ls| ==> NoLineBreak(ls[k])
    ensures |s| == 0 <==> |ls| == 0
    decreases |s|
  {
    if |s| == 0 then []
    else
      var l := LineText(s);
      if |l| == |s| then [s]
      else
        var skip := if s[|l|] == '\r' && |l| + 1 < |s| && s[|l| + 1] == '\n' then 2 else 1;
        [l] + SplitLines(s[|l| + skip..])
  }

  /** The text of a file whose every line ends in `"\n"`. */
  function JoinLines(ls: seq<string>): string
  {
    if |ls| == 0 then "" else ls[0] + "\n" + JoinLines(ls[1..])
  }

  lemma {:induction false} LineTextOfJoin(l: string, rest: string)
    requires NoLineBreak(l)
    requires |rest| == 0 || IsLineBreak(rest[0])
    ensures LineText(l + rest) == l
    decreases |l|
  {
    if |l| > 0 {
      assert (l + rest)[1..] == l[1..] + rest;
      LineTextOfJoin(l[1..], rest);
    } else {
      assert l + rest == rest;
    }
  }

  /** Reading back newline-terminated lines gives exactly those lines. */
  lemma {:induction false} SplitLinesJoin(ls: seq<string>)
    requires forall k :: 0 <= k < |ls| ==> NoLineBreak(ls[k])
    ensures SplitLines(JoinLines(ls)) == ls
    decreases |ls|
  {
    if |ls| > 0 {
      var s := JoinLines(ls);
      var tail := JoinLines(ls[1..]);
      assert s == ls[0] + ("\n" + tail);
      LineTextOfJoin(ls[0], "\n" + tail);
      assert s[|ls[0]|] == '\n';
      assert s[|ls[0]| + 1..] == tail;
      SplitLinesJoin(ls[1..]);
    }
  }

  // ---------------------------------------------------------------------------
  // Stripping

  /** How many leading characters of `s` belong to `cs`. */
  function LeadCount(s: string, cs: set<char>): (n: nat)
    ensures n <= |s|
    ensures forall k :: 0 <= k < n ==> s[k] in cs
    ensures n < |s| ==> s[n] !in cs
  {
    if |s| == 0 || s[0] !in cs then 0 else 1 + LeadCount(s[1..], cs)
  }

  /** How many trailing characters of `s` belong to `cs`. */
  function TrailCount(s: string, cs: set<char>): (n: nat)
    ensures n <= |s|
    ensures forall k :: |s| - n <= k < |s| ==> s[k] in cs
    ensures n < |s| ==> s[|s| - n - 1] !in cs
  {
    if |s| == 0 || s[|s| - 1] !in cs then 0 else 1 + TrailCount(s[..|s| - 1], cs)
  }

  /** `s.strip(chars)`: `s` without its leading and trailing characters
      from `cs`. The result is the slice of `s` starting at
      `LeadCount(s, cs)`; everything cut off on either side is in `cs`, and
      the result neither starts nor ends with a character of `cs`. */
  function Strip(s: string, cs: set<char>): (r: string)
    ensures LeadCount(s, cs) + |r| <= |s|
    ensures r == s[LeadCount(s, cs)..LeadCount(s, cs) + |r|]
    ensures forall k :: LeadCount(s, cs) + |r| <= k < |s| ==> s[k] in cs
    ensures |r| > 0 ==> r[0] !in cs && r[|r| - 1] !in cs
  {
    var t := s[LeadCount(s, cs)..];
    t[..|t| - TrailCount(t, cs)]
  }

  /** Stripping removes exactly a leading run `p` and a trailing run `q` of
      characters of `cs` around a text `x` that neither starts nor ends with one. */
  lemma StripOf(p: string, x: string, q: string, cs: set<char>)
    requires forall k :: 0 <= k < |p| ==> p[k] in cs
    requires forall k :: 0 <= k < |q| ==> q[k] in cs
    requires |x| > 0 && x[0] !in cs && x[|x| - 1] !in cs
    ensures Strip(p + x + q, cs) == x
  {
    var s := p + x + q;
    LeadCountOf(p, x + q, cs);
    assert s == p + (x + q);
    var t := s[|p|..];
    assert t == x + q;
    TrailCountOf(x, q, cs);
  }

  lemma {:induction false} LeadCountOf(p: string, rest: string, cs: set<char>)
    requires forall k :: 0 <= k < |p| ==> p[k] in cs
    requires |rest| > 0 && rest[0] !in cs
    ensures LeadCount(p + rest, cs) == |p|
    decreases |p|
  {
    if |p| > 0 {
      assert (p + rest)[1..] == p[1..] + rest;
      LeadCountOf(p[1..], rest, cs);
    } else {
      assert p + rest == rest;
    }
  }

  lemma {:induction false} TrailCountOf(x: string, q: string, cs: set<char>)
    requires forall k :: 0 <= k < |q| ==> q[k] in cs
    requires |x| > 0 && x[|x| - 1] !in cs
    ensures TrailCount(x + q, cs) == |q|
    decreases |q|
  {
    if |q| > 0 {
      assert (x + q)[..|x + q| - 1] == x + q[..|q| - 1];
      TrailCountOf(x, q[..|q| - 1], cs);
    } else {
      assert x + q == x;
    }
  }

  // ---------------------------------------------------------------------------
  // Left-to-right rewriting

  /** What a rewrite looks for: a literal (`str.replace`) or the regular
      expression `.` followed by a literal (`re.sub('.' + ext, ...)`), whose
      `.` matches any character but a newline. */
  datatype Pattern = Literal(text: string) | AnyThen(suffix: string) {
    function Width(): nat {
      match this
      case Literal(t) => |t|
      case AnyThen(t) => |t| + 1
    }

    predicate Matches(w: string) {
      |w| == Width() &&
      match this
      case Literal(t) => w == t
      case AnyThen(t) => w[0] != '\n' && w[1..] == t
    }
  }

  /** The pattern matches `s` at index `i`. */
  predicate MatchAt(s: string, i: int, p: Pattern) {
    0 <= i && i + p.Width() <= |s| && p.Matches(s[i..i + p.Width()])
  }

  /** Replace every non-overlapping match of `p`, scanning left to right,
      with `repl` -- `str.replace(old, repl)` or `re.sub(pattern, repl, s)`. */
  function Rewrite(s: string, p: Pattern, repl: string): string
    requires p.Width() > 0
    decreases |s|
  {
    if |s| == 0 then []
    else if MatchAt(s, 0, p) then repl + Rewrite(s[p.Width()..], p, repl)
    else [s[0]] + Rewrite(s[1..], p, repl)
  }

  /** Without a match anywhere, a rewrite changes nothing. */
  lemma {:induction false} RewriteNoMatch(s: string, p: Pattern, repl: string)
    requires p.Width() > 0
    requires forall i :: !MatchAt(s, i, p)
    ensures Rewrite(s, p, repl) == s
    decreases |s|
  {
    if |s| > 0 {
      assert !MatchAt(s, 0, p);
      forall i ensures !MatchAt(s[1..], i, p) {
        if MatchAt(s[1..], i, p) {
          assert s[1..][i..i + p.Width()] == s[i + 1..i + 1 + p.Width()];
          assert MatchAt(s, i + 1, p);
        }
      }
      RewriteNoMatch(s[1..], p, repl);
    }
  }

  /** No match starts inside `a` and runs on into `b`. */
  predicate NoStraddle(a: string, b: string, p: Pattern) {
    forall i :: 0 <= i < |a| < i + p.Width() ==> !MatchAt(a + b, i, p)
  }

  lemma MatchAtDrop(s: string, k: nat, i: nat, p: Pattern)
    requires k <= |s|
    ensures MatchAt(s[k..], i, p) <==> MatchAt(s, i + k, p)
  {
    if i + p.Width() <= |s[k..]| {
      assert s[k..][i..i + p.Width()] == s[i + k..i + k + p.Width()];
    }
  }

  lemma NoStraddleDrop(a: string, b: string, k: nat, p: Pattern)
    requires k <= |a|
    requires NoStraddle(a, b, p)
    ensures NoStraddle(a[k..], b, p)
  {
    assert a[k..] + b == (a + b)[k..];
    forall i | 0 <= i < |a[k..]| < i + p.Width()
      ensures !MatchAt(a[k..] + b, i, p)
    {
      MatchAtDrop(a + b, k, i, p);
    }
  }

  /** A rewrite of `a + b` is the rewrite of `a` followed by that of `b` when no
      match starts inside `a` and runs on into `b`. */
  lemma {:induction false} RewriteAppend(a: string, b: string, p: Pattern, repl: string)
    requires p.Width() > 0
    requires NoStraddle(a, b, p)
    ensures Rewrite(a + b, p, repl) == Rewrite(a, p, repl) + Rewrite(b, p, repl)
    decreases |a|
  {
    var w := p.Width();
    if |a| == 0 {
      assert a + b == b;
    } else {
      var hit := MatchAt(a + b, 0, p);
      if w <= |a| {
        assert (a + b)[0..w] == a[0..w];
        assert hit == MatchAt(a, 0, p);
      } else {
        assert !hit;
      }
      var k := if hit then w else 1;
      assert (a + b)[k..] == a[k..] + b;
      NoStraddleDrop(a, b, k, p);
      RewriteAppend(a[k..], b, p, repl);
    }
  }

  /** `s.replace(target, replacement)` for a non-empty `target`. */
  function Replace(s: string, target: string, replacement: string): string
    requires |target| > 0
  {
    Rewrite(s, Literal(target), replacement)
  }

  // ---------------------------------------------------------------------------
  // Paths

  /** `os.path.basename(p)`: the text after the last `/`. */
  function Basename(p: string): (b: string)
    ensures '/' !in b
    ensures |b| <= |p| && b == p[|p| - |b|..]
    ensures |b| < |p| ==> p[|p| - |b| - 1] == '/'
    decreases |p|
  {
    if |p| == 0 then ""
    else if p[|p| - 1] == '/' then ""
    else
      var q := p[..|p| - 1];
      var b := Basename(q);
      assert p[|p| - |b| - 1..] == q[|q| - |b|..] + [p[|p| - 1]];
      b + [p[|p| - 1]]
  }

  /** Python's repr of a list of quote-free strings, as `str(list)` prints it. */
  function ListRepr(xs: seq<string>): string
  {
    "[" + Join(Quoted(xs), ", ") + "]"
  }

  function Quoted(xs: seq<string>): (qs: seq<string>)
    ensures |qs| == |xs|
    ensures forall k :: 0 <= k < |xs| ==> qs[k] == "'" + xs[k] + "'"
  {
    if |xs| == 0 then [] else ["'" + xs[0] + "'"] + Quoted(xs[1..])
  }
}

=== FILE: utils.dfy ===
/** The two helpers every RST step goes through: `file_exists` and
    `check_rst_command`. The file system and the shell are inputs: whether a
    path is a file, the command's exit code, and the files its output
    pattern matches with their sizes, in match order. */
module Utils {
  import opened Outcomes
  import opened Text
  import opened Builtins
  import opened Exceptions
  import opened Failures

  /** A file the output pattern of a command matched, with its size in bytes. */
  datatype MatchedFile = MatchedFile(name: string, size: nat)

  const MissingSuffix := " does not exists"

  /** `file_exists(filename)`: True for an existing file, otherwise an
      IOError whose message is the file name followed by `does not exists`. */
  function FileExists(filename: string, isFile: bool): (r: Result<bool, Failure>)
    ensures r.Ok? <==> isFile
    ensures r.Ok? ==> r.value
    ensures r.Err? ==> r.error.Builtin? && r.error.error.IOError?
                       && DropSuffix(r.error.error.message, MissingSuffix) == Some(filename)
  {
    if !isFile then
      DropSuffixOf(filename, MissingSuffix);
      Err(Builtin(IOError(filename + MissingSuffix)))
    else Ok(true)
  }

  /** The name a failing RST command is reported under: its first
      whitespace-separated word, or an IndexError for a blank command. */
  function CommandName(command: string): (r: Result<string, Failure>)
    ensures r.Ok? <==> |SplitWords(command)| > 0
    ensures r.Ok? ==> r.value == SplitWords(command)[0] && |r.value| > 0 && ' ' !in r.value
    ensures r.Err? ==> r.error == Builtin(IndexError)
  {
    var words := SplitWords(command);
    if |words| == 0 then Err(Builtin(IndexError))
    else
      assert forall i :: 0 <= i < |words[0]| ==> words[0][i] != ' ';
      Ok(words[0])
  }

  /** The position of the first empty file in match order, or the number
      of files when none is empty. */
  function FirstEmpty(matched: seq<MatchedFile>): (i: nat)
    ensures i <= |matched|
    ensures forall j :: 0 <= j < i ==> matched[j].size > 0
    ensures i < |matched| ==> matched[i].size == 0
  {
    if |matched| == 0 then 0
    else if matched[0].size == 0 then 0
    else 1 + FirstEmpty(matched[1..])
  }

  /** `check_rst_command(rst_command, filepath)` after the command ran with
      `exitCode` and its output pattern matched `matched`. A non-zero exit
      code is reported before any file is looked at; otherwise the first
      empty file in match order is reported. */
  function RstCheck(command: string, exitCode: int, matched: seq<MatchedFile>): (r: Result<(), Failure>)
    ensures r.Err? ==> r.error == Builtin(IndexError)
                       || (r.error.Raised? && (r.error.exception.RstException? || r.error.exception.RstFileEmpty?))
    ensures exitCode != 0 ==> r.Err? && !(r.error.Raised? && r.error.exception.RstFileEmpty?)
    ensures exitCode != 0 && |SplitWords(command)| > 0 ==>
              r == Err(Raised(RstException(SplitWords(command)[0], exitCode)))
    ensures exitCode != 0 && |SplitWords(command)| == 0 ==> r == Err(Builtin(IndexError))
    ensures exitCode == 0 ==> (r.Ok? <==> forall k :: 0 <= k < |matched| ==> matched[k].size > 0)
    ensures exitCode == 0 && r.Err? ==>
              exists i :: 0 <= i < |matched| && matched[i].size == 0
                          && (forall j :: 0 <= j < i ==> matched[j].size > 0)
                          && r.error == Raised(RstFileEmpty(matched[i].name))
  {
    if exitCode != 0 then
      match CommandName(command)
      case Err(e) => Err(e)
      case Ok(name) => Err(Raised(RstException(name, exitCode)))
    else
      var i := FirstEmpty(matched);
      if i < |matched| then Err(Raised(RstFileEmpty(matched[i].name))) else Ok(())
  }

  /** The same check as a loop over the matched files, as the source runs it. */
  method CheckRstCommand(command: string, exitCode: int, matched: seq<MatchedFile>)
    returns (r: Result<(), Failure>)
    ensures r == RstCheck(command, exitCode, matched)
  {
    if exitCode != 0 {
      var name := CommandName(command);
      if name.Err? {
        return Err(name.error);
      }
      return Err(Raised(RstException(name.value, exitCode)));
    }
    var i := 0;
    while i < |matched|
      invariant 0 <= i <= |matched|
      invariant forall j :: 0 <= j < i ==> matched[j].size > 0
    {
      if matched[i].size == 0 {
        return Err(Raised(RstFileEmpty(matched[i].name)));
      }
      i := i + 1;
    }
    return Ok(());
  }
}

=== FILE: warnings.dfy ===
/** The warnings of the convection-map process. They are raised, not merely
    issued, so each one ends the operation that raises it. Two constructors
    cannot succeed as called: `OmniFileNotFoundWarning` takes no argument
    but is once given one, and `EmptyDataFileWarning` formats its message
    with a misspelt keyword. */
module Warnings {
  import opened Outcomes
  import opened Text
  import opened Builtins

  datatype MapWarning =
    | OmniFileNotGenerated(omniFilename: string, date: string)
    | OmniFileNotFound
    | OmniBadData(date: string)
    | EmptyDataFile(dataFilename: string)
    | FileNotFound(dataFilename: string, process: string)
    | ConvertFailed(psFile: string, extension: string)

  const NotGeneratedPrefix := "Omni file: "
  const NotGeneratedMiddle := ", was not generated for the date "
  const NotGeneratedSuffix := ". The omni data will not be used in the convection map  process"
  const NotFoundMessage := "No ONMI file was found "
  const BadDataPrefix := "The IMF file for the date "
  const BadDataSuffix := "  was not generated because there was no good data  in the omni file"
  const FileNotFoundPrefix := "Data file "
  const FileNotFoundMiddle := " does not exist, will not be used in the"
  const ProcessSuffix := " process"
  const ConvertPrefix := "Warning: convert command could not convert "
  const ConvertMiddle := " to "
  const ConvertSuffix := " format"

  /** The template of `EmptyDataFileWarning`, whose fields are `filename`
      and `processname`. */
  const EmptyDataTemplate: seq<Piece> :=
    [Lit("Data file "), Field("filename"), Lit(" is Empty, will not be used in the "),
     Field("processname"), Lit(" process")]

  /** The `message` attribute of each warning. */
  function Message(w: MapWarning): string
    requires !w.EmptyDataFile?
  {
    match w
    case OmniFileNotGenerated(f, d) => NotGeneratedPrefix + f + NotGeneratedMiddle + d + NotGeneratedSuffix
    case OmniFileNotFound => NotFoundMessage
    case OmniBadData(d) => BadDataPrefix + d + BadDataSuffix
    case FileNotFound(f, p) => FileNotFoundPrefix + f + FileNotFoundMiddle + p + ProcessSuffix
    case ConvertFailed(ps, ext) => ConvertPrefix + ps + ConvertMiddle + ext + ConvertSuffix
  }

  /** A parameter name as CPython quotes it in an argument-count message. */
  function Quoted(name: string): string {
    "'" + name + "'"
  }

  /** The missing parameter names as CPython lists them: `'a'`,
      `'a' and 'b'`, or `'a', 'b', and 'c'`. */
  function QuotedNames(names: seq<string>): string
    requires |names| > 0
  {
    if |names| == 1 then Quoted(names[0])
    else if |names| == 2 then Quoted(names[0]) + " and " + Quoted(names[1])
    else SerialNames(names)
  }

  /** Three or more names, each followed by a comma and the last after `and`. */
  function SerialNames(names: seq<string>): string
    requires |names| > 0
  {
    if |names| == 1 then "and " + Quoted(names[0])
    else Quoted(names[0]) + ", " + SerialNames(names[1..])
  }

  /** The noun after a count of arguments. */
  function ArgumentWord(n: nat): string {
    if n == 1 then "argument" else "arguments"
  }

  /** The TypeError CPython (3.10 and later) raises when `cls.__init__`,
      whose parameters after `self` are `params`, none with a default, is
      called with `given` positional arguments. The counts of the "takes"
      form include `self`. */
  function ArityError(cls: string, params: seq<string>, given: nat): (e: BuiltinError)
    requires given != |params|
    ensures e.TypeError?
  {
    var prefix := cls + ".__init__() ";
    if given > |params| then
      TypeError(prefix + "takes " + IntToString(|params| + 1) + " positional " + ArgumentWord(|params| + 1)
                + " but " + IntToString(given + 1) + " were given")
    else
      var missing := params[given..];
      TypeError(prefix + "missing " + IntToString(|missing|) + " required positional " + ArgumentWord(|missing|)
                + ": " + QuotedNames(missing))
  }

  /** `OmniFileNotFoundWarning(*args)`: only the call without arguments
      builds the warning. */
  function NewOmniFileNotFound(args: seq<string>): (r: Result<MapWarning, BuiltinError>)
    ensures r.Ok? <==> |args| == 0
    ensures r.Ok? ==> r.value == OmniFileNotFound && Message(r.value) == NotFoundMessage
    ensures r.Err? ==> r.error.TypeError?
  {
    if |args| == 0 then Ok(OmniFileNotFound) else Err(ArityError("OmniFileNotFoundWarning", [], |args|))
  }

  /** The one-argument call of `omni_file_to_imf` gets CPython's message
      for one argument too many. */
  lemma OmniFileNotFoundOneArgument(name: string)
    ensures NewOmniFileNotFound([name])
            == Err(TypeError("OmniFileNotFoundWarning" + ".__init__() " + "takes " + "1" + " positional " + "argument"
                             + " but " + "2" + " were given"))
  {
    assert IntToString(1) == "1" && IntToString(2) == "2";
  }

  /** The parameters of `EmptyDataFileWarning.__init__` after `self`. */
  const EmptyDataParams: seq<string> := ["data_file", "process"]

  /** `EmptyDataFileWarning(*args)`: with the two arguments it declares, the
      message format names the keyword `processneame` while the template
      asks for `processname`, so construction always fails. */
  function NewEmptyDataFile(args: seq<string>): (r: Result<MapWarning, BuiltinError>)
    ensures r.Err?
    ensures |args| == 2 ==> r.error == KeyError("processname")
    ensures |args| != 2 ==> r.error.TypeError?
  {
    if |args| != 2 then Err(ArityError("EmptyDataFileWarning", EmptyDataParams, |args|))
    else
      var kwargs := map["filename" := args[0], "processneame" := args[1]];
      assert "processname"[8] != "processneame"[8];
      assert "processname" !in kwargs;
      assert EmptyDataTemplate[3] == Field("processname");
      var formatted := Format(EmptyDataTemplate, kwargs);
      Err(KeyError(formatted.error))
  }

  /** The driver's one-argument call lacks `process`, and the call without
      arguments lacks both; the messages are CPython's. */
  lemma EmptyDataFileMissingArguments(dataFile: string)
    ensures NewEmptyDataFile([dataFile])
            == Err(TypeError("EmptyDataFileWarning" + ".__init__() " + "missing " + "1" + " required positional " + "argument"
                             + ": " + Quoted("process")))
    ensures NewEmptyDataFile([])
            == Err(TypeError("EmptyDataFileWarning" + ".__init__() " + "missing " + "2" + " required positional " + "arguments"
                             + ": " + (Quoted("data_file") + " and " + Quoted("process"))))
  {
    assert IntToString(1) == "1" && IntToString(2) == "2";
    assert EmptyDataParams[1..] == ["process"];
    assert EmptyDataParams[0..] == EmptyDataParams;
  }

  // ---------------------------------------------------------------------------
  // Reading messages back

  function ParseNotGenerated(m: string): Option<(string, string)> {
    match DropPrefix(m, NotGeneratedPrefix)
    case None => None
    case Some(rest) =>
      match DropSuffix(rest, NotGeneratedSuffix)
      case None => None
      case Some(body) =>
        var i := IndexOf(body, ',');
        match DropPrefix(body[i..], NotGeneratedMiddle)
        case None => None
        case Some(d) => Some((body[..i], d))
  }

  function ParseBadData(m: string): Option<string> {
    match DropPrefix(m, BadDataPrefix)
    case None => None
    case Some(rest) => DropSuffix(rest, BadDataSuffix)
  }

  function ParseFileNotFound(m: string): Option<(string, string)> {
    match DropPrefix(m, FileNotFoundPrefix)
    case None => None
    case Some(rest) =>
      var i := IndexOf(rest, ' ');
      match DropPrefix(rest[i..], FileNotFoundMiddle)
      case None => None
      case Some(tail) =>
        match DropSuffix(tail, ProcessSuffix)
        case None => None
        case Some(p) => Some((rest[..i], p))
  }

  function ParseConvert(m: string): Option<(string, string)> {
    match DropPrefix(m, ConvertPrefix)
    case None => None
    case Some(rest) =>
      var i := IndexOf(rest, ' ');
      match DropPrefix(rest[i..], ConvertMiddle)
      case None => None
      case Some(tail) =>
        match DropSuffix(tail, ConvertSuffix)
        case None => None
        case Some(ext) => Some((rest[..i], ext))
  }

  // ---------------------------------------------------------------------------
  // Properties of the messages

  /** The file name and the date can be read back from the
      `OmniFileNotGeneratedWarning` message, for a file name without a comma. */
  lemma NotGeneratedRoundTrip(f: string, d: string)
    requires ',' !in f
    ensures ParseNotGenerated(Message(OmniFileNotGenerated(f, d))) == Some((f, d))
  {
    var body := f + (NotGeneratedMiddle + d);
    var m := Message(OmniFileNotGenerated(f, d));
    assert m == NotGeneratedPrefix + f + NotGeneratedMiddle + d + NotGeneratedSuffix;
    Regroup(NotGeneratedPrefix, f, NotGeneratedMiddle, d, NotGeneratedSuffix);
    DropPrefixOf(NotGeneratedPrefix, body + NotGeneratedSuffix);
    DropSuffixOf(body, NotGeneratedSuffix);
    IndexOfAfter(f, ',', NotGeneratedMiddle + d);
    DropPrefixOf(NotGeneratedMiddle, d);
  }

  /** Five pieces joined, grouped as the parser takes them apart. */
  lemma Regroup(a: string, b: string, c: string, d: string, e: string)
    ensures a + b + c + d + e == a + ((b + (c + d)) + e)
  {
  }

  /** The date can be read back from the `OmniBadDataWarning` message. */
  lemma BadDataRoundTrip(d: string)
    ensures ParseBadData(Message(OmniBadData(d))) == Some(d)
  {
    assert Message(OmniBadData(d)) == BadDataPrefix + (d + BadDataSuffix);
    DropPrefixOf(BadDataPrefix, d + BadDataSuffix);
    DropSuffixOf(d, BadDataSuffix);
  }

  /** The data file and the process can be read back from the
      `FileNotFoundWarning` message, for a file name without spaces; the
      process name is glued to the word `the` before it. */
  lemma FileNotFoundRoundTrip(f: string, p: string)
    requires ' ' !in f
    ensures ParseFileNotFound(Message(FileNotFound(f, p))) == Some((f, p))
  {
    var tail := FileNotFoundMiddle + (p + ProcessSuffix);
    var m := Message(FileNotFound(f, p));
    assert m == FileNotFoundPrefix + f + FileNotFoundMiddle + p + ProcessSuffix;
    assert m == FileNotFoundPrefix + (f + tail);
    DropPrefixOf(FileNotFoundPrefix, f + tail);
    IndexOfAfter(f, ' ', tail);
    DropPrefixOf(FileNotFoundMiddle, p + ProcessSuffix);
    DropSuffixOf(p, ProcessSuffix);
  }

  /** The process name follows `the` with no space between them. */
  lemma FileNotFoundGluesProcess(f: string, p: string)
    ensures DropSuffix(Message(FileNotFound(f, p)), "the" + p + ProcessSuffix).Some?
  {
    var lead := FileNotFoundPrefix + f + " does not exist, will not be used in ";
    assert FileNotFoundMiddle == " does not exist, will not be used in " + "the";
    assert Message(FileNotFound(f, p)) == lead + ("the" + p + ProcessSuffix);
    DropSuffixOf(lead, "the" + p + ProcessSuffix);
  }

  /** The ps file and the extension can be read back from the
      `ConvertWarning` message, for a ps file name without spaces. */
  lemma ConvertRoundTrip(ps: string, ext: string)
    requires ' ' !in ps
    ensures ParseConvert(Message(ConvertFailed(ps, ext))) == Some((ps, ext))
  {
    var tail := ConvertMiddle + (ext + ConvertSuffix);
    var m := Message(ConvertFailed(ps, ext));
    assert m == ConvertPrefix + ps + ConvertMiddle + ext + ConvertSuffix;
    assert m == ConvertPrefix + (ps + tail);
    DropPrefixOf(ConvertPrefix, ps + tail);
    IndexOfAfter(ps, ' ', tail);
    DropPrefixOf(ConvertMiddle, ext + ConvertSuffix);
    DropSuffixOf(ext, ConvertSuffix);
  }
}
